=== FILE: README.md ===
# go-ytdlp-bot core, modelled in Dafny

This project models the stateful core of go-ytdlp-bot, a Telegram bot that
downloads videos with yt-dlp and ships a small web dashboard. The model covers:

- the per-URL download cache, where one download runs per URL, concurrent
  callers wait on it, results expire after a TTL and a sweep loop evicts them;
- the schema migrator;
- the SQLite stores for access control, downloads, URL filters, logs and
  statistics;
- the log writer that stores zerolog lines and fans them out to live
  subscribers;
- the dashboard's filter forms and its session handling;
- the bot's decision whether a message is a video link, and what its
  download handler does with one.

Each Go component is one Dafny module. Each module is a set of pure
functions over immutable values: tables are sequences of rows with
auto-increment ids, and maps stand for keyed tables. A few operations are
methods with loops where the Go code loops. The clock is an integer
supplied by the caller. Every external effect is an input rather than an
action: database errors, random tokens, yt-dlp, the file system,
Telegram, URL parsing, regular expressions and JSON.

| file | module | models |
|---|---|---|
| wrappers.dfy | Wrappers | `Option` |
| text.dfy | Text | Go `strings.TrimSpace`/`Split`/`Join`, SQLite `replace`/`instr` |
| ordering.dfy | Ordering | `WHERE` as a filter, `ORDER BY ... DESC` as a stable sort, `LIMIT`/`OFFSET` |
| tables.dfy | Tables | an `AUTOINCREMENT` table: rows in id order, ids never reused |
| strconv.dfy | GoStrconv | Go `strconv.ParseInt(s, 10, 64)` including its error values |
| web.dfy | Web | form values and handler responses |
| cache.dfy | DownloadCache | internal/cache/cache.go |
| migrations.dfy | Migrations | internal/database/migrations.go |
| access.dfy | AccessStore | internal/database/access.go |
| downloads.dfy | Downloads | internal/database/downloads.go |
| filters.dfy | FilterStore | internal/database/filters.go |
| dashboard_filters.dfy | FilterHandlers | internal/dashboard/filters.go |
| stats.dfy | Stats | internal/database/stats.go |
| logs.dfy | Logs | internal/database/logs.go |
| dbwriter.dfy | LogFanout | internal/logger/dbwriter.go |
| auth.dfy | Sessions | internal/dashboard/auth.go |
| bot.dfy | VideoBot | internal/bot/bot.go |

## Model

| member | source | states |
|---|---|---|
| DownloadCache.Lookup | internal/cache/cache.go:56-85 | A cached result is served only from a done entry with no error whose expiry is still ahead. A caller that finds an entry in progress waits on it and changes nothing. Otherwise a fresh in-progress entry, owned by the caller, replaces whatever the URL held. |
| DownloadCache.Publish | internal/cache/cache.go:88-94 | The owner's entry becomes done with exactly the download's result and error. A success expires ttl after completion; a failure keeps the zero expiry. No other entry changes. |
| DownloadCache.ReleaseByKey | internal/cache/cache.go:96-100 | As written, a failed owner removes whatever entry the URL maps to now. All other URLs keep their entries. |
| DownloadCache.ReleaseOwned | internal/cache/cache.go:96-100 | The corrected delete removes the URL's entry only when it is still the owner's own entry. |
| DownloadCache.Await | internal/cache/cache.go:68-77 | A waiter receives the owner's (result, err) once the entry is done, or its own context error. It blocks only while the entry is in progress and its context is live. |
| DownloadCache.FileToRemove | internal/cache/cache.go:128 | A file is removed only when removeFiles is set and the entry holds a result. |
| DownloadCache.Evict | internal/cache/cache.go:124-141 | A sweep removes exactly the done entries whose expiry has passed. In-progress entries and every other entry are kept unchanged. |
| DownloadCache.FilesToRemove | internal/cache/cache.go:126-139 | The files a sweep removes are exactly those of expired done entries with a result, and none at all when removeFiles is off. |
| DownloadCache.Cleanup | internal/cache/cache.go:119-146 | The loop over the map evicts exactly what Evict keeps out and collects exactly FilesToRemove. The entry goes whether or not the removal failed. |
| DownloadCache.Stop | internal/cache/cache.go:149-151 | Stop only marks the loop stopped and leaves every entry untouched. |
| DownloadCache.Tick | internal/cache/cache.go:105-117 | A wake-up of the loop sweeps while the loop runs. After Stop, Go's select picks at random: the ticker's case still sweeps, and the stop case ends the loop, after which nothing is swept again. |
| DownloadCache.New | internal/cache/cache.go:41-51 | A new cache is empty, well formed and running, with the given ttl and removeFiles. |
| DownloadCache.ReuseWithinTtl | internal/cache/cache.go:58-93 | After a success completing at time d, a lookup serves the result iff now < d + ttl, and otherwise starts a new download. |
| DownloadCache.FailureNeverReused | internal/cache/cache.go:62-100 | A failed entry is never served, whether the lookup comes before or after the owner's delete. |
| DownloadCache.SweepAfterTtl | internal/cache/cache.go:124-141 | A successful entry survives a sweep iff now <= completion + ttl. |
| DownloadCache.StepCommonKeepsInv | internal/cache/cache.go:55-151 | Every step other than the owner's delete keeps the in-flight invariant: each downloading caller owns the URL's current in-progress entry. |
| DownloadCache.StepOwnedKeepsInv | internal/cache/cache.go:53-103 | With the identity-checked delete, every interleaving keeps the invariant, so at most one download per URL runs at a time. |
| DownloadCache.StepKeepsInvOutsideWindow | internal/cache/cache.go:96-100 | As written, the invariant and single flight are kept by every step except a failed owner's delete after another caller has replaced its entry. |
| DownloadCache.DeleteByKeyRace | internal/cache/cache.go:96-100 | A concrete seven-step schedule in which the as-written delete removes a newer caller's entry, so two downloads of the same URL run at once. |
| DownloadCache.WaiterSeesOwnersResult | internal/cache/cache.go:71-73 | A waiter whose context is live returns exactly the pair its entry's owner published. |
| DownloadCache.OwnerReturnsDownloadResult | internal/cache/cache.go:88-102 | The owner returns exactly the (result, err) its download produced. |
| Migrations.Apply | internal/database/migrations.go:7-70 | Existing tables are kept by every step. Step 3 gives every existing user status 'approved'. The other steps leave users alone. |
| Migrations.MaxVersion | internal/database/migrations.go:81 | `COALESCE(MAX(version), 0)`: 0 for no rows, otherwise a recorded version at least every other one. |
| Migrations.RunFrom | internal/database/migrations.go:86-105 | A run that starts past the last step changes nothing. Any failure is a step failure naming a migration above the starting index and at most 3. |
| Migrations.Commit | internal/database/migrations.go:93-104 | A committed step applies step i's SQL to the schema and records version i+1 and no other version. |
| Migrations.RunFromCompletes | internal/database/migrations.go:86-105 | A completed run records exactly the earlier versions plus every version above the starting index, no step it passed had a fault, and the schema has every step from the start to the last applied in order. |
| Migrations.RunFromStops | internal/database/migrations.go:86-105 | A run that stops at migration n records exactly the earlier versions plus those between the start and n. The error's fail point is step n's fault or, with no fault, the insert of an already recorded version n. The schema has exactly the steps before n applied: step n's transaction is rolled back. |
| Migrations.RunFromSchema | internal/database/migrations.go:86-105 | Each step commits its SQL and its version together, so the schema a run leaves is every step from the start up to the one that failed, or to the last. |
| Migrations.RunMigrations | internal/database/migrations.go:72-108 | A failed table creation or version read stops the run before any step. Otherwise the run starts at the recorded maximum. A success adds exactly the versions above it and applies every later step to the schema; a step failure at n names a migration above the maximum and leaves the schema with only the steps before n applied. |
| Migrations.RunFromSucceeds | internal/database/migrations.go:86-107 | With no fault from step i on and no recorded version above i, the run succeeds. |
| Migrations.NoSpuriousConflict | internal/database/migrations.go:81-99 | Starting from the maximum, a step never fails by inserting a version that is already recorded. |
| Migrations.SuccessLeavesAllVersions | internal/database/migrations.go:86-107 | A successful run from a gapless prefix leaves exactly versions 1..3 recorded. |
| Migrations.SecondRunIsNoOp | internal/database/migrations.go:81-107 | A second run after a success executes no step and reports no error. |
| Migrations.FailureThenResume | internal/database/migrations.go:87-104 | A failure at migration n leaves exactly 1..n-1 recorded. A later clean run resumes there and completes 1..3. |
| Migrations.GapsBelowMaxStay | internal/database/migrations.go:81-86 | With version 3 recorded, nothing runs and the missing 1 and 2 stay missing. |
| Migrations.ExistingUsersBecomeApproved | internal/database/migrations.go:68-69 | Users present when migration 3 runs end up with status 'approved'. |
| Migrations.FreshInstallCreatesTables | internal/database/migrations.go:7-70 | A fresh database gets every table and versions [1, 2, 3]. |
| AccessStore.AddPendingGroup | internal/database/access.go:21-27 | An unseen chat gets a pending row stamped now. An existing row keeps its title, status and added_at. Other rows are unchanged. |
| AccessStore.AddAllowedGroup | internal/database/access.go:45-51 | The group is left approved with the new title whatever it was before. added_at restarts, and no other row changes. |
| AccessStore.ApproveGroup | internal/database/access.go:29-32 | Only the status of an existing row becomes approved. A missing id is a no-op. |
| AccessStore.RejectGroup | internal/database/access.go:34-37 | Only the status of an existing row becomes rejected. A missing id is a no-op. |
| AccessStore.RemoveGroup | internal/database/access.go:53-56 | Exactly that group's row is gone, whatever its status. |
| AccessStore.RegisterUser | internal/database/access.go:94-101 | An unseen user is inserted pending. An existing user has only the name refreshed, so status and added_at are kept. |
| AccessStore.AddAllowedUser | internal/database/access.go:125-132 | The user is approved with the new name. added_at is kept on conflict and is now for a new row. |
| AccessStore.ApproveUser | internal/database/access.go:103-106 | Only the status of an existing user becomes approved. A missing id is a no-op. |
| AccessStore.RejectUser | internal/database/access.go:108-111 | Only the status of an existing user becomes rejected. A missing id is a no-op. |
| AccessStore.RemoveUser | internal/database/access.go:134-137 | Exactly that user's row is gone. |
| AccessStore.ListByStatus | internal/database/access.go:74-90 | The listing holds exactly the rows with that status, each once, newest added_at first. |
| AccessStore.ListPendingGroups | internal/database/access.go:39-41 | Exactly the pending groups, each once and with its stored row, newest added_at first. |
| AccessStore.ListAllowedGroups | internal/database/access.go:58-60 | Exactly the approved groups, each once and with its stored row, newest added_at first. |
| AccessStore.ListPendingUsers | internal/database/access.go:113-115 | Exactly the pending users, each once and with its stored row, newest added_at first. |
| AccessStore.ListAllowedUsers | internal/database/access.go:139-141 | Exactly the approved users, each once and with its stored row, newest added_at first. |
| AccessStore.IsGroupAllowed | internal/database/access.go:62-66 | A group is allowed iff it has a row whose status is approved. |
| AccessStore.IsGroupPending | internal/database/access.go:68-72 | A group is pending iff it has a row whose status is pending. |
| AccessStore.IsUserPending | internal/database/access.go:117-121 | A user is pending iff they have a row whose status is pending. |
| AccessStore.IsUserAllowed | internal/database/access.go:143-147 | A user is allowed iff they have a row whose status is approved. |
| AccessStore.RegisterKeepsAdmission | internal/database/access.go:94-101 | Registering neither grants nor revokes approval, and neither clears nor sets rejection. |
| AccessStore.RemoveThenRegisterIsPending | internal/database/access.go:134-137 | A removed user who writes again comes back pending, not approved. |
| AccessStore.AddPendingGroupIdempotent | internal/database/access.go:21-27 | A second AddPendingGroup for the same chat is a no-op. |
| AccessStore.AllowedGroupRestartsAddedAt | internal/database/access.go:45-51 | INSERT OR REPLACE restarts added_at, where an UPDATE approval would keep it. |
| AccessStore.UserScenario | internal/database/access.go:94-106 | In this scenario a user is registered pending and refused, then approved and allowed, and stays approved after re-registering under a new name. |
| Downloads.InsertDownload | internal/database/downloads.go:24-33 | One row with the given fields is appended under an id above every earlier id. |
| Downloads.UpdateDownloadStatus | internal/database/downloads.go:35-41 | Only status, filename and error_message of that id change. Every other field and row is kept. |
| Downloads.UpdateMissingIsNoOp | internal/database/downloads.go:35-41 | Updating a missing id changes nothing. |
| Downloads.LastWriteWins | internal/database/downloads.go:35-41 | Nothing guards terminal states: two updates equal the second one alone. |
| Downloads.Ordered | internal/database/downloads.go:48-71 | Exactly the rows matching the status and user filters, as many as counted, newest created_at first. |
| Downloads.EffectiveLimit | internal/database/downloads.go:44-46 | A zero limit becomes 50. Any other limit is kept. |
| Downloads.ListDownloads | internal/database/downloads.go:43-89 | The page is exactly the matching rows, newest first, that follow the first offset of them, at most the limit (50 for a zero limit). The total counts every match, whatever the paging. |
| Downloads.ListIsPage | internal/database/downloads.go:43-89 | With a non-zero limit, the page is `LIMIT ? OFFSET ?` over the matching rows, newest first, so Ordering.PageSplit's tiling applies to it. |
| Downloads.LimitZeroIsFifty | internal/database/downloads.go:44-46 | Limit 0 and limit 50 give the same result. |
| Downloads.TotalIgnoresPaging | internal/database/downloads.go:48-68 | The total depends only on the status and user filters. |
| Downloads.EveryMatchIsListed | internal/database/downloads.go:49-71 | With no offset and no limit, every matching row is listed. |
| Downloads.GetDownloadStats | internal/database/downloads.go:97-105 | The total is all rows. Succeeded and failed count exactly the rows with that status, and together they are at most the total. |
| FilterStore.BoolToInt | internal/database/filters.go:116-121 | The stored flag is 0 or 1, and it is non-zero iff the flag is true. |
| FilterStore.BoolRoundTrip | internal/database/filters.go:116-121 | Reading the stored flag back with `!= 0` gives the original flag. |
| FilterStore.SplitHosts | internal/database/filters.go:123-135 | The empty column gives no hosts. Every host returned is non-empty, trimmed and on one line. A column of white space gives none. |
| FilterStore.HostsRoundTrip | internal/database/filters.go:123-135 | Non-empty, trimmed, newline-free hosts survive joining with newlines and splitting again. |
| FilterStore.Store | internal/database/filters.go:17-31 | The row written keeps the regex and cookies file. Its flag reads back as given, and clean hosts read back as given. |
| FilterStore.Load | internal/database/filters.go:49-58 | A row reads back with its id, regex and cookies file, and its flag as `!= 0`. |
| FilterStore.InsertFilter | internal/database/filters.go:17-26 | One row is appended under the next id, above every earlier id. |
| FilterStore.UpdateFilter | internal/database/filters.go:28-34 | All four columns of that id are overwritten and its creation time is kept. Other rows are unchanged, and a missing id is a no-op. |
| FilterStore.DeleteFilter | internal/database/filters.go:36-39 | Exactly the rows with that id are gone. A missing id is a no-op. |
| FilterStore.ListFilters | internal/database/filters.go:41-61 | Every row is listed once, in ascending id order, read back by Load. |
| FilterStore.FilterCount | internal/database/filters.go:63-67 | The count is zero iff the table is empty. |
| FilterStore.InsertThenList | internal/database/filters.go:17-61 | A filter inserted with clean hosts is listed last, with every field as inserted. |
| FilterStore.UpdateThenList | internal/database/filters.go:28-61 | After an update the row with that id lists with the new fields and its old creation time. Every other row lists as before. |
| FilterStore.InsertAll | internal/database/filters.go:87-91 | Filters inserted one after another land in order after the existing rows, each under a new id. |
| FilterStore.SeedFilters | internal/database/filters.go:71-114 | A table with rows is left alone. An empty table receives the configured filters in order, or the six defaults when none are configured. |
| FilterStore.SeedTwiceIsSeedOnce | internal/database/filters.go:77-83 | A second seed finds rows and does nothing. |
| FilterStore.DefaultsAreClean | internal/database/filters.go:100-105 | Every default host is clean, so the defaults list back exactly as written. |
| FilterStore.SeedThenList | internal/database/filters.go:85-112 | After seeding an empty table, the listing holds the seeded filters in order, with their flags, regexes and cookies. Clean hosts come back unchanged. |
| FilterStore.SeededDefaults | internal/database/filters.go:95-112 | Without configuration, the six defaults list back with their hosts, the query flag set, and no regex or cookies. |
| FilterHandlers.ParseHostsInput | internal/dashboard/filters.go:86-97 | Every host is non-empty and trimmed, and contains no ',' or newline. Text made only of white space and commas gives no host. |
| FilterHandlers.ParseAtNewline | internal/dashboard/filters.go:88-95 | Lines are parsed in order: the first line's hosts come first. |
| FilterHandlers.ParseAtComma | internal/dashboard/filters.go:89-94 | Within a line, the pieces are parsed in order. |
| FilterHandlers.ParseOne | internal/dashboard/filters.go:86-97 | A single clean host without a comma parses to itself. |
| FilterHandlers.ParseLines | internal/dashboard/filters.go:86-97 | Clean, comma-free hosts written one per line parse back to the same list. |
| FilterHandlers.Submitted | internal/dashboard/filters.go:23-32 | The regex and cookies file are trimmed. The exclude flag is true iff the field is exactly "on". |
| FilterHandlers.FormId | internal/dashboard/filters.go:44 | The id is the 64-bit value ParseInt returns with its error ignored. An unparsable id is 0. |
| FilterHandlers.AddFilter | internal/dashboard/filters.go:22-41 | No hosts gives 400 with nothing stored. A store failure gives 500. Otherwise the filter is listed last, and the browser goes back to /filters. |
| FilterHandlers.UpdateFilter | internal/dashboard/filters.go:43-68 | Id 0, including an unparsable id, gives 400 before any database call, and so do missing hosts. Otherwise that row lists with the submitted fields and every other row is unchanged. |
| FilterHandlers.DeleteFilter | internal/dashboard/filters.go:70-84 | Id 0, including an unparsable id, gives 400 before any database call. Otherwise exactly that id's row is gone. |
| FilterHandlers.UnparsableIdIsRefused | internal/dashboard/filters.go:44-48 | A non-numeric id never reaches the database, in update or in delete. |
| FilterHandlers.TypedHostsSurvive | internal/dashboard/filters.go:22-41 | Hosts typed one per line into the add form are listed back exactly. |
| GoStrconv.ParseInt | internal/dashboard/filters.go:71 | The result is always within int64. A syntax error gives 0, overflow gives the bound on its side, and "" is a syntax error. |
| GoStrconv.ParseFormat | internal/dashboard/filters.go:71 | Every int64 id written in decimal parses back to itself without error. |
| GoStrconv.OverflowClamps | internal/dashboard/filters.go:44 | A run of digits too long for 64 bits is read as MaxInt64, whatever follows it. |
| Stats.Domain | internal/database/stats.go:60-64 | The domain is a prefix of the URL with "https://" and then "http://" removed, ending at that text's first '/', and never contains '/'. |
| Stats.DomainOfHttpsUrl | internal/database/stats.go:60-64 | For "https://" + h + "/" + p, the domain is h, provided h has no '/' and does not end in "https:" or "http:". |
| Stats.DomainStraddles | internal/database/stats.go:60-64 | Without that proviso it fails: "https://https://x" has domain "x". |
| Stats.UserIds | internal/database/stats.go:34 | The distinct user ids are exactly the ids on some row, no more of them than rows. |
| Stats.GroupCount | internal/database/stats.go:39-42 | GROUP BY gives one bucket per distinct key, holding that key's number of rows. |
| Stats.DailyCounts | internal/database/stats.go:39-57 | There is one bucket per day with downloads in the last 30 days, each with that day's count. Days strictly descend and none precedes the window, and the counts sum to at most the row count. |
| Stats.Top | internal/database/stats.go:59-67 | The result is at most limit buckets, most rows first, one per key, with true counts. A key is left out only when the list is full, and then it has no more rows than any listed key. |
| Stats.TopDomains | internal/database/stats.go:59-79 | There are at most 10 domains, by non-increasing download count, each with its true count. A domain left out has no more downloads than any listed one. |
| Stats.GetStats | internal/database/stats.go:22-82 | The total is every row, succeeded and failed count the rows with that status, and active users is the number of distinct user ids. The daily counts are one bucket per recent day, latest first, with that day's true count. The top domains are at most 10, each with its true count. |
| Logs.InsertLog | internal/database/logs.go:20-29 | One entry is appended under an id above every earlier id. |
| Logs.Newest | internal/database/logs.go:36-60 | Exactly the entries matching the level and search filters, as many as counted, highest id first. |
| Logs.EffectiveLimit | internal/database/logs.go:32-34 | A zero limit becomes 100. |
| Logs.ListLogs | internal/database/logs.go:31-78 | The page is exactly the matching entries, highest id first, that follow the first offset of them, at most the limit (100 for a zero limit). The total counts every match. |
| Logs.ListIsPage | internal/database/logs.go:31-78 | With a non-zero limit, the page is `LIMIT ? OFFSET ?` over the matching entries, highest id first. |
| Logs.ConsecutivePages | internal/database/logs.go:59-78 | Paging loses and repeats nothing: n entries from the offset, then m more, equal n + m entries from the offset. |
| Logs.LimitZeroIsHundred | internal/database/logs.go:32-34 | Limit 0 and limit 100 give the same result. |
| Logs.TotalIgnoresPaging | internal/database/logs.go:36-57 | The total depends only on the level and search filters. |
| Logs.EmptySearchIgnoresLike | internal/database/logs.go:45-50 | An empty search does not consult LIKE, and the level alone decides. |
| Logs.ListLogsSince | internal/database/logs.go:80-100 | Exactly the entries with a larger id, lowest id first. |
| Logs.SinceHighIsEmpty | internal/database/logs.go:80-100 | Polling from the highest id handed out finds nothing until the next insert. |
| Logs.SinceSeesNewEntry | internal/database/logs.go:80-100 | After an insert, a poll from any id sees what it saw before plus the new entry when its id is larger. |
| LogFanout.NewWriter | internal/logger/dbwriter.go:28-33 | A new writer has no subscribers. |
| LogFanout.StringField | internal/logger/dbwriter.go:42-43 | Level and message are taken only when they hold strings. An absent or non-string value gives "". |
| LogFanout.Extra | internal/logger/dbwriter.go:45-48 | The remaining fields are exactly the line's fields other than level, message and time, with their values. |
| LogFanout.FieldsJson | internal/logger/dbwriter.go:50-55 | Fields are "{}" when nothing remains or encoding fails. Otherwise they are the encoding of what remains. |
| LogFanout.Offer | internal/logger/dbwriter.go:62-65 | The send never blocks: a channel with room buffers the event, and a full one keeps its buffer. |
| LogFanout.Broadcast | internal/logger/dbwriter.go:60-67 | Every current subscriber, and no other channel, is offered the event. |
| LogFanout.Write | internal/logger/dbwriter.go:36-70 | Write always reports len(p). A line that does not decode into a map changes nothing; `null` decodes to the empty map and is stored. Otherwise its event is stored when the insert succeeds and is broadcast either way. |
| LogFanout.Subscribe | internal/logger/dbwriter.go:73-79 | A fresh, open, empty channel joins, and the other channels are unchanged. |
| LogFanout.Unsubscribe | internal/logger/dbwriter.go:82-87 | Exactly that channel leaves and is closed, and the others are unchanged. Closing a channel twice panics. |
| LogFanout.WriteKeepsValid | internal/logger/dbwriter.go:60-67 | Writing keeps every buffer within its 64 slots and every subscriber open. |
| LogFanout.FieldsIgnoreKnownKeys | internal/logger/dbwriter.go:45-55 | Two lines differing only in level, message and time store the same fields, so those keys never reach the fields column. |
| LogFanout.OnlyKnownKeysGiveEmptyFields | internal/logger/dbwriter.go:50-55 | A line holding only level, message and time stores "{}". |
| LogFanout.InsertFailureStillBroadcasts | internal/logger/dbwriter.go:57-67 | A failed insert does not change what subscribers receive. |
| LogFanout.StoredIsBroadcast | internal/logger/dbwriter.go:57-63 | The stored entry and the event a subscriber with room receives have the same level, message and fields. |
| LogFanout.SubscriberGetsEventIffRoom | internal/logger/dbwriter.go:60-67 | A subscriber gets the event iff its buffer has fewer than 64 events. |
| LogFanout.UnsubscribedGetsNothing | internal/logger/dbwriter.go:82-87 | After unsubscribing, later writes never reach the channel. |
| LogFanout.SubscribeUnsubscribe | internal/logger/dbwriter.go:73-87 | Subscribing and then unsubscribing the new channel restores the subscriber set. |
| Sessions.IsAuthenticated | internal/dashboard/auth.go:84-98 | A request is authenticated iff it carries a cookie naming a session whose expiry has not passed. |
| Sessions.RequireAuth | internal/dashboard/auth.go:100-108 | The wrapped handler runs iff the request is authenticated. Otherwise the browser goes to /login. |
| Sessions.LoginPage | internal/dashboard/auth.go:27-33 | A signed-in visitor goes to /. Anyone else gets the form. |
| Sessions.Login | internal/dashboard/auth.go:35-64 | Wrong credentials redisplay the form and change nothing. A failing token source gives 500. Otherwise the session expires 24h from now, the cookie carries the token, and other sessions are unchanged. |
| Sessions.Logout | internal/dashboard/auth.go:66-82 | Only the presented token is forgotten. The cookie is cleared and the browser goes to /login. |
| Sessions.ValidThroughExpiry | internal/dashboard/auth.go:94-97 | A session is accepted at exactly its expiry and refused one second later. |
| Sessions.LoginAuthenticatesForADay | internal/dashboard/auth.go:17-51 | A fresh login is accepted at a later time iff that time is at most 24h after login. |
| Sessions.WrongCredentialsChangeNothing | internal/dashboard/auth.go:39-42 | Wrong credentials never change whether any cookie is accepted. |
| Sessions.LogoutRevokesOnlyThatToken | internal/dashboard/auth.go:66-72 | After logout the token is refused, and every other cookie is judged as before. |
| Sessions.LoginKeepsExpiredSessions | internal/dashboard/auth.go:50-52 | Expired sessions are never swept: a login keeps them as they were. |
| Sessions.LoginLogoutRoundTrip | internal/dashboard/auth.go:35-82 | Logging in with a fresh token and out again restores the session map. |
| VideoBot.FirstListing | internal/bot/bot.go:78-79 | The first filter listing the host, if any, and no earlier filter lists it. |
| VideoBot.PathAccepted | internal/bot/bot.go:80-91 | A blank pattern accepts every path. Otherwise the path is accepted iff the regex matches it, so a pattern error accepts nothing. |
| VideoBot.MatchIn | internal/bot/bot.go:78-95 | The first filter listing the host decides. No listing filter means no match. |
| VideoBot.MatchVideoHost | internal/bot/bot.go:68-96 | No message or an unparsable URL never matches. For a parsed URL the message matches iff the first filter listing the host accepts the path, so a match needs some filter listing the host. |
| VideoBot.PrepareDownload | internal/bot/bot.go:113-124 | The query is cleared iff any filter listing the host excludes it. The cookie files passed to `command.Cookies` are those of every listing filter with one, in order. Host and path are kept. |
| VideoBot.DownloadVideo | internal/bot/bot.go:98-187 | yt-dlp runs exactly once, first, on the parsed URL with its query cleared iff a listing filter excludes it, and with each listing filter's cookie file passed to `command.Cookies` in order. Each failure ends the handler: nothing follows a failed download or open. At most one upload comes second and sends exactly the file and title yt-dlp reported. At most one removal comes third, of that same file, only after a successful upload and only when RemoveAfterReply is set. |
| VideoBot.AnyExcludes | internal/bot/bot.go:114-119 | Some filter listing the host asks for the query to be dropped. |
| VideoBot.CookieFiles | internal/bot/bot.go:120-122 | The non-empty cookie files of the filters listing the host, in filter order, at most one per filter. Membership is stated by VideoBot.CookieFilesMembers. |
| VideoBot.LaterFiltersIgnored | internal/bot/bot.go:78-93 | Filters after the first one listing the host have no say in the match. |
| VideoBot.CookieFilesMembers | internal/bot/bot.go:120-122 | A cookie file is passed to `command.Cookies` iff it is non-empty and some filter listing the host names it. |
| VideoBot.HandlerSeesEveryListingFilter | internal/bot/bot.go:78-119 | With two filters listing the host, the match is whatever the first decides about the path, yet the second still clears the query when the first keeps it. |
| Text.TrimSpace | internal/database/filters.go:129 | The result is an infix of the input with only white space before and after it, and neither of its ends is white space. All-space text trims to "". |
| Text.SplitJoin | internal/database/filters.go:128 | Splitting a join of separator-free pieces gives the pieces back. |
| Text.JoinSplit | internal/database/filters.go:128 | Joining the pieces of a split gives the text back. |
| Text.Instr | internal/database/stats.go:61 | Gives the 1-based position of the first occurrence, or 0 iff there is none. |
| Tables.Insert | internal/database/logs.go:20-29 | AUTOINCREMENT: the new row goes last under the next id, above every id ever used. |
| Ordering.SortDesc | internal/database/downloads.go:70 | `ORDER BY ... DESC` gives a permutation of the rows, sorted by descending key. |
| Ordering.Page | internal/database/downloads.go:70-71 | `LIMIT ? OFFSET ?` keeps a contiguous run of the rows after the offset, at most the limit. |
| Ordering.PageSplit | internal/database/downloads.go:70-71 | Consecutive pages tile the rows: n rows from the offset, then m more, equal n + m rows from the offset. |

## Left out

- Database errors are not modelled in the stores: every statement succeeds. The dashboard handlers take the outcome of their one database call as the input `dbOk`, and on failure the table is modelled as unchanged. The migrator takes each failure point as an input.
- FilterStore.SeedFilters: a failing insert part-way through a seed, which leaves a prefix inserted, is not modelled, because inserts always succeed here.
- SQLite ties are not modelled. Among rows with equal `created_at` or `added_at`, and among domains with equal counts, the engine's order is unspecified. The model fixes one order, and the contracts promise only the sort key's order.
- `date(created_at)` and `datetime('now', '-30 days')` are modelled on an integer clock in seconds, with a day of 86400. Time zones and calendar text are not modelled.
- Stats.DomainOfHttpsUrl: the host must also not end in "https:" or "http:". Without that, the two `replace` calls remove a scheme that straddles the host and the following '/', and Stats.DomainStraddles shows the property failing.
- LIKE matching is the parameter `like`. Case folding and the `%`/`_` wildcards inside the search text are not modelled.
- JSON decoding and encoding in the log writer are parameters, and so are URL parsing and regular-expression matching in the bot. The model states what the code does with their results, not the formats themselves.
- VideoBot.DownloadVideo: the storage directory that the handler joins to yt-dlp's file name is not modelled, so the upload and removal name the file by yt-dlp's reported name alone.
- VideoBot.DownloadVideo: the upload action records the file and caption only. The chat it is sent to and the message it replies to are not modelled. Nor is what the yt-dlp library does with repeated `command.Cookies` calls.
- yt-dlp, file opening, the Telegram upload and file removal are outcome inputs to VideoBot.DownloadVideo. VideoBot.DownloadVideo assumes the update carries a message. The bot registers it only behind matchVideoHostFunc, which refuses updates without one.
- DownloadCache.Step: a second `Stop` panics in Go, because it closes a closed channel. The `Halt` action leaves the system as it is instead, and `Stop` itself requires a running loop.
- Clock readings are plain integers. Go's zero `time.Time` lies before every real reading, but the model does not force `now` past it, so a sweep at a time at or before it keeps a failed entry.
- Locks and goroutines are modelled as an interleaving of atomic steps in the cache only. The log writer and session store are modelled as sequential operations under their mutexes.
- The random session token and its hex encoding are an input: `None` stands for the random source failing. The `sessions` table created by migration 1 is unused by the session code and is not modelled beyond its creation.
- Cookie attributes other than the value and max-age are not modelled: Path, HttpOnly and SameSite.
- Go's `strconv.ParseInt` is written out in GoStrconv, because it is library code outside the repository. Only base 10 and bit size 64 are covered.
- HTML templates are not modelled. `LoginForm` stands for the login template with its error line.
- Unicode decoding is not modelled: strings are sequences of code points, and `unicode.IsSpace` is the explicit list of white-space code points.
- LogFanout.Receive models a reader draining a channel. The dashboard's log stream that does so is not part of this model.

## Findings

| source | as written | input that shows it | evidently intended | confidence | as-written member | corrected member |
|---|---|---|---|---|---|---|
| internal/cache/cache.go:96-100 | After a failed download the owner deletes `c.entries[url]` by key, whatever entry the URL maps to by then | Caller 1's download of "u" fails. Between its `close` and its delete, caller 2 replaces the failed entry and starts downloading. Caller 1's delete then removes caller 2's entry, so caller 3 starts a second concurrent download of "u". | Delete only the owner's own entry (`if c.entries[url] == e`), so at most one download per URL runs ("runs downloadFn exactly once per URL", line 53) | not executed | DownloadCache.DeleteByKeyRace | DownloadCache.StepOwnedKeepsInv |

=== FILE: access.dfy ===
/**
 * The access store (internal/database/access.go): the `allowed_groups` and
 * `allowed_users` tables as maps keyed by their primary key, and the
 * statements the store runs against them. The SQL conflict flavours differ
 * and are kept apart: `INSERT OR IGNORE`, `INSERT OR REPLACE`,
 * `INSERT ... ON CONFLICT DO UPDATE`, `UPDATE ... WHERE` (a no-op on a
 * missing row) and `DELETE`. `added_at` defaults to the clock reading `now`.
 */
module AccessStore {
  import Ordering

  datatype Status = Pending | Approved | Rejected

  /** One row: the group title or user name, the status and `added_at`. */
  datatype Row = Row(name: string, status: Status, addedAt: int)

  datatype Access = Access(groups: map<int, Row>, users: map<int, Row>)

  /** Holds when the table has a row for `id` with status `st`: the `COUNT(*) ... > 0` queries. */
  predicate Has(t: map<int, Row>, id: int, st: Status) {
    id in t && t[id].status == st
  }

  /** `t` and `u` agree on every id but `id`. */
  ghost predicate SameExcept(t: map<int, Row>, u: map<int, Row>, id: int) {
    && (forall k :: k != id ==> (k in t <==> k in u))
    && (forall k :: k != id && k in t ==> t[k] == u[k])
  }

  // ---------------------------------------------------------------------
  // Groups
  // ---------------------------------------------------------------------

  /** `AddPendingGroup` (lines 21-27): `INSERT OR IGNORE`, so an existing row is left exactly as it was. */
  function AddPendingGroup(a: Access, chatId: int, title: string, now: int): (r: Access)
    ensures r.users == a.users
    ensures SameExcept(r.groups, a.groups, chatId)
    ensures chatId in a.groups ==> r.groups == a.groups
    ensures chatId !in a.groups ==> chatId in r.groups && r.groups[chatId] == Row(title, Pending, now)
  {
    if chatId in a.groups then a else a.(groups := a.groups[chatId := Row(title, Pending, now)])
  }

  /** `AddAllowedGroup` (lines 45-51): `INSERT OR REPLACE` deletes any old row, so `added_at` restarts. */
  function AddAllowedGroup(a: Access, chatId: int, title: string, now: int): (r: Access)
    ensures r.users == a.users
    ensures SameExcept(r.groups, a.groups, chatId)
    ensures chatId in r.groups && r.groups[chatId] == Row(title, Approved, now)
  {
    a.(groups := a.groups[chatId := Row(title, Approved, now)])
  }

  /** `UPDATE ... SET status = st WHERE id = ?`: only the status of an existing row changes. */
  function SetStatus(t: map<int, Row>, id: int, st: Status): (r: map<int, Row>)
    ensures SameExcept(r, t, id)
    ensures id in r <==> id in t
    ensures id in t ==> r[id] == t[id].(status := st)
  {
    if id in t then t[id := t[id].(status := st)] else t
  }

  /** `ApprovePendingGroup` (lines 29-32). */
  function ApproveGroup(a: Access, chatId: int): (r: Access)
    ensures r.users == a.users
    ensures SameExcept(r.groups, a.groups, chatId)
    ensures chatId !in a.groups ==> r == a
    ensures chatId in a.groups ==> chatId in r.groups && r.groups[chatId] == a.groups[chatId].(status := Approved)
  {
    a.(groups := SetStatus(a.groups, chatId, Approved))
  }

  /** `RejectPendingGroup` (lines 34-37). */
  function RejectGroup(a: Access, chatId: int): (r: Access)
    ensures r.users == a.users
    ensures SameExcept(r.groups, a.groups, chatId)
    ensures chatId !in a.groups ==> r == a
    ensures chatId in a.groups ==> chatId in r.groups && r.groups[chatId] == a.groups[chatId].(status := Rejected)
  {
    a.(groups := SetStatus(a.groups, chatId, Rejected))
  }

  /** `RemoveAllowedGroup` (lines 53-56): `DELETE`, whatever the row's status. */
  function RemoveGroup(a: Access, chatId: int): (r: Access)
    ensures r.users == a.users
    ensures chatId !in r.groups
    ensures SameExcept(r.groups, a.groups, chatId)
  {
    a.(groups := a.groups - {chatId})
  }

  /** `IsGroupAllowed` (lines 62-66). */
  predicate IsGroupAllowed(a: Access, chatId: int) {
    Has(a.groups, chatId, Approved)
  }

  /** `IsGroupPending` (lines 68-72). */
  predicate IsGroupPending(a: Access, chatId: int) {
    Has(a.groups, chatId, Pending)
  }

  // ---------------------------------------------------------------------
  // Users
  // ---------------------------------------------------------------------

  /**
   * `RegisterUser` (lines 94-101): a new user is inserted pending; on
   * conflict only the username is refreshed, so status and `added_at` stay.
   */
  function RegisterUser(a: Access, userId: int, username: string, now: int): (r: Access)
    ensures r.groups == a.groups
    ensures SameExcept(r.users, a.users, userId)
    ensures userId in r.users && r.users[userId].name == username
    ensures userId !in a.users ==> r.users[userId] == Row(username, Pending, now)
    ensures userId in a.users ==>
      r.users[userId].status == a.users[userId].status && r.users[userId].addedAt == a.users[userId].addedAt
  {
    if userId in a.users then a.(users := a.users[userId := a.users[userId].(name := username)])
    else a.(users := a.users[userId := Row(username, Pending, now)])
  }

  /** `AddAllowedUser` (lines 125-132): the upsert sets name and status but keeps `added_at` on conflict. */
  function AddAllowedUser(a: Access, userId: int, username: string, now: int): (r: Access)
    ensures r.groups == a.groups
    ensures SameExcept(r.users, a.users, userId)
    ensures userId in r.users && r.users[userId].name == username && r.users[userId].status == Approved
    ensures userId !in a.users ==> r.users[userId].addedAt == now
    ensures userId in a.users ==> r.users[userId].addedAt == a.users[userId].addedAt
  {
    if userId in a.users then a.(users := a.users[userId := a.users[userId].(name := username, status := Approved)])
    else a.(users := a.users[userId := Row(username, Approved, now)])
  }

  /** `ApprovePendingUser` (lines 103-106). */
  function ApproveUser(a: Access, userId: int): (r: Access)
    ensures r.groups == a.groups
    ensures SameExcept(r.users, a.users, userId)
    ensures userId !in a.users ==> r == a
    ensures userId in a.users ==> userId in r.users && r.users[userId] == a.users[userId].(status := Approved)
  {
    a.(users := SetStatus(a.users, userId, Approved))
  }

  /** `RejectPendingUser` (lines 108-111). */
  function RejectUser(a: Access, userId: int): (r: Access)
    ensures r.groups == a.groups
    ensures SameExcept(r.users, a.users, userId)
    ensures userId !in a.users ==> r == a
    ensures userId in a.users ==> userId in r.users && r.users[userId] == a.users[userId].(status := Rejected)
  {
    a.(users := SetStatus(a.users, userId, Rejected))
  }

  /** `RemoveAllowedUser` (lines 134-137). */
  function RemoveUser(a: Access, userId: int): (r: Access)
    ensures r.groups == a.groups
    ensures userId !in r.users
    ensures SameExcept(r.users, a.users, userId)
  {
    a.(users := a.users - {userId})
  }

  /** `IsUserAllowed` (lines 143-147). */
  predicate IsUserAllowed(a: Access, userId: int) {
    Has(a.users, userId, Approved)
  }

  /** `IsUserPending` (lines 117-121). */
  predicate IsUserPending(a: Access, userId: int) {
    Has(a.users, userId, Pending)
  }

  // ---------------------------------------------------------------------
  // Listing
  // ---------------------------------------------------------------------

  datatype Listed = Listed(id: int, row: Row)

  function AddedAt(x: Listed): int {
    x.row.addedAt
  }

  /**
   * `listGroupsByStatus` / `listUsersByStatus` (lines 74-90, 149-165): every
   * row with status `st`, each once, newest `added_at` first. Rows with equal
   * `added_at` come in an order the engine chooses.
   */
  method ListByStatus(t: map<int, Row>, st: Status) returns (rows: seq<Listed>)
    ensures Ordering.SortedDesc(rows, AddedAt)
    ensures forall x :: x in rows ==> x.id in t && t[x.id] == x.row && x.row.status == st
    ensures forall id :: Has(t, id, st) ==> Listed(id, t[id]) in rows
    ensures forall x :: x in rows ==> multiset(rows)[x] == 1
  {
    var todo := t.Keys;
    rows := [];
    while todo != {}
      invariant todo <= t.Keys
      invariant Ordering.SortedDesc(rows, AddedAt)
      invariant forall x :: x in rows ==> x.id in t && x.id !in todo && t[x.id] == x.row && x.row.status == st
      invariant forall id :: id !in todo && Has(t, id, st) ==> Listed(id, t[id]) in rows
      invariant forall x :: x in rows ==> multiset(rows)[x] == 1
      decreases todo
    {
      Ordering.SomeMember(todo);
      var id :| id in todo;
      if t[id].status == st {
        var x := Listed(id, t[id]);
        assert x !in rows;
        rows := Ordering.InsertDesc(rows, x, AddedAt);
      }
      todo := todo - {id};
    }
  }

  /** `ListPendingGroups` (lines 39-41). */
  method ListPendingGroups(a: Access) returns (rows: seq<Listed>)
    ensures forall x :: x in rows ==> IsGroupPending(a, x.id) && a.groups[x.id] == x.row
    ensures forall id :: IsGroupPending(a, id) ==> Listed(id, a.groups[id]) in rows
    ensures Ordering.SortedDesc(rows, AddedAt)
    ensures forall x :: x in rows ==> multiset(rows)[x] == 1
  {
    rows := ListByStatus(a.groups, Pending);
  }

  /** `ListAllowedGroups` (lines 58-60). */
  method ListAllowedGroups(a: Access) returns (rows: seq<Listed>)
    ensures forall x :: x in rows ==> IsGroupAllowed(a, x.id) && a.groups[x.id] == x.row
    ensures forall id :: IsGroupAllowed(a, id) ==> Listed(id, a.groups[id]) in rows
    ensures Ordering.SortedDesc(rows, AddedAt)
    ensures forall x :: x in rows ==> multiset(rows)[x] == 1
  {
    rows := ListByStatus(a.groups, Approved);
  }

  /** `ListPendingUsers` (lines 113-115). */
  method ListPendingUsers(a: Access) returns (rows: seq<Listed>)
    ensures forall x :: x in rows ==> IsUserPending(a, x.id) && a.users[x.id] == x.row
    ensures forall id :: IsUserPending(a, id) ==> Listed(id, a.users[id]) in rows
    ensures Ordering.SortedDesc(rows, AddedAt)
    ensures forall x :: x in rows ==> multiset(rows)[x] == 1
  {
    rows := ListByStatus(a.users, Pending);
  }

  /** `ListAllowedUsers` (lines 139-141). */
  method ListAllowedUsers(a: Access) returns (rows: seq<Listed>)
    ensures forall x :: x in rows ==> IsUserAllowed(a, x.id) && a.users[x.id] == x.row
    ensures forall id :: IsUserAllowed(a, id) ==> Listed(id, a.users[id]) in rows
    ensures Ordering.SortedDesc(rows, AddedAt)
    ensures forall x :: x in rows ==> multiset(rows)[x] == 1
  {
    rows := ListByStatus(a.users, Approved);
  }

  // ---------------------------------------------------------------------
  // Lifecycle properties
  // ---------------------------------------------------------------------

  /** Registering never demotes an approved user nor revives a rejected one, and never admits a new one. */
  lemma RegisterKeepsAdmission(a: Access, userId: int, username: string, now: int)
    ensures IsUserAllowed(RegisterUser(a, userId, username, now), userId) <==> IsUserAllowed(a, userId)
    ensures Has(RegisterUser(a, userId, username, now).users, userId, Rejected) <==> Has(a.users, userId, Rejected)
  {
  }

  /** A removed user that writes again comes back pending, not approved. */
  lemma RemoveThenRegisterIsPending(a: Access, userId: int, username: string, now: int)
    ensures var r := RegisterUser(RemoveUser(a, userId), userId, username, now);
      IsUserPending(r, userId) && !IsUserAllowed(r, userId)
  {
  }

  /** Adding a pending group twice keeps the first title and `added_at`; the second call is a no-op. */
  lemma AddPendingGroupIdempotent(a: Access, chatId: int, t1: string, t2: string, n1: int, n2: int)
    ensures var r1 := AddPendingGroup(a, chatId, t1, n1);
      AddPendingGroup(r1, chatId, t2, n2) == r1
  {
  }

  /** Approving a pending group by `INSERT OR REPLACE` rather than `UPDATE` restarts its `added_at`. */
  lemma AllowedGroupRestartsAddedAt(a: Access, chatId: int, title: string, now: int)
    requires chatId in a.groups && a.groups[chatId].addedAt != now
    ensures AddAllowedGroup(a, chatId, title, now).groups[chatId].addedAt != ApproveGroup(a, chatId).groups[chatId].addedAt
  {
  }

  /**
   * User 42 is first seen and registered pending and refused; once approved
   * it is allowed, and registering again under a new name keeps it approved.
   */
  lemma UserScenario(a: Access, now: int)
    requires 42 !in a.users
    ensures var r1 := RegisterUser(a, 42, "old", now);
      && IsUserPending(r1, 42) && !IsUserAllowed(r1, 42)
      && var r2 := ApproveUser(r1, 42);
      && IsUserAllowed(r2, 42)
      && var r3 := RegisterUser(r2, 42, "new", now + 1);
      && IsUserAllowed(r3, 42) && r3.users[42].name == "new"
  {
  }
}

=== FILE: auth.dfy ===
/**
 * Dashboard sessions (internal/dashboard/auth.go): an in-memory map from
 * session token to expiry time, filled by login, emptied one token at a
 * time by logout, and consulted by every protected page.
 *
 * Time is a whole number of seconds passed in by the caller. The random
 * token is a parameter too: `None` stands for the random source failing.
 * The request's session cookie is `None` when the browser sent none.
 */
module Sessions {
  import opened Wrappers
  import opened Web

  /** `sessionDuration`: 24 hours, in seconds (line 17). */
  const SessionDuration: int := 24 * 60 * 60

  type SessionMap = map<string, int>

  datatype Credentials = Credentials(username: string, password: string)

  /** The session cookie a response sets: the token and its max-age in seconds. */
  datatype Cookie = Cookie(value: string, maxAge: int)

  datatype Outcome = Outcome(response: Response, sessions: SessionMap, setCookie: Option<Cookie>)

  /** `isAuthenticated` (lines 84-98): a cookie was sent, it names a session, and that session has not run out. */
  predicate IsAuthenticated(sessions: SessionMap, cookie: Option<string>, now: int) {
    match cookie
    case None => false
    case Some(token) => token in sessions && !(now > sessions[token])
  }

  /** `requireAuth` (lines 100-108): the wrapped handler runs, or the browser is sent to the login page. */
  function RequireAuth(sessions: SessionMap, cookie: Option<string>, now: int): (r: Response)
    ensures r == Handled <==> IsAuthenticated(sessions, cookie, now)
    ensures r != Handled ==> r == SeeOther("/login")
  {
    if IsAuthenticated(sessions, cookie, now) then Handled else SeeOther("/login")
  }

  /** `loginPage` (lines 27-33): a signed-in visitor goes to the home page, anyone else sees the form. */
  function LoginPage(sessions: SessionMap, cookie: Option<string>, now: int): (r: Response)
    ensures r == SeeOther("/") <==> IsAuthenticated(sessions, cookie, now)
    ensures r != SeeOther("/") ==> r == LoginForm("")
  {
    if IsAuthenticated(sessions, cookie, now) then SeeOther("/") else LoginForm("")
  }

  /**
   * `loginHandler` (lines 35-64). Wrong credentials show the form again and
   * change nothing; a failing token source is a 500; otherwise the token
   * becomes a session expiring a day from now and is set as the cookie.
   */
  function Login(sessions: SessionMap, config: Credentials, form: Form, now: int, token: Option<string>): (r: Outcome)
    ensures var ok := FormValue(form, "username") == config.username && FormValue(form, "password") == config.password;
      && (!ok ==> r == Outcome(LoginForm("Invalid credentials"), sessions, None))
      && (ok && token.None? ==> r == Outcome(HttpError(500, "Internal server error"), sessions, None))
      && (ok && token.Some? ==>
            && r.response == SeeOther("/")
            && r.setCookie == Some(Cookie(token.value, SessionDuration))
            && r.sessions.Keys == sessions.Keys + {token.value}
            && r.sessions[token.value] == now + SessionDuration
            && forall t :: t in sessions && t != token.value ==> r.sessions[t] == sessions[t])
  {
    if FormValue(form, "username") != config.username || FormValue(form, "password") != config.password then
      Outcome(LoginForm("Invalid credentials"), sessions, None)
    else
      match token
      case None => Outcome(HttpError(500, "Internal server error"), sessions, None)
      case Some(t) => Outcome(SeeOther("/"), sessions[t := now + SessionDuration], Some(Cookie(t, SessionDuration)))
  }

  /**
   * `logoutHandler` (lines 66-82): the presented token, if any, is
   * forgotten; the cookie is cleared and the browser sent to the login page.
   */
  function Logout(sessions: SessionMap, cookie: Option<string>): (r: Outcome)
    ensures r.response == SeeOther("/login")
    ensures r.setCookie == Some(Cookie("", -1))
    ensures cookie.None? ==> r.sessions == sessions
    ensures cookie.Some? ==> r.sessions.Keys == sessions.Keys - {cookie.value}
    ensures forall t :: t in r.sessions ==> t in sessions && r.sessions[t] == sessions[t]
  {
    var remaining := match cookie
      case None => sessions
      case Some(t) => sessions - {t};
    Outcome(SeeOther("/login"), remaining, Some(Cookie("", -1)))
  }

  // ---------------------------------------------------------------------
  // Properties
  // ---------------------------------------------------------------------

  /** A session is good up to and including its expiry instant, and not a second later. */
  lemma ValidThroughExpiry(sessions: SessionMap, token: string)
    requires token in sessions
    ensures IsAuthenticated(sessions, Some(token), sessions[token])
    ensures !IsAuthenticated(sessions, Some(token), sessions[token] + 1)
  {
  }

  /** A fresh login is honoured for exactly the next 24 hours, whatever the map held before. */
  lemma LoginAuthenticatesForADay(
    sessions: SessionMap, config: Credentials, form: Form, now: int, token: string, later: int)
    requires FormValue(form, "username") == config.username && FormValue(form, "password") == config.password
    ensures var r := Login(sessions, config, form, now, Some(token));
      IsAuthenticated(r.sessions, Some(token), later) <==> later <= now + SessionDuration
  {
  }

  /** Credentials that differ from the configured pair in either field never create a session. */
  lemma WrongCredentialsChangeNothing(
    sessions: SessionMap, config: Credentials, form: Form, now: int, token: Option<string>, cookie: Option<string>, later: int)
    requires FormValue(form, "username") != config.username || FormValue(form, "password") != config.password
    ensures var r := Login(sessions, config, form, now, token);
      IsAuthenticated(r.sessions, cookie, later) <==> IsAuthenticated(sessions, cookie, later)
  {
  }

  /** After logout the presented token is refused at any time; every other cookie is judged as before. */
  lemma LogoutRevokesOnlyThatToken(sessions: SessionMap, token: string, other: Option<string>, now: int)
    ensures !IsAuthenticated(Logout(sessions, Some(token)).sessions, Some(token), now)
    ensures other != Some(token) ==>
      (IsAuthenticated(Logout(sessions, Some(token)).sessions, other, now) <==> IsAuthenticated(sessions, other, now))
  {
  }

  /**
   * Expired sessions are never swept: a login keeps every earlier session,
   * live or expired, unless the new token happens to coincide with it.
   */
  lemma LoginKeepsExpiredSessions(
    sessions: SessionMap, config: Credentials, form: Form, now: int, token: Option<string>, stale: string)
    requires stale in sessions && now > sessions[stale]
    requires token != Some(stale)
    ensures var r := Login(sessions, config, form, now, token);
      stale in r.sessions && r.sessions[stale] == sessions[stale]
  {
  }

  /** Logging in with a fresh token and logging out with it restores the session map. */
  lemma LoginLogoutRoundTrip(sessions: SessionMap, config: Credentials, form: Form, now: int, token: string)
    requires FormValue(form, "username") == config.username && FormValue(form, "password") == config.password
    requires token !in sessions
    ensures Logout(Login(sessions, config, form, now, Some(token)).sessions, Some(token)).sessions == sessions
  {
    var m := Login(sessions, config, form, now, Some(token)).sessions;
    assert m - {token} == sessions;
  }
}

=== FILE: bot.dfy ===
/**
 * The Telegram side (internal/bot/bot.go): deciding whether a message is a
 * video link worth handling, and what the download handler does with it.
 *
 * URL parsing, regular expressions, yt-dlp, the file system and Telegram are
 * outside the model: the parser and the regex matcher are parameters, and
 * the effects of the handler are a trace of the actions it takes, each
 * outcome given as an input.
 */
module VideoBot {
  import opened Wrappers
  import Text

  /** A configured filter (`config.BotFilter`). */
  datatype BotFilter = BotFilter(excludeQueryParams: bool, hosts: seq<string>, pathRegex: string, cookiesFile: string)

  /** The parts of a parsed URL the bot looks at; the rest of it is carried along unseen. */
  datatype Url = Url(host: string, path: string, rawQuery: string, rest: string)

  /** `url.Parse`: `None` is a parse error. */
  type Parser = string -> Option<Url>

  /** `regexp.MatchString(pattern, s)`: `None` is a pattern that does not compile. */
  type Matcher = (string, string) -> Option<bool>

  /** The position of the first filter listing `host`, if any. */
  function FirstListing(filters: seq<BotFilter>, host: string): (r: Option<nat>)
    ensures r.None? <==> forall j :: 0 <= j < |filters| ==> host !in filters[j].hosts
    ensures r.Some? ==> r.value < |filters| && host in filters[r.value].hosts
    ensures r.Some? ==> forall j :: 0 <= j < r.value ==> host !in filters[j].hosts
  {
    if filters == [] then None
    else if host in filters[0].hosts then Some(0)
    else match FirstListing(filters[1..], host)
      case None => None
      case Some(i) => Some(i + 1)
  }

  /** Lines 80-91: a blank pattern accepts every path; a pattern that does not compile accepts none. */
  function PathAccepted(f: BotFilter, path: string, matches: Matcher): (ok: bool)
    ensures Text.TrimSpace(f.pathRegex) == [] ==> ok
    ensures Text.TrimSpace(f.pathRegex) != [] ==> (ok <==> matches(f.pathRegex, path) == Some(true))
  {
    if Text.TrimSpace(f.pathRegex) == [] then true
    else
      match matches(f.pathRegex, path)
      case None => false
      case Some(m) => m
  }

  /** The filter loop of lines 78-95: the first filter listing the host decides. */
  function MatchIn(filters: seq<BotFilter>, u: Url, matches: Matcher): (ok: bool)
    ensures ok <==> match FirstListing(filters, u.host)
      case None => false
      case Some(i) => PathAccepted(filters[i], u.path, matches)
  {
    if filters == [] then false
    else if u.host in filters[0].hosts then PathAccepted(filters[0], u.path, matches)
    else MatchIn(filters[1..], u, matches)
  }

  /** `matchVideoHostFunc` (lines 68-96): the message is a URL whose host and path a filter accepts. */
  function MatchVideoHost(filters: seq<BotFilter>, message: Option<string>, parse: Parser, matches: Matcher): (ok: bool)
    ensures message.None? ==> !ok
    ensures message.Some? && parse(message.value).None? ==> !ok
    ensures ok ==> exists j :: 0 <= j < |filters| && parse(message.value).value.host in filters[j].hosts
    ensures message.Some? && parse(message.value).Some? ==>
      (ok <==> MatchIn(filters, parse(message.value).value, matches))
  {
    match message
    case None => false
    case Some(text) =>
      match parse(text)
      case None => false
      case Some(u) => MatchIn(filters, u, matches)
  }

  /** Lines 114-124: the URL after query stripping, and the cookie files handed to yt-dlp in order. */
  datatype Prepared = Prepared(url: Url, cookies: seq<string>)

  /** Some filter listing `host` asks for the query to be dropped. */
  predicate AnyExcludes(filters: seq<BotFilter>, host: string) {
    exists j :: 0 <= j < |filters| && host in filters[j].hosts && filters[j].excludeQueryParams
  }

  /** The non-empty cookie files of the filters listing `host`, in filter order. */
  function CookieFiles(filters: seq<BotFilter>, host: string): (r: seq<string>)
    ensures |r| <= |filters|
  {
    if filters == [] then []
    else
      (if host in filters[0].hosts && |filters[0].cookiesFile| > 0 then [filters[0].cookiesFile] else [])
      + CookieFiles(filters[1..], host)
  }

  /**
   * The filter loop of `downloadVideoHandler` (lines 113-124): unlike the
   * match, it visits every filter listing the host.
   */
  method PrepareDownload(filters: seq<BotFilter>, u: Url) returns (r: Prepared)
    ensures r.url.host == u.host && r.url.path == u.path && r.url.rest == u.rest
    ensures r.url.rawQuery == (if AnyExcludes(filters, u.host) then "" else u.rawQuery)
    ensures r.cookies == CookieFiles(filters, u.host)
  {
    var url := u;
    var cookies: seq<string> := [];
    var i := 0;
    while i < |filters|
      invariant 0 <= i <= |filters|
      invariant url.host == u.host && url.path == u.path && url.rest == u.rest
      invariant url.rawQuery == (if AnyExcludes(filters[..i], u.host) then "" else u.rawQuery)
      invariant cookies + CookieFiles(filters[i..], u.host) == CookieFiles(filters, u.host)
    {
      var f := filters[i];
      ghost var before := cookies;
      ghost var own := if u.host in f.hosts && |f.cookiesFile| > 0 then [f.cookiesFile] else [];
      AnyExcludesExtend(filters, i, u.host);
      CookieFilesFrom(filters, i, u.host);
      if u.host in f.hosts {
        if f.excludeQueryParams {
          url := url.(rawQuery := "");
        }
        if |f.cookiesFile| > 0 {
          cookies := cookies + [f.cookiesFile];
        }
      }
      assert cookies == before + own by {
        if own == [] {
          assert before + own == before;
        }
      }
      Regroup(before, own, CookieFiles(filters[i + 1..], u.host));
      i := i + 1;
    }
    assert filters[..i] == filters;
    assert filters[i..] == [];
    r := Prepared(url, cookies);
  }

  /** Sequence concatenation regroups. */
  lemma Regroup<T>(a: seq<T>, b: seq<T>, c: seq<T>)
    ensures (a + b) + c == a + (b + c)
  {
  }

  /** One more filter seen: it excludes the query exactly when it lists the host and asks for it. */
  lemma AnyExcludesExtend(filters: seq<BotFilter>, i: nat, host: string)
    requires i < |filters|
    ensures AnyExcludes(filters[..i + 1], host) <==>
      AnyExcludes(filters[..i], host) || (host in filters[i].hosts && filters[i].excludeQueryParams)
  {
    var pre := filters[..i + 1];
    assert forall j :: 0 <= j < i ==> pre[j] == filters[..i][j];
    assert pre[i] == filters[i];
  }

  /** The cookie files from position `i` on: filter `i`'s own, then the rest's. */
  lemma CookieFilesFrom(filters: seq<BotFilter>, i: nat, host: string)
    requires i < |filters|
    ensures CookieFiles(filters[i..], host) ==
      (if host in filters[i].hosts && |filters[i].cookiesFile| > 0 then [filters[i].cookiesFile] else [])
      + CookieFiles(filters[i + 1..], host)
  {
    assert filters[i..][0] == filters[i];
    assert filters[i..][1..] == filters[i + 1..];
  }

  /** What yt-dlp reports about a finished download (the fields the handler reads). */
  datatype Info = Info(filename: string, title: string)

  /** The handler's effects on the world, in order. */
  datatype Action =
    | RunYtDlp(url: Url, cookies: seq<string>)
    | SendVideo(filename: string, caption: string)
    | RemoveFile(filename: string)

  /** The outcome of each external step, as the handler would observe it. */
  datatype World = World(download: Option<Info>, openOk: bool, uploadOk: bool)

  /**
   * `downloadVideoHandler` (lines 98-187): prepare the URL, download, open
   * the file, upload it as a reply, and remove it when configured to. Each
   * failure ends the handler; a failed removal is only logged. The file
   * opened, uploaded and removed is yt-dlp's reported file name under the
   * storage directory; the directory itself is not modelled, so actions
   * name the file by that reported name.
   */
  method DownloadVideo(filters: seq<BotFilter>, text: string, parse: Parser, removeAfterReply: bool, world: World)
    returns (trace: seq<Action>)
    ensures parse(text).None? ==> trace == []
    ensures parse(text).Some? ==> |trace| >= 1 && trace[0].RunYtDlp?
    ensures parse(text).Some? ==> var u := parse(text).value;
      trace[0] == RunYtDlp(u.(rawQuery := if AnyExcludes(filters, u.host) then "" else u.rawQuery),
                           CookieFiles(filters, u.host))
    ensures world.download.None? ==> |trace| <= 1
    ensures (exists k :: 0 <= k < |trace| && trace[k].SendVideo?) <==>
      parse(text).Some? && world.download.Some? && world.openOk
    ensures (exists k :: 0 <= k < |trace| && trace[k].RemoveFile?) <==>
      parse(text).Some? && world.download.Some? && world.openOk && world.uploadOk && removeAfterReply
    ensures forall k :: 0 <= k < |trace| && trace[k].RemoveFile? ==> k >= 1 && trace[k - 1].SendVideo?
    ensures |trace| <= 3
    ensures forall k :: 1 <= k < |trace| ==> !trace[k].RunYtDlp?
    ensures forall k :: 0 <= k < |trace| && trace[k].SendVideo? ==> k == 1
    ensures forall k :: 0 <= k < |trace| && trace[k].RemoveFile? ==> k == 2
    ensures forall k :: 0 <= k < |trace| && trace[k].SendVideo? ==>
      world.download.Some? && trace[k] == SendVideo(world.download.value.filename, world.download.value.title)
    ensures forall k :: 0 <= k < |trace| && trace[k].RemoveFile? ==>
      world.download.Some? && trace[k] == RemoveFile(world.download.value.filename)
  {
    match parse(text)
    case None => trace := [];
    case Some(u) =>
      var prepared := PrepareDownload(filters, u);
      trace := [RunYtDlp(prepared.url, prepared.cookies)];
      assert forall k :: 0 <= k < |trace| ==> !trace[k].SendVideo? && !trace[k].RemoveFile?;
      match world.download
      case None =>
      case Some(info) =>
        if world.openOk {
          trace := trace + [SendVideo(info.filename, info.title)];
          assert trace[1].SendVideo? && !trace[1].RemoveFile?;
          if world.uploadOk && removeAfterReply {
            trace := trace + [RemoveFile(info.filename)];
            assert trace[1].SendVideo? && trace[2].RemoveFile?;
          }
        }
  }

  // ---------------------------------------------------------------------
  // Properties
  // ---------------------------------------------------------------------

  /** Filters after the first one listing the host have no say in the match. */
  lemma {:induction false} LaterFiltersIgnored(pre: seq<BotFilter>, post: seq<BotFilter>, u: Url, matches: Matcher)
    requires exists j :: 0 <= j < |pre| && u.host in pre[j].hosts
    ensures MatchIn(pre + post, u, matches) == MatchIn(pre, u, matches)
    decreases |pre|
  {
    assert (pre + post)[0] == pre[0];
    if u.host !in pre[0].hosts {
      var j :| 0 <= j < |pre| && u.host in pre[j].hosts;
      assert u.host in pre[1..][j - 1].hosts;
      assert (pre + post)[1..] == pre[1..] + post;
      LaterFiltersIgnored(pre[1..], post, u, matches);
    }
  }

  /** A cookie file is passed to `command.Cookies` exactly when some filter listing the host names it. */
  lemma {:induction false} CookieFilesMembers(filters: seq<BotFilter>, host: string, c: string)
    ensures c in CookieFiles(filters, host) <==>
      c != "" && exists j :: 0 <= j < |filters| && host in filters[j].hosts && filters[j].cookiesFile == c
    decreases |filters|
  {
    if filters != [] {
      CookieFilesMembers(filters[1..], host, c);
      if exists j :: 0 <= j < |filters[1..]| && host in filters[1..][j].hosts && filters[1..][j].cookiesFile == c {
        var j :| 0 <= j < |filters[1..]| && host in filters[1..][j].hosts && filters[1..][j].cookiesFile == c;
        assert filters[j + 1] == filters[1..][j];
      }
      if c != "" && (exists j :: 1 <= j < |filters| && host in filters[j].hosts && filters[j].cookiesFile == c) {
        var j :| 1 <= j < |filters| && host in filters[j].hosts && filters[j].cookiesFile == c;
        assert filters[1..][j - 1] == filters[j];
      }
    }
  }

  /**
   * The match and the handler can disagree: when two filters list the same
   * host, only the first decides whether the path matches, yet a later one
   * still strips the query even though the first keeps it.
   */
  lemma HandlerSeesEveryListingFilter(first: BotFilter, second: BotFilter, u: Url, matches: Matcher)
    requires u.host in first.hosts && u.host in second.hosts
    requires !first.excludeQueryParams && second.excludeQueryParams
    ensures MatchIn([first, second], u, matches) == PathAccepted(first, u.path, matches)
    ensures AnyExcludes([first, second], u.host)
  {
    assert [first, second][1] == second;
  }
}

=== FILE: cache.dfy ===
/**
 * The per-URL download cache (internal/cache/cache.go).
 *
 * Each entry the cache ever creates is a cell on a heap, addressed by a
 * numeric identity; the cache's map sends a URL to the identity of its
 * current entry. A caller that waits on an entry keeps that identity even
 * after the entry has left the map, just as the Go code keeps its `*entry`.
 * `GetOrDownload` is split into the atomic steps it takes under or outside
 * the mutex, and the clock is an integer.
 */
module DownloadCache {
  import opened Wrappers

  /** What a download produced: `cache.Result`. */
  datatype FileResult = FileResult(filePath: string, filename: string, title: string)

  /**
   * An entry before `close(e.ready)` is InProgress; afterwards it is Done
   * and holds the result, the error and the expiry time set by its owner.
   */
  datatype Status =
    | InProgress
    | Done(result: Option<FileResult>, err: Option<string>, expAt: int)

  datatype Cell = Cell(url: string, status: Status)

  datatype Cache = Cache(
    cells: map<nat, Cell>,
    index: map<string, nat>,
    nextId: nat,
    ttl: int,
    removeFiles: bool,
    stopped: bool,
    loopExited: bool)

  /**
   * Go's zero `time.Time`, the expiry of an entry whose download failed.
   * Clock readings are plain integers here: a sweep removes such an entry
   * at any `now` after it.
   */
  const ZeroTime: int := 0

  /** The map only points at existing cells for its own URL, and fresh identities are unused. */
  predicate Wf(c: Cache) {
    && (forall u :: u in c.index ==> c.index[u] in c.cells && c.cells[c.index[u]].url == u)
    && (forall id :: id in c.cells ==> id < c.nextId)
  }

  /** `New`: an empty cache whose sweep loop is running. */
  function New(ttl: int, removeFiles: bool): (c: Cache)
    ensures Wf(c) && c.index == map[] && !c.stopped && !c.loopExited
    ensures c.ttl == ttl && c.removeFiles == removeFiles
  {
    Cache(map[], map[], 0, ttl, removeFiles, false, false)
  }

  /** A lookup may serve this entry: done, no error, and strictly before its expiry. */
  predicate Fresh(s: Status, now: int) {
    s.Done? && s.err.None? && now < s.expAt
  }

  /** What the locked part of `GetOrDownload` decides. */
  datatype Decision =
    | Hit(result: Option<FileResult>)  // return the cached result at once
    | Wait(id: nat)                    // another caller's download is in progress
    | Run(id: nat)                     // this caller created entry `id` and must download

  /**
   * Lines 56-85: serve a fresh entry, wait on one in progress, or replace an
   * absent, failed or expired entry by a new in-progress one owned by the caller.
   */
  function Lookup(c: Cache, url: string, now: int): (r: (Cache, Decision))
    requires Wf(c)
    ensures Wf(r.0)
    ensures r.1.Hit? <==> url in c.index && Fresh(c.cells[c.index[url]].status, now)
    ensures r.1.Wait? <==> url in c.index && c.cells[c.index[url]].status.InProgress?
    ensures r.1.Hit? ==> r.0 == c && r.1.result == c.cells[c.index[url]].status.result
    ensures r.1.Wait? ==> r.0 == c && r.1.id == c.index[url]
    ensures r.1.Run? ==>
      && r.1.id !in c.cells
      && r.0.cells == c.cells[r.1.id := Cell(url, InProgress)]
      && r.0.index == c.index[url := r.1.id]
      && r.0.nextId > r.1.id
      && r.0.ttl == c.ttl && r.0.removeFiles == c.removeFiles && r.0.stopped == c.stopped
  {
    if url in c.index && Fresh(c.cells[c.index[url]].status, now) then
      (c, Hit(c.cells[c.index[url]].status.result))
    else if url in c.index && c.cells[c.index[url]].status.InProgress? then
      (c, Wait(c.index[url]))
    else
      var id := c.nextId;
      (c.(cells := c.cells[id := Cell(url, InProgress)],
          index := c.index[url := id],
          nextId := id + 1),
       Run(id))
  }

  /**
   * Lines 89-94: the owner stores what `downloadFn` returned and closes the
   * entry. A success expires `ttl` after completion; a failure keeps the zero expiry.
   */
  function Publish(c: Cache, id: nat, result: Option<FileResult>, err: Option<string>, now: int): (r: Cache)
    requires Wf(c)
    requires id in c.cells && c.cells[id].status.InProgress?
    ensures Wf(r)
    ensures r.index == c.index && r.nextId == c.nextId && r.ttl == c.ttl
    ensures r.removeFiles == c.removeFiles && r.stopped == c.stopped
    ensures r.cells.Keys == c.cells.Keys
    ensures r.cells[id].url == c.cells[id].url
    ensures r.cells[id].status.Done? && r.cells[id].status.result == result && r.cells[id].status.err == err
    ensures err.None? ==> r.cells[id].status.expAt == now + c.ttl
    ensures err.Some? ==> r.cells[id].status.expAt == ZeroTime
    ensures forall other :: other in c.cells && other != id ==> r.cells[other] == c.cells[other]
  {
    var expAt := if err.None? then now + c.ttl else ZeroTime;
    c.(cells := c.cells[id := Cell(c.cells[id].url, Done(result, err, expAt))])
  }

  /** Lines 96-100 as written: after a failure the owner deletes whatever entry the URL now maps to. */
  function ReleaseByKey(c: Cache, url: string): (r: Cache)
    requires Wf(c)
    ensures Wf(r)
    ensures url !in r.index
    ensures forall u :: u != url ==> (u in r.index <==> u in c.index)
    ensures forall u :: u in r.index ==> u in c.index && r.index[u] == c.index[u]
    ensures r.cells == c.cells && r.nextId == c.nextId && r.stopped == c.stopped
  {
    c.(index := c.index - {url})
  }

  /** The identity-checked delete: only the owner's own entry is removed. */
  function ReleaseOwned(c: Cache, url: string, id: nat): (r: Cache)
    requires Wf(c)
    ensures Wf(r)
    ensures url in c.index && c.index[url] == id ==> url !in r.index
    ensures url in c.index && c.index[url] != id ==> r == c
    ensures forall u :: u != url ==> (u in r.index <==> u in c.index)
    ensures forall u :: u in r.index ==> u in c.index && r.index[u] == c.index[u]
    ensures r.cells == c.cells && r.nextId == c.nextId && r.stopped == c.stopped
  {
    if url in c.index && c.index[url] == id then c.(index := c.index - {url}) else c
  }

  /** How a caller blocked on another's entry gets on (lines 71-76). */
  datatype WaitOutcome =
    | Delivered(result: Option<FileResult>, err: Option<string>)
    | Canceled(reason: string)
    | Blocked

  /**
   * One attempt of the select at lines 71-76. `ctxErr` is the caller's
   * `ctx.Err()` once its context has ended; when both cases are ready Go
   * picks one at random, and `preferCtx` is that choice. The cache is not consulted
   * through its map and not changed.
   */
  function Await(c: Cache, id: nat, ctxErr: Option<string>, preferCtx: bool): (r: WaitOutcome)
    requires id in c.cells
    ensures r.Blocked? <==> c.cells[id].status.InProgress? && ctxErr.None?
    ensures r.Delivered? ==>
      && c.cells[id].status.Done?
      && r.result == c.cells[id].status.result
      && r.err == c.cells[id].status.err
    ensures r.Canceled? ==> ctxErr == Some(r.reason)
    ensures c.cells[id].status.Done? && ctxErr.None? ==> r.Delivered?
    ensures c.cells[id].status.InProgress? && ctxErr.Some? ==> r.Canceled?
  {
    var st := c.cells[id].status;
    if st.Done? && (ctxErr.None? || !preferCtx) then Delivered(st.result, st.err)
    else if ctxErr.Some? then Canceled(ctxErr.value)
    else Blocked
  }

  /** Line 127: a done entry is swept once the clock is strictly past its expiry. */
  predicate Expired(c: Cache, u: string, now: int)
    requires Wf(c) && u in c.index
  {
    var st := c.cells[c.index[u]].status;
    st.Done? && now > st.expAt
  }

  /** Line 128: the file a sweep tries to remove for this entry, if any. */
  function FileToRemove(c: Cache, u: string): (r: Option<string>)
    requires Wf(c) && u in c.index
    ensures r.Some? <==> c.removeFiles && c.cells[c.index[u]].status.Done? && c.cells[c.index[u]].status.result.Some?
  {
    var st := c.cells[c.index[u]].status;
    if c.removeFiles && st.Done? && st.result.Some? then Some(st.result.value.filePath) else None
  }

  /** The entries one sweep keeps: everything except the expired done entries. */
  function Evict(c: Cache, now: int): (r: Cache)
    requires Wf(c)
    ensures Wf(r)
    ensures forall u :: u in r.index <==> u in c.index && !Expired(c, u, now)
    ensures forall u :: u in c.index && c.cells[c.index[u]].status.InProgress? ==> u in r.index
    ensures forall u :: u in r.index ==> u in c.index && r.index[u] == c.index[u]
    ensures r.cells == c.cells && r.nextId == c.nextId && r.ttl == c.ttl
    ensures r.removeFiles == c.removeFiles && r.stopped == c.stopped && r.loopExited == c.loopExited
  {
    c.(index := map u | u in c.index && !Expired(c, u, now) :: c.index[u])
  }

  /** The files one sweep tries to remove. */
  function FilesToRemove(c: Cache, now: int): (r: set<string>)
    requires Wf(c)
    ensures forall p :: p in r <==> exists u :: u in c.index && Expired(c, u, now) && FileToRemove(c, u) == Some(p)
    ensures !c.removeFiles ==> r == {}
  {
    set u | u in c.index && Expired(c, u, now) && FileToRemove(c, u).Some? :: FileToRemove(c, u).value
  }

  /**
   * `cleanup` (lines 119-146): one pass over the map that deletes every
   * expired done entry and collects the files it tries to remove. Whether a
   * removal fails only decides what is logged, so the entry goes either way.
   */
  method Cleanup(c: Cache, now: int) returns (r: Cache, removed: set<string>)
    requires Wf(c)
    ensures r == Evict(c, now)
    ensures removed == FilesToRemove(c, now)
  {
    var todo := c.index.Keys;
    var index := c.index;
    removed := {};
    while todo != {}
      invariant todo <= c.index.Keys
      invariant forall u :: u in index <==> u in c.index && (u in todo || !Expired(c, u, now))
      invariant forall u :: u in index ==> index[u] == c.index[u]
      invariant forall p :: p in removed <==>
        exists u :: u in c.index && u !in todo && Expired(c, u, now) && FileToRemove(c, u) == Some(p)
      decreases todo
    {
      var u :| u in todo;
      ghost var removed0 := removed;
      if Expired(c, u, now) {
        var file := FileToRemove(c, u);
        if file.Some? {
          removed := removed + {file.value};
        }
        index := index - {u};
      }
      todo := todo - {u};
      forall p
        ensures p in removed <==>
          exists v :: v in c.index && v !in todo && Expired(c, v, now) && FileToRemove(c, v) == Some(p)
      {
        if p in removed && p !in removed0 {
          assert Expired(c, u, now) && FileToRemove(c, u) == Some(p);
        }
      }
    }
    r := c.(index := index);
    assert r.index == Evict(c, now).index;
  }

  /** `Stop`: closes the sweep loop's stop channel; closing it twice would panic. */
  function Stop(c: Cache): (r: Cache)
    requires !c.stopped
    ensures r.stopped
    ensures r.cells == c.cells && r.index == c.index && r.nextId == c.nextId
    ensures r.ttl == c.ttl && r.removeFiles == c.removeFiles && r.loopExited == c.loopExited
  {
    c.(stopped := true)
  }

  /**
   * One wake-up of `cleanupLoop`'s `select` (lines 105-117). Once `Stop` has
   * closed the stop channel while the ticker is also ready, Go picks a case
   * at random, and `pickStop` is that choice: the ticker's case sweeps, the
   * stop case ends the loop for good.
   */
  method Tick(c: Cache, now: int, pickStop: bool) returns (r: Cache, removed: set<string>)
    requires Wf(c)
    ensures c.loopExited ==> r == c && removed == {}
    ensures !c.loopExited && c.stopped && pickStop ==> r == c.(loopExited := true) && removed == {}
    ensures !c.loopExited && !(c.stopped && pickStop) ==>
      r == Evict(c, now) && removed == FilesToRemove(c, now) && !r.loopExited
  {
    if c.loopExited {
      r, removed := c, {};
    } else if c.stopped && pickStop {
      r, removed := c.(loopExited := true), {};
    } else {
      r, removed := Cleanup(c, now);
    }
  }

  // ---------------------------------------------------------------------
  // Time-to-live behaviour of one entry
  // ---------------------------------------------------------------------

  /**
   * After a successful download completes at `done`, a lookup at `now`
   * serves it iff `now < done + ttl`; otherwise it starts a new download.
   */
  lemma ReuseWithinTtl(c: Cache, url: string, id: nat, res: FileResult, done: int, now: int)
    requires Wf(c) && url in c.index && c.index[url] == id
    requires c.cells[id].status.InProgress?
    ensures var c1 := Publish(c, id, Some(res), None, done);
      && (now < done + c.ttl ==> Lookup(c1, url, now) == (c1, Hit(Some(res))))
      && (now >= done + c.ttl ==> Lookup(c1, url, now).1.Run?)
  {
  }

  /** A failed entry is never served: the next lookup starts a new download, before or after the owner's delete. */
  lemma FailureNeverReused(c: Cache, url: string, id: nat, err: string, done: int, now: int)
    requires Wf(c) && url in c.index && c.index[url] == id
    requires c.cells[id].status.InProgress?
    ensures var c1 := Publish(c, id, None, Some(err), done);
      && Lookup(c1, url, now).1.Run?
      && Lookup(ReleaseByKey(c1, url), url, now).1.Run?
  {
  }

  /** A sweep at `now` removes a successful entry iff `now` is strictly past its expiry. */
  lemma SweepAfterTtl(c: Cache, url: string, id: nat, res: FileResult, done: int, now: int)
    requires Wf(c) && url in c.index && c.index[url] == id
    requires c.cells[id].status.InProgress?
    ensures var c1 := Publish(c, id, Some(res), None, done);
      url in Evict(c1, now).index <==> now <= done + c.ttl
  {
  }

  // ---------------------------------------------------------------------
  // Concurrent callers as an interleaving of atomic steps
  // ---------------------------------------------------------------------

  /** Where one call of `GetOrDownload` stands. */
  datatype Caller =
    | Start(url: string)                   // before taking the lock at line 56
    | Waiting(url: string, id: nat)        // lines 70-71: blocked on another caller's entry
    | Downloading(url: string, id: nat)    // line 88: running `downloadFn` for its own entry
    | Closed(url: string, id: nat, result: Option<FileResult>, err: Option<string>)  // after line 94
    | Returned(result: Option<FileResult>, err: Option<string>)

  /** The cache, every call in flight, and the URLs whose download has been started, in order. */
  datatype Sys = Sys(cache: Cache, callers: map<nat, Caller>, started: seq<string>)

  datatype Action =
    | Arrive(t: nat, url: string)                       // a new call
    | Begin(t: nat, now: int)                           // lines 56-85 under the lock
    | Finish(t: nat, result: Option<FileResult>, err: Option<string>, now: int)  // lines 88-94
    | Settle(t: nat)                                    // lines 96-102
    | Wake(t: nat, ctxErr: Option<string>, preferCtx: bool)  // lines 71-76
    | Sweep(now: int, pickStop: bool)                   // one wake-up of the sweep loop
    | Halt                                              // `Stop`

  predicate SysWf(s: Sys) {
    && Wf(s.cache)
    && (forall t :: t in s.callers && s.callers[t].Waiting? ==> s.callers[t].id in s.cache.cells)
  }

  /** The owner's steps after `close`: as written, a failure deletes the URL's entry whatever it now is. */
  function SettleByKey(s: Sys, t: nat): (r: Sys)
    requires SysWf(s) && t in s.callers && s.callers[t].Closed?
    ensures r.callers == s.callers[t := Returned(s.callers[t].result, s.callers[t].err)]
    ensures r.started == s.started
  {
    var c := s.callers[t];
    var cache := if c.err.Some? then ReleaseByKey(s.cache, c.url) else s.cache;
    s.(cache := cache, callers := s.callers[t := Returned(c.result, c.err)])
  }

  /** The same steps with the identity-checked delete. */
  function SettleOwned(s: Sys, t: nat): (r: Sys)
    requires SysWf(s) && t in s.callers && s.callers[t].Closed?
    ensures r.callers == s.callers[t := Returned(s.callers[t].result, s.callers[t].err)]
    ensures r.started == s.started
  {
    var c := s.callers[t];
    var cache := if c.err.Some? then ReleaseOwned(s.cache, c.url, c.id) else s.cache;
    s.(cache := cache, callers := s.callers[t := Returned(c.result, c.err)])
  }

  /** Every action other than settling; one that is not enabled leaves the system as it is. */
  function StepCommon(s: Sys, a: Action): (r: Sys)
    requires SysWf(s) && !a.Settle?
    ensures SysWf(r)
    ensures |r.started| > |s.started| ==>
      && a.Begin? && a.t in s.callers && s.callers[a.t].Start?
      && Lookup(s.cache, s.callers[a.t].url, a.now).1.Run?
      && r.started == s.started + [s.callers[a.t].url]
    ensures |r.started| >= |s.started| && r.started[..|s.started|] == s.started
  {
    match a
    case Arrive(t, url) =>
      if t in s.callers then s else s.(callers := s.callers[t := Start(url)])
    case Begin(t, now) =>
      if t in s.callers && s.callers[t].Start? then
        var url := s.callers[t].url;
        var (cache, d) := Lookup(s.cache, url, now);
        match d
        case Hit(res) => s.(callers := s.callers[t := Returned(res, None)])
        case Wait(id) => s.(callers := s.callers[t := Waiting(url, id)])
        case Run(id) =>
          Sys(cache, s.callers[t := Downloading(url, id)], s.started + [url])
      else s
    case Finish(t, res, err, now) =>
      if t in s.callers && s.callers[t].Downloading? && s.callers[t].id in s.cache.cells
         && s.cache.cells[s.callers[t].id].status.InProgress? then
        var c := s.callers[t];
        s.(cache := Publish(s.cache, c.id, res, err, now),
           callers := s.callers[t := Closed(c.url, c.id, res, err)])
      else s
    case Wake(t, ctxErr, preferCtx) =>
      if t in s.callers && s.callers[t].Waiting? then
        match Await(s.cache, s.callers[t].id, ctxErr, preferCtx)
        case Delivered(res, err) => s.(callers := s.callers[t := Returned(res, err)])
        case Canceled(e) => s.(callers := s.callers[t := Returned(None, Some(e))])
        case Blocked => s
      else s
    case Sweep(now, pickStop) =>
      if s.cache.loopExited then s
      else if s.cache.stopped && pickStop then s.(cache := s.cache.(loopExited := true))
      else s.(cache := Evict(s.cache, now))
    case Halt =>
      if s.cache.stopped then s else s.(cache := Stop(s.cache))
  }

  /** One atomic step of the source as written. */
  function Step(s: Sys, a: Action): (r: Sys)
    requires SysWf(s)
    ensures SysWf(r)
  {
    if a.Settle? then
      if a.t in s.callers && s.callers[a.t].Closed? then SettleByKey(s, a.t) else s
    else StepCommon(s, a)
  }

  /** One atomic step with the owner's delete checked against its own entry. */
  function StepOwned(s: Sys, a: Action): (r: Sys)
    requires SysWf(s)
    ensures SysWf(r)
  {
    if a.Settle? then
      if a.t in s.callers && s.callers[a.t].Closed? then SettleOwned(s, a.t) else s
    else StepCommon(s, a)
  }

  /** No two callers are downloading the same URL at once. */
  predicate SingleFlight(s: Sys) {
    forall t1, t2 ::
      (t1 in s.callers && t2 in s.callers && s.callers[t1].Downloading? && s.callers[t2].Downloading?
       && s.callers[t1].url == s.callers[t2].url) ==> t1 == t2
  }

  /** What the cache keeps true about the calls in flight. */
  predicate Inv(s: Sys) {
    && SysWf(s)
    && (forall t :: t in s.callers && s.callers[t].Downloading? ==>
          var c := s.callers[t];
          && c.id in s.cache.cells
          && s.cache.cells[c.id] == Cell(c.url, InProgress)
          && c.url in s.cache.index && s.cache.index[c.url] == c.id)
    && (forall t :: t in s.callers && s.callers[t].Closed? ==>
          var c := s.callers[t];
          && c.id in s.cache.cells
          && s.cache.cells[c.id].url == c.url
          && s.cache.cells[c.id].status.Done?
          && s.cache.cells[c.id].status.result == c.result
          && s.cache.cells[c.id].status.err == c.err)
    && (forall t1, t2 ::
          (t1 in s.callers && t2 in s.callers && s.callers[t1].Downloading?
           && s.callers[t2].Downloading? && s.callers[t1].id == s.callers[t2].id) ==> t1 == t2)
  }

  lemma InvSingleFlight(s: Sys)
    requires Inv(s)
    ensures SingleFlight(s)
  {
  }

  /** An empty cache with no calls. */
  function Init(ttl: int, removeFiles: bool): (s: Sys)
    ensures Inv(s) && s.started == []
  {
    Sys(New(ttl, removeFiles), map[], [])
  }

  /** Every step but settling keeps the invariant. */
  lemma StepCommonKeepsInv(s: Sys, a: Action)
    requires Inv(s) && !a.Settle?
    ensures Inv(StepCommon(s, a))
  {
    match a
    case Begin(t, now) => BeginKeepsInv(s, t, now);
    case Finish(t, res, err, now) => OuterStepKeepsInv(s, a);
    case Arrive(t, url) => OuterStepKeepsInv(s, a);
    case Wake(t, ctxErr, preferCtx) => OuterStepKeepsInv(s, a);
    case Sweep(now, pickStop) => OuterStepKeepsInv(s, a);
    case Halt => OuterStepKeepsInv(s, a);
  }

  /** A caller's lookup keeps the invariant: a new owner takes a URL no other downloader holds. */
  lemma BeginKeepsInv(s: Sys, t: nat, now: int)
    requires Inv(s)
    ensures Inv(StepCommon(s, Begin(t, now)))
  {
    if t in s.callers && s.callers[t].Start? {
      var url := s.callers[t].url;
      var (cache, d) := Lookup(s.cache, url, now);
      if d.Run? {
        BeginRunKeepsInv(s, t, url, cache, d.id, StepCommon(s, Begin(t, now)));
      }
    }
  }

  /** The lookup that makes caller `t` the owner of a fresh entry `id` for `url`. */
  lemma BeginRunKeepsInv(s: Sys, t: nat, url: string, cache: Cache, id: nat, r: Sys)
    requires Inv(s) && t in s.callers && s.callers[t] == Start(url)
    requires !(url in s.cache.index && s.cache.cells[s.cache.index[url]].status.InProgress?)
    requires Wf(cache) && id !in s.cache.cells
    requires cache.cells == s.cache.cells[id := Cell(url, InProgress)] && cache.index == s.cache.index[url := id]
    requires r == Sys(cache, s.callers[t := Downloading(url, id)], s.started + [url])
    ensures Inv(r)
  {
    forall t' | t' in r.callers && r.callers[t'].Downloading?
      ensures r.callers[t'].id in r.cache.cells
      ensures r.cache.cells[r.callers[t'].id] == Cell(r.callers[t'].url, InProgress)
      ensures r.cache.index[r.callers[t'].url] == r.callers[t'].id
    {
      if t' != t {
        assert s.callers[t'].id in s.cache.cells;
        assert s.callers[t'].url != url;
      }
    }
  }

  /** The steps other than a lookup and a delete keep the invariant. */
  lemma OuterStepKeepsInv(s: Sys, a: Action)
    requires Inv(s) && !a.Settle? && !a.Begin?
    ensures Inv(StepCommon(s, a))
  {
    match a
    case Finish(t, res, err, now) => FinishKeepsInv(s, t, res, err, now);
    case Arrive(t, url) => ArriveKeepsInv(s, t, url);
    case Wake(t, ctxErr, preferCtx) => WakeKeepsInv(s, t, ctxErr, preferCtx);
    case Sweep(now, pickStop) => SweepKeepsInv(s, now, pickStop);
    case Halt => HaltKeepsInv(s);
  }

  lemma ArriveKeepsInv(s: Sys, t: nat, url: string)
    requires Inv(s)
    ensures Inv(StepCommon(s, Arrive(t, url)))
  {
  }

  lemma WakeKeepsInv(s: Sys, t: nat, ctxErr: Option<string>, preferCtx: bool)
    requires Inv(s)
    ensures Inv(StepCommon(s, Wake(t, ctxErr, preferCtx)))
  {
  }

  lemma HaltKeepsInv(s: Sys)
    requires Inv(s)
    ensures Inv(StepCommon(s, Halt))
  {
  }

  lemma FinishKeepsInv(s: Sys, t: nat, res: Option<FileResult>, err: Option<string>, now: int)
    requires Inv(s)
    ensures Inv(StepCommon(s, Finish(t, res, err, now)))
  {
  }

  lemma SweepKeepsInv(s: Sys, now: int, pickStop: bool)
    requires Inv(s)
    ensures Inv(StepCommon(s, Sweep(now, pickStop)))
  {
  }

  /** With the identity-checked delete, every step keeps the invariant, so at most one download per URL runs. */
  lemma {:induction false} StepOwnedKeepsInv(s: Sys, a: Action)
    requires Inv(s)
    ensures Inv(StepOwned(s, a))
    ensures SingleFlight(StepOwned(s, a))
  {
    if a.Settle? {
      if a.t in s.callers && s.callers[a.t].Closed? {
        var c := s.callers[a.t];
        var r := SettleOwned(s, a.t);
        if c.err.Some? && c.url in s.cache.index && s.cache.index[c.url] == c.id {
          forall t' | t' in r.callers && r.callers[t'].Downloading?
            ensures r.callers[t'].url != c.url
          {
            assert s.cache.cells[c.id].status.Done?;
          }
        }
        assert Inv(r);
      }
    } else {
      StepCommonKeepsInv(s, a);
    }
    InvSingleFlight(StepOwned(s, a));
  }

  /**
   * As written, settling keeps the invariant except in one window: the
   * owner's download failed and another entry has since taken its URL.
   */
  predicate InRaceWindow(s: Sys, a: Action) {
    && a.Settle? && a.t in s.callers && s.callers[a.t].Closed?
    && s.callers[a.t].err.Some?
    && s.callers[a.t].url in s.cache.index
    && s.cache.index[s.callers[a.t].url] != s.callers[a.t].id
  }

  lemma {:induction false} StepKeepsInvOutsideWindow(s: Sys, a: Action)
    requires Inv(s) && !InRaceWindow(s, a)
    ensures Inv(Step(s, a))
    ensures SingleFlight(Step(s, a))
  {
    if a.Settle? {
      if a.t in s.callers && s.callers[a.t].Closed? {
        var c := s.callers[a.t];
        var r := SettleByKey(s, a.t);
        if c.err.Some? && c.url in s.cache.index {
          forall t' | t' in r.callers && r.callers[t'].Downloading?
            ensures r.callers[t'].url != c.url
          {
            assert s.cache.cells[c.id].status.Done?;
          }
        }
        assert Inv(r);
      }
    } else {
      StepCommonKeepsInv(s, a);
    }
    InvSingleFlight(Step(s, a));
  }

  /** The states the racing schedule below passes through. */
  function RaceCache(cells: map<nat, Cell>, index: map<string, nat>, nextId: nat): Cache {
    Cache(cells, index, nextId, 60, false, false, false)
  }

  const RaceFailed: Cell := Cell("u", Done(None, Some("boom"), ZeroTime))

  const RaceS1: Sys :=
    Sys(RaceCache(map[0 := Cell("u", InProgress)], map["u" := 0], 1), map[1 := Downloading("u", 0)], ["u"])
  const RaceS2: Sys :=
    Sys(RaceCache(map[0 := RaceFailed], map["u" := 0], 1), map[1 := Closed("u", 0, None, Some("boom"))], ["u"])
  const RaceS3: Sys :=
    Sys(RaceCache(map[0 := RaceFailed, 1 := Cell("u", InProgress)], map["u" := 1], 2),
        map[1 := Closed("u", 0, None, Some("boom")), 2 := Downloading("u", 1)], ["u", "u"])
  const RaceS4: Sys :=
    Sys(RaceCache(map[0 := RaceFailed, 1 := Cell("u", InProgress)], map[], 2),
        map[1 := Returned(None, Some("boom")), 2 := Downloading("u", 1)], ["u", "u"])
  const RaceS5: Sys :=
    Sys(RaceCache(map[0 := RaceFailed, 1 := Cell("u", InProgress), 2 := Cell("u", InProgress)], map["u" := 2], 3),
        map[1 := Returned(None, Some("boom")), 2 := Downloading("u", 1), 3 := Downloading("u", 2)], ["u", "u", "u"])

  lemma RaceStep1()
    ensures Step(Step(Init(60, false), Arrive(1, "u")), Begin(1, 1)) == RaceS1
  {
  }

  lemma RaceStep2()
    ensures Step(RaceS1, Finish(1, None, Some("boom"), 2)) == RaceS2
  {
  }

  lemma RaceStep3()
    ensures Step(Step(RaceS2, Arrive(2, "u")), Begin(2, 3)) == RaceS3
  {
  }

  lemma RaceStep4()
    ensures Step(RaceS3, Settle(1)) == RaceS4
  {
    assert RaceS3.cache.index - {"u"} == map[];
  }

  lemma RaceStep5()
    ensures Step(Step(RaceS4, Arrive(3, "u")), Begin(3, 4)) == RaceS5
  {
  }

  /**
   * The schedule that breaks single flight as written: caller 1's download
   * of "u" fails; between its `close` and its delete caller 2 replaces the
   * failed entry and starts downloading; caller 1's delete then removes
   * caller 2's entry, so caller 3 starts a second concurrent download of "u".
   */
  lemma DeleteByKeyRace()
    ensures Step(Step(Init(60, false), Arrive(1, "u")), Begin(1, 1)) == RaceS1
    ensures Step(RaceS1, Finish(1, None, Some("boom"), 2)) == RaceS2
    ensures Step(Step(RaceS2, Arrive(2, "u")), Begin(2, 3)) == RaceS3
    ensures InRaceWindow(RaceS3, Settle(1))
    ensures Step(RaceS3, Settle(1)) == RaceS4
    ensures Step(Step(RaceS4, Arrive(3, "u")), Begin(3, 4)) == RaceS5
    ensures !SingleFlight(RaceS5)
  {
    RaceStep1();
    RaceStep2();
    RaceStep3();
    RaceStep4();
    RaceStep5();
    assert RaceS5.callers[2].url == RaceS5.callers[3].url;
  }

  /**
   * Every caller that waited on an entry receives exactly what its owner
   * published, once its context has not ended.
   */
  lemma WaiterSeesOwnersResult(s: Sys, w: nat, o: nat, preferCtx: bool)
    requires Inv(s)
    requires w in s.callers && o in s.callers
    requires s.callers[w].Waiting? && s.callers[o].Closed? && s.callers[w].id == s.callers[o].id
    ensures Step(s, Wake(w, None, preferCtx)).callers[w] == Returned(s.callers[o].result, s.callers[o].err)
  {
  }

  /** The owner returns exactly the pair its download produced. */
  lemma OwnerReturnsDownloadResult(s: Sys, t: nat, res: Option<FileResult>, err: Option<string>, now: int)
    requires Inv(s) && t in s.callers && s.callers[t].Downloading?
    ensures var s1 := Step(s, Finish(t, res, err, now));
      Step(s1, Settle(t)).callers[t] == Returned(res, err)
  {
  }
}

=== FILE: dashboard_filters.dfy ===
/**
 * The dashboard's filter forms (internal/dashboard/filters.go): the host
 * list parser for the text area, and the add, update and delete handlers
 * with their guards. A database call either succeeds or fails without
 * changing the table; `dbOk` says which.
 */
module FilterHandlers {
  import Text
  import Tables
  import FilterStore
  import GoStrconv
  import Web

  /** Every line split at commas, the pieces of all lines in order. */
  function Pieces(lines: seq<string>): (r: seq<string>)
    ensures forall p :: p in r ==> ',' !in p
  {
    if lines == [] then [] else Text.Split(lines[0], ',') + Pieces(lines[1..])
  }

  lemma {:induction false} PiecesAvoid(lines: seq<string>, c: char)
    requires forall l :: l in lines ==> c !in l
    ensures forall p :: p in Pieces(lines) ==> c !in p
    decreases |lines|
  {
    if lines != [] {
      assert lines[0] in lines;
      assert forall l :: l in lines[1..] ==> l in lines;
      PiecesAvoid(lines[1..], c);
    }
  }

  lemma {:induction false} PiecesOfBlanks(lines: seq<string>)
    requires forall l :: l in lines ==> forall c :: c in l ==> Text.IsSpace(c) || c == ','
    ensures forall p :: p in Pieces(lines) ==> forall c :: c in p ==> Text.IsSpace(c)
    decreases |lines|
  {
    if lines != [] {
      assert lines[0] in lines;
      assert forall l :: l in lines[1..] ==> l in lines;
      PiecesOfBlanks(lines[1..]);
    }
  }

  /**
   * `parseHostsInput` (lines 86-97): the text split into lines, each line
   * split at commas, every piece trimmed, the blank ones dropped. Each host
   * comes out non-empty, trimmed, and free of commas and line breaks; text
   * made only of white space and commas gives no host.
   */
  function ParseHostsInput(raw: string): (hosts: seq<string>)
    ensures FilterStore.CleanHosts(hosts)
    ensures forall i :: 0 <= i < |hosts| ==> ',' !in hosts[i]
    ensures (forall c :: c in raw ==> Text.IsSpace(c) || c == ',') ==> hosts == []
  {
    var lines := Text.Split(raw, '\n');
    var ps := Pieces(lines);
    var hosts := FilterStore.TrimmedPieces(ps);
    assert FilterStore.CleanHosts(hosts) && forall i :: 0 <= i < |hosts| ==> ',' !in hosts[i] by {
      PiecesAvoid(lines, '\n');
      CleanPieces(ps);
    }
    assert (forall c :: c in raw ==> Text.IsSpace(c) || c == ',') ==> hosts == [] by {
      if forall c :: c in raw ==> Text.IsSpace(c) || c == ',' {
        PiecesOfBlanks(lines);
        FilterStore.TrimmedPiecesOfBlanks(ps);
      }
    }
    hosts
  }

  /** Pieces free of line breaks and commas trim to clean, comma-free hosts. */
  lemma CleanPieces(ps: seq<string>)
    requires forall p :: p in ps ==> '\n' !in p && ',' !in p
    ensures var hosts := FilterStore.TrimmedPieces(ps);
      FilterStore.CleanHosts(hosts) && forall i :: 0 <= i < |hosts| ==> ',' !in hosts[i]
  {
    var hosts := FilterStore.TrimmedPieces(ps);
    FilterStore.TrimmedPiecesAvoid(ps, '\n');
    FilterStore.TrimmedPiecesAvoid(ps, ',');
    assert forall i :: 0 <= i < |hosts| ==> hosts[i] in hosts;
  }

  /** Lines are parsed in order: the hosts of the first line come first. */
  lemma ParseAtNewline(a: string, b: string)
    requires '\n' !in a
    ensures ParseHostsInput(a + "\n" + b) == ParseHostsInput(a) + ParseHostsInput(b)
  {
    Text.SplitAtSep(a, b, '\n');
    Text.SplitWithoutSep(a, '\n');
    var rest := Text.Split(b, '\n');
    assert Pieces([a] + rest) == Text.Split(a, ',') + Pieces(rest) by {
      assert ([a] + rest)[1..] == rest;
    }
    assert Pieces([a]) == Text.Split(a, ',') + Pieces([]);
    assert Text.Split(a, ',') + Pieces([]) == Text.Split(a, ',');
    FilterStore.TrimmedPiecesAppend(Text.Split(a, ','), Pieces(rest));
  }

  /** Within a line, the pieces are parsed in order: the hosts before a comma come first. */
  lemma ParseAtComma(a: string, b: string)
    requires '\n' !in a && ',' !in a
    ensures ParseHostsInput(a + "," + b) == ParseHostsInput(a) + ParseHostsInput(b)
  {
    var lines := Text.Split(b, '\n');
    var s := a + "," + b;
    assert s == (a + ",") + b;
    Text.SplitPrefix(a + ",", b, '\n');
    var first := (a + ",") + lines[0];
    assert Text.Split(s, '\n') == [first] + lines[1..];
    assert first == a + [','] + lines[0];
    Text.SplitAtSep(a, lines[0], ',');
    Text.SplitWithoutSep(a, ',');
    Text.SplitWithoutSep(a, '\n');
    assert Pieces([first] + lines[1..]) == [a] + Text.Split(lines[0], ',') + Pieces(lines[1..]) by {
      assert ([first] + lines[1..])[1..] == lines[1..];
    }
    assert Pieces(lines) == Text.Split(lines[0], ',') + Pieces(lines[1..]);
    assert Pieces([a]) == [a] by {
      assert Pieces([a]) == Text.Split(a, ',') + Pieces([]);
    }
    assert [a] + Text.Split(lines[0], ',') + Pieces(lines[1..]) == [a] + Pieces(lines);
    FilterStore.TrimmedPiecesAppend([a], Pieces(lines));
  }

  /** A single clean host without a comma parses to itself. */
  lemma ParseOne(h: string)
    requires FilterStore.CleanHost(h) && ',' !in h
    ensures ParseHostsInput(h) == [h]
  {
    Text.SplitWithoutSep(h, '\n');
    Text.SplitWithoutSep(h, ',');
    assert Pieces([h]) == [h] by {
      assert Pieces([h]) == Text.Split(h, ',') + Pieces([]);
    }
    assert FilterStore.TrimmedPieces([h]) == FilterStore.Keep(h) + FilterStore.TrimmedPieces([]);
  }

  /** Clean, comma-free hosts written one per line parse back to the same list. */
  lemma {:induction false} ParseLines(hosts: seq<string>)
    requires FilterStore.CleanHosts(hosts)
    requires forall i :: 0 <= i < |hosts| ==> ',' !in hosts[i]
    ensures ParseHostsInput(Text.Join(hosts, '\n')) == hosts
    decreases |hosts|
  {
    if hosts == [] {
      assert Text.Join(hosts, '\n') == "";
      assert ParseHostsInput("") == [] by {
        assert forall c :: c in "" ==> Text.IsSpace(c) || c == ',';
      }
    } else if |hosts| == 1 {
      assert Text.Join(hosts, '\n') == hosts[0];
      ParseOne(hosts[0]);
      assert hosts == [hosts[0]];
    } else {
      var head, tail := hosts[0], hosts[1..];
      assert FilterStore.CleanHosts(tail) by {
        forall i | 0 <= i < |tail|
          ensures FilterStore.CleanHost(tail[i])
        {
          assert tail[i] == hosts[i + 1];
        }
      }
      assert forall i :: 0 <= i < |tail| ==> ',' !in tail[i] by {
        forall i | 0 <= i < |tail|
          ensures ',' !in tail[i]
        {
          assert tail[i] == hosts[i + 1];
        }
      }
      ParseLines(tail);
      ParseLine(head, tail);
      assert [head] + tail == hosts;
    }
  }

  /** One more line in front: the head host comes first, then the rest as they parsed. */
  lemma ParseLine(head: string, tail: seq<string>)
    requires FilterStore.CleanHost(head) && ',' !in head && |tail| > 0
    requires ParseHostsInput(Text.Join(tail, '\n')) == tail
    ensures ParseHostsInput(Text.Join([head] + tail, '\n')) == [head] + tail
  {
    var rest := Text.Join(tail, '\n');
    assert ([head] + tail)[1..] == tail;
    assert Text.Join([head] + tail, '\n') == head + "\n" + rest;
    ParseOne(head);
    ParseAtNewline(head, rest);
  }

  // ---------------------------------------------------------------------
  // Handlers
  // ---------------------------------------------------------------------

  datatype Outcome = Outcome(response: Web.Response, table: FilterStore.FilterTable)

  const NoHosts: Web.Response := Web.HttpError(400, "At least one host is required")
  const BadId: Web.Response := Web.HttpError(400, "Invalid filter ID")
  const Failed: Web.Response := Web.HttpError(500, "Internal server error")
  const Done: Web.Response := Web.SeeOther("/filters")

  /**
   * The filter a form describes (lines 23-32 and 50-59). It reads the keys
   * `hosts`, `exclude_query_params`, `path_regex` and `cookies_file`. The
   * flag is set only by the exact value "on", and the two text fields are trimmed.
   */
  function Submitted(form: Web.Form): (f: FilterStore.FilterInput)
    ensures f.hosts == ParseHostsInput(Web.FormValue(form, "hosts"))
    ensures f.excludeQueryParams <==> Web.FormValue(form, "exclude_query_params") == "on"
    ensures f.pathRegex == Text.TrimSpace(Web.FormValue(form, "path_regex"))
    ensures f.cookiesFile == Text.TrimSpace(Web.FormValue(form, "cookies_file"))
  {
    FilterStore.FilterInput(
      ParseHostsInput(Web.FormValue(form, "hosts")),
      Web.FormValue(form, "exclude_query_params") == "on",
      Text.TrimSpace(Web.FormValue(form, "path_regex")),
      Text.TrimSpace(Web.FormValue(form, "cookies_file")))
  }

  /** The id field as the update and delete handlers read it, parse error ignored. */
  function FormId(form: Web.Form): (id: int)
    ensures GoStrconv.ParseInt(Web.FormValue(form, "id")).err == GoStrconv.SyntaxError ==> id == 0
    ensures GoStrconv.MinInt64 <= id <= GoStrconv.MaxInt64
  {
    GoStrconv.ParseInt(Web.FormValue(form, "id")).value
  }

  /**
   * `addFilterHandler` (lines 22-41): a form without hosts is refused with
   * 400 and nothing stored; otherwise the filter is stored and listed last,
   * hosts exactly as parsed, and the browser is sent back to the list.
   */
  function AddFilter(t: FilterStore.FilterTable, form: Web.Form, now: int, dbOk: bool): (o: Outcome)
    requires Tables.Valid(t)
    ensures Tables.Valid(o.table)
    ensures Submitted(form).hosts == [] ==> o == Outcome(NoHosts, t)
    ensures Submitted(form).hosts != [] && !dbOk ==> o == Outcome(Failed, t)
    ensures Submitted(form).hosts != [] && dbOk ==>
      var f := Submitted(form);
      && o.response == Done
      && FilterStore.ListFilters(o.table) == FilterStore.ListFilters(t)
           + [FilterStore.UrlFilter(t.high + 1, f.hosts, f.excludeQueryParams, f.pathRegex, f.cookiesFile, now)]
  {
    var f := Submitted(form);
    if |f.hosts| == 0 then Outcome(NoHosts, t)
    else if !dbOk then Outcome(Failed, t)
    else
      var t1 := FilterStore.InsertFilter(t, f, now).0;
      assert FilterStore.ListFilters(t1) == FilterStore.ListFilters(t)
           + [FilterStore.UrlFilter(t.high + 1, f.hosts, f.excludeQueryParams, f.pathRegex, f.cookiesFile, now)] by {
        FilterStore.InsertThenList(t, f, now);
      }
      Outcome(Done, t1)
  }

  /**
   * `updateFilterHandler` (lines 43-68): an id that is zero or does not
   * parse, or a form without hosts, is refused with 400 before any database
   * call; otherwise the row with that id, if any, lists with the submitted
   * fields and its old creation time, and every other row is unchanged.
   */
  function UpdateFilter(t: FilterStore.FilterTable, form: Web.Form, dbOk: bool): (o: Outcome)
    requires Tables.Valid(t)
    ensures Tables.Valid(o.table)
    ensures FormId(form) == 0 ==> o == Outcome(BadId, t)
    ensures FormId(form) != 0 && Submitted(form).hosts == [] ==> o == Outcome(NoHosts, t)
    ensures FormId(form) != 0 && Submitted(form).hosts != [] && !dbOk ==> o == Outcome(Failed, t)
    ensures FormId(form) != 0 && Submitted(form).hosts != [] && dbOk ==>
      var (id, f, l0, l1) := (FormId(form), Submitted(form), FilterStore.ListFilters(t), FilterStore.ListFilters(o.table));
      && o.response == Done
      && |l1| == |l0|
      && (forall k :: 0 <= k < |l0| && l0[k].id == id ==>
            l1[k] == FilterStore.UrlFilter(id, f.hosts, f.excludeQueryParams, f.pathRegex, f.cookiesFile, l0[k].createdAt))
      && (forall k :: 0 <= k < |l0| && l0[k].id != id ==> l1[k] == l0[k])
  {
    var id := FormId(form);
    if id == 0 then Outcome(BadId, t)
    else
      var f := Submitted(form);
      if |f.hosts| == 0 then Outcome(NoHosts, t)
      else if !dbOk then Outcome(Failed, t)
      else
        var t1 := FilterStore.UpdateFilter(t, id, f);
        FilterStore.UpdateThenList(t, id, f);
        Outcome(Done, t1)
  }

  /**
   * `deleteFilterHandler` (lines 70-84): an id that is zero or does not
   * parse is refused with 400 before any database call; otherwise exactly
   * the row with that id is gone.
   */
  function DeleteFilter(t: FilterStore.FilterTable, form: Web.Form, dbOk: bool): (o: Outcome)
    requires Tables.Valid(t)
    ensures Tables.Valid(o.table)
    ensures FormId(form) == 0 ==> o == Outcome(BadId, t)
    ensures FormId(form) != 0 && !dbOk ==> o == Outcome(Failed, t)
    ensures FormId(form) != 0 && dbOk ==>
      && o.response == Done
      && forall x :: x in o.table.rows <==> x in t.rows && x.id != FormId(form)
  {
    var id := FormId(form);
    if id == 0 then Outcome(BadId, t)
    else if !dbOk then Outcome(Failed, t)
    else Outcome(Done, FilterStore.DeleteFilter(t, id))
  }

  /** An id field that is not a number never reaches the database. */
  lemma UnparsableIdIsRefused(t: FilterStore.FilterTable, form: Web.Form, dbOk: bool)
    requires Tables.Valid(t)
    requires GoStrconv.ParseInt(Web.FormValue(form, "id")).err == GoStrconv.SyntaxError
    ensures UpdateFilter(t, form, dbOk) == Outcome(BadId, t)
    ensures DeleteFilter(t, form, dbOk) == Outcome(BadId, t)
  {
  }

  /** Hosts typed one per line into the form are listed back exactly after an add. */
  lemma TypedHostsSurvive(t: FilterStore.FilterTable, form: Web.Form, now: int, hosts: seq<string>)
    requires Tables.Valid(t)
    requires hosts != [] && FilterStore.CleanHosts(hosts) && forall i :: 0 <= i < |hosts| ==> ',' !in hosts[i]
    requires Web.FormValue(form, "hosts") == Text.Join(hosts, '\n')
    ensures var f := Submitted(form);
      FilterStore.ListFilters(AddFilter(t, form, now, true).table)
        == FilterStore.ListFilters(t) + [FilterStore.UrlFilter(t.high + 1, hosts, f.excludeQueryParams, f.pathRegex, f.cookiesFile, now)]
  {
    assert Submitted(form).hosts == hosts by {
      ParseLines(hosts);
    }
    AddListsLast(t, form, now, hosts);
  }

  lemma AddListsLast(t: FilterStore.FilterTable, form: Web.Form, now: int, hosts: seq<string>)
    requires Tables.Valid(t)
    requires Submitted(form).hosts == hosts && hosts != []
    ensures var f := Submitted(form);
      FilterStore.ListFilters(AddFilter(t, form, now, true).table)
        == FilterStore.ListFilters(t) + [FilterStore.UrlFilter(t.high + 1, hosts, f.excludeQueryParams, f.pathRegex, f.cookiesFile, now)]
  {
  }
}

=== FILE: dbwriter.dfy ===
/**
 * The log writer behind zerolog (internal/logger/dbwriter.go): each JSON log
 * line is split into level, message and the remaining fields, stored in the
 * log table and offered to every live subscriber without blocking.
 *
 * JSON decoding and encoding are parameters: `unmarshal` gives the decoded
 * object, or `None` when decoding into a map fails (the line is not JSON,
 * or is JSON but neither an object nor `null`). The literal `null` decodes
 * without error to a nil map, which reads as the empty object, so
 * `unmarshal` gives `Some(map[])` for it. `marshal` gives the encoding of
 * the remaining fields or `None` when encoding fails.
 * Channels are named by the number `Subscribe` hands out; a channel holds
 * its buffered events and whether it is still open.
 */
module LogFanout {
  import opened Wrappers
  import Tables
  import Logs

  /** A decoded JSON value: a string, or any other value, kept abstract. */
  datatype Json = JString(s: string) | JOther(text: string)

  type Object = map<string, Json>

  datatype LogEvent = LogEvent(level: string, message: string, fields: string)

  /** The buffer size of a subscriber channel (line 74). */
  const Capacity: nat := 64

  datatype Chan = Chan(buf: seq<LogEvent>, open: bool)

  /** The subscriber set, and the next channel name to hand out. */
  datatype Writer = Writer(subscribers: map<nat, Chan>, next: nat)

  /** Every subscriber has a name already handed out, an open channel and a buffer within capacity. */
  predicate Valid(w: Writer) {
    forall id :: id in w.subscribers ==>
      id < w.next && w.subscribers[id].open && |w.subscribers[id].buf| <= Capacity
  }

  /** `NewDBWriter` (lines 28-33): no subscribers yet. */
  function NewWriter(): (w: Writer)
    ensures Valid(w) && w.subscribers == map[]
  {
    Writer(map[], 0)
  }

  /** `raw[key].(string)` with the failed assertion ignored: "" unless the key holds a string. */
  function StringField(raw: Object, key: string): (s: string)
    ensures key in raw && raw[key].JString? ==> s == raw[key].s
    ensures !(key in raw && raw[key].JString?) ==> s == ""
  {
    if key in raw && raw[key].JString? then raw[key].s else ""
  }

  /** The keys lifted out of every line (lines 46-48). */
  const Known: set<string> := {"level", "message", "time"}

  /** The line's fields other than level, message and time. */
  function Extra(raw: Object): (rest: Object)
    ensures forall k :: k in rest <==> k in raw && k !in Known
    ensures forall k :: k in rest ==> rest[k] == raw[k]
  {
    map k | k in raw && k !in Known :: raw[k]
  }

  /** Lines 50-55: "{}" when no field remains or encoding fails, else the encoding. */
  function FieldsJson(rest: Object, marshal: Object -> Option<string>): (f: string)
    ensures rest == map[] ==> f == "{}"
    ensures rest != map[] && marshal(rest).Some? ==> f == marshal(rest).value
    ensures rest != map[] && marshal(rest).None? ==> f == "{}"
  {
    if |rest| > 0 then
      match marshal(rest)
      case Some(b) => b
      case None => "{}"
    else "{}"
  }

  /** The event a decoded line becomes (lines 42-59). */
  function EventOf(raw: Object, marshal: Object -> Option<string>): (e: LogEvent)
    ensures e.level == StringField(raw, "level") && e.message == StringField(raw, "message")
    ensures e.fields == FieldsJson(Extra(raw), marshal)
  {
    LogEvent(StringField(raw, "level"), StringField(raw, "message"), FieldsJson(Extra(raw), marshal))
  }

  /** `select { case ch <- e: default: }`: the event is buffered if there is room, dropped otherwise. */
  function Offer(c: Chan, e: LogEvent): (r: Chan)
    ensures r.open == c.open
    ensures |c.buf| < Capacity ==> r.buf == c.buf + [e]
    ensures |c.buf| >= Capacity ==> r.buf == c.buf
  {
    if |c.buf| < Capacity then c.(buf := c.buf + [e]) else c
  }

  /** Lines 60-67: every current subscriber is offered the event. */
  function Broadcast(w: Writer, e: LogEvent): (r: Writer)
    ensures r.next == w.next
    ensures r.subscribers.Keys == w.subscribers.Keys
    ensures forall id :: id in w.subscribers ==> r.subscribers[id] == Offer(w.subscribers[id], e)
  {
    w.(subscribers := map id | id in w.subscribers :: Offer(w.subscribers[id], e))
  }

  datatype WriteResult = WriteResult(n: int, writer: Writer, log: Logs.LogTable)

  /**
   * `Write` (lines 36-70): always reports the whole line written. A line
   * that does not decode into a map changes nothing. Otherwise its event is
   * inserted into the log table when the insert succeeds, and broadcast
   * either way.
   */
  function Write(
    w: Writer, log: Logs.LogTable, p: seq<bv8>, now: int,
    unmarshal: seq<bv8> -> Option<Object>, marshal: Object -> Option<string>, insertOk: bool): (r: WriteResult)
    requires Tables.Valid(log)
    ensures r.n == |p|
    ensures Tables.Valid(r.log)
    ensures unmarshal(p).None? ==> r.writer == w && r.log == log
    ensures unmarshal(p).Some? ==>
      var e := EventOf(unmarshal(p).value, marshal);
      && r.writer == Broadcast(w, e)
      && (insertOk ==> r.log == Logs.InsertLog(log, e.level, e.message, e.fields, now).0)
      && (!insertOk ==> r.log == log)
  {
    match unmarshal(p)
    case None => WriteResult(|p|, w, log)
    case Some(raw) =>
      var e := EventOf(raw, marshal);
      var log' := if insertOk then Logs.InsertLog(log, e.level, e.message, e.fields, now).0 else log;
      WriteResult(|p|, Broadcast(w, e), log')
  }

  /** `Subscribe` (lines 73-79): a fresh, open, empty channel joins; the others are untouched. */
  function Subscribe(w: Writer): (r: (Writer, nat))
    requires Valid(w)
    ensures Valid(r.0)
    ensures r.1 !in w.subscribers
    ensures r.0.subscribers == w.subscribers[r.1 := Chan([], true)]
  {
    (Writer(w.subscribers[w.next := Chan([], true)], w.next + 1), w.next)
  }

  datatype Unsubscribed = Unsubscribed(writer: Writer, closed: Chan) | ClosePanics

  /**
   * `Unsubscribe` (lines 82-87): the channel leaves the set and is closed,
   * keeping whatever it still buffers; the others are untouched. A channel
   * that is no longer subscribed has been closed already, and closing it a
   * second time panics.
   */
  function Unsubscribe(w: Writer, id: nat): (r: Unsubscribed)
    requires Valid(w)
    ensures id !in w.subscribers ==> r == ClosePanics
    ensures id in w.subscribers ==>
      && r.Unsubscribed?
      && Valid(r.writer)
      && r.writer.subscribers == w.subscribers - {id}
      && r.closed == Chan(w.subscribers[id].buf, false)
  {
    if id in w.subscribers then
      Unsubscribed(w.(subscribers := w.subscribers - {id}), w.subscribers[id].(open := false))
    else ClosePanics
  }

  /** A reader takes the oldest buffered event, if any (the live log view at the other end). */
  function Receive(w: Writer, id: nat): (r: (Writer, Option<LogEvent>))
    requires Valid(w) && id in w.subscribers
    ensures Valid(r.0)
    ensures r.0.subscribers.Keys == w.subscribers.Keys
    ensures w.subscribers[id].buf == [] ==> r.1 == None && r.0 == w
    ensures w.subscribers[id].buf != [] ==>
      && r.1 == Some(w.subscribers[id].buf[0])
      && r.0.subscribers[id].buf == w.subscribers[id].buf[1..]
    ensures forall other :: other in w.subscribers && other != id ==> r.0.subscribers[other] == w.subscribers[other]
  {
    var c := w.subscribers[id];
    if c.buf == [] then (w, None)
    else (w.(subscribers := w.subscribers[id := c.(buf := c.buf[1..])]), Some(c.buf[0]))
  }

  // ---------------------------------------------------------------------
  // Properties
  // ---------------------------------------------------------------------

  /** Writing keeps every subscriber open and within its buffer. */
  lemma WriteKeepsValid(
    w: Writer, log: Logs.LogTable, p: seq<bv8>, now: int,
    unmarshal: seq<bv8> -> Option<Object>, marshal: Object -> Option<string>, insertOk: bool)
    requires Valid(w) && Tables.Valid(log)
    ensures Valid(Write(w, log, p, now, unmarshal, marshal, insertOk).writer)
  {
  }

  /**
   * The fields column never carries level, message or time: two lines that
   * differ only in those keys store the same fields.
   */
  lemma FieldsIgnoreKnownKeys(raw1: Object, raw2: Object, marshal: Object -> Option<string>)
    requires forall k :: k !in Known ==> (k in raw1 <==> k in raw2)
    requires forall k :: k !in Known && k in raw1 ==> raw1[k] == raw2[k]
    ensures EventOf(raw1, marshal).fields == EventOf(raw2, marshal).fields
  {
    assert Extra(raw1) == Extra(raw2);
  }

  /** A line holding only level, message and time stores "{}" as its fields. */
  lemma OnlyKnownKeysGiveEmptyFields(raw: Object, marshal: Object -> Option<string>)
    requires raw.Keys <= Known
    ensures EventOf(raw, marshal).fields == "{}"
  {
    assert Extra(raw) == map[];
  }

  /** A failed insert does not stop the broadcast: subscribers see the same thing either way. */
  lemma InsertFailureStillBroadcasts(
    w: Writer, log: Logs.LogTable, p: seq<bv8>, now: int,
    unmarshal: seq<bv8> -> Option<Object>, marshal: Object -> Option<string>)
    requires Tables.Valid(log)
    ensures Write(w, log, p, now, unmarshal, marshal, true).writer == Write(w, log, p, now, unmarshal, marshal, false).writer
  {
  }

  /** The entry stored and the event a subscriber with room receives carry the same level, message and fields. */
  lemma StoredIsBroadcast(
    w: Writer, log: Logs.LogTable, p: seq<bv8>, now: int,
    unmarshal: seq<bv8> -> Option<Object>, marshal: Object -> Option<string>, id: nat)
    requires Tables.Valid(log) && unmarshal(p).Some?
    requires id in w.subscribers && |w.subscribers[id].buf| < Capacity
    ensures var r := Write(w, log, p, now, unmarshal, marshal, true);
      var stored := r.log.rows[|r.log.rows| - 1].val;
      var got := r.writer.subscribers[id].buf[|w.subscribers[id].buf|];
      stored.level == got.level && stored.message == got.message && stored.fields == got.fields
  {
  }

  /** A subscriber with room receives the event; a full one drops it and keeps its buffer. */
  lemma SubscriberGetsEventIffRoom(w: Writer, e: LogEvent, id: nat)
    requires id in w.subscribers
    ensures var after := Broadcast(w, e).subscribers[id].buf;
      var before := w.subscribers[id].buf;
      (|after| == |before| + 1 && after[|before|] == e) <==> |before| < Capacity
  {
  }

  /** After unsubscribing, later writes never reach the channel. */
  lemma UnsubscribedGetsNothing(
    w: Writer, id: nat, log: Logs.LogTable, p: seq<bv8>, now: int,
    unmarshal: seq<bv8> -> Option<Object>, marshal: Object -> Option<string>, insertOk: bool)
    requires Valid(w) && id in w.subscribers && Tables.Valid(log)
    ensures var u := Unsubscribe(w, id);
      id !in Write(u.writer, log, p, now, unmarshal, marshal, insertOk).writer.subscribers
  {
  }

  /** Subscribing and then unsubscribing the new channel restores the subscriber set. */
  lemma SubscribeUnsubscribe(w: Writer)
    requires Valid(w)
    ensures var (w1, id) := Subscribe(w);
      var u := Unsubscribe(w1, id);
      u.Unsubscribed? && u.writer.subscribers == w.subscribers && u.closed == Chan([], false)
  {
    var (w1, id) := Subscribe(w);
    assert w1.subscribers - {id} == w.subscribers;
  }
}

=== FILE: downloads.dfy ===
/**
 * The download ledger (internal/database/downloads.go): the `downloads`
 * table with its auto-increment ids, the status update, the filtered and
 * paged listing with its total, and the status counts. `createdAt` is the
 * insert time on the model's clock, which the caller supplies.
 */
module Downloads {
  import Tables
  import Ordering

  datatype Download = Download(
    url: string, userId: int, username: string, chatId: int,
    status: string, filename: string, errorMessage: string, createdAt: int)

  type Ledger = Tables.Table<Download>

  type Listed = Tables.Row<Download>

  /** `InsertDownload` (lines 24-33): one row appended, under an id above every earlier id. */
  function InsertDownload(
    l: Ledger, url: string, userId: int, username: string, chatId: int,
    status: string, filename: string, errorMessage: string, now: int): (r: (Ledger, int))
    requires Tables.Valid(l)
    ensures Tables.Valid(r.0)
    ensures r.0.rows == l.rows + [Tables.Row(r.1, Download(url, userId, username, chatId, status, filename, errorMessage, now))]
    ensures forall x :: x in l.rows ==> x.id < r.1
  {
    Tables.Insert(l, Download(url, userId, username, chatId, status, filename, errorMessage, now))
  }

  function SetOutcome(status: string, filename: string, errorMessage: string): Download -> Download {
    (d: Download) => d.(status := status, filename := filename, errorMessage := errorMessage)
  }

  /**
   * `UpdateDownloadStatus` (lines 35-41): status, filename and error message
   * of row `id` are overwritten, whatever the current status; every other
   * field and every other row is kept, and a missing id changes nothing.
   */
  function UpdateDownloadStatus(l: Ledger, id: int, status: string, filename: string, errorMessage: string): (r: Ledger)
    ensures Tables.Valid(l) ==> Tables.Valid(r)
    ensures |r.rows| == |l.rows| && r.high == l.high
    ensures forall k :: 0 <= k < |l.rows| && l.rows[k].id == id ==>
      var (old_, new_) := (l.rows[k].val, r.rows[k].val);
      && r.rows[k].id == id
      && new_.status == status && new_.filename == filename && new_.errorMessage == errorMessage
      && new_.url == old_.url && new_.userId == old_.userId && new_.username == old_.username
      && new_.chatId == old_.chatId && new_.createdAt == old_.createdAt
    ensures forall k :: 0 <= k < |l.rows| && l.rows[k].id != id ==> r.rows[k] == l.rows[k]
  {
    Tables.Update(l, id, SetOutcome(status, filename, errorMessage))
  }

  /** A missing id is a no-op. */
  lemma UpdateMissingIsNoOp(l: Ledger, id: int, status: string, filename: string, errorMessage: string)
    requires Tables.Get(l.rows, id).None?
    ensures UpdateDownloadStatus(l, id, status, filename, errorMessage) == l
  {
    var r := UpdateDownloadStatus(l, id, status, filename, errorMessage);
    assert r.rows == l.rows;
  }

  /** No terminal-state guard: a second outcome overwrites the first, so the last write wins. */
  lemma LastWriteWins(l: Ledger, id: int, s1: string, f1: string, e1: string, s2: string, f2: string, e2: string)
    ensures UpdateDownloadStatus(UpdateDownloadStatus(l, id, s1, f1, e1), id, s2, f2, e2)
         == UpdateDownloadStatus(l, id, s2, f2, e2)
  {
    var a := UpdateDownloadStatus(UpdateDownloadStatus(l, id, s1, f1, e1), id, s2, f2, e2);
    var b := UpdateDownloadStatus(l, id, s2, f2, e2);
    assert a.rows == b.rows;
  }

  // ---------------------------------------------------------------------
  // Listing
  // ---------------------------------------------------------------------

  /** `DownloadFilter`: an empty status and a zero user id mean "any". */
  datatype DownloadFilter = DownloadFilter(status: string, userId: int, limit: int, offset: int)

  /** The `WHERE` clause built at lines 48-61. */
  predicate Matches(f: DownloadFilter, d: Download) {
    && (f.status == "" || d.status == f.status)
    && (f.userId == 0 || d.userId == f.userId)
  }

  /** The `WHERE` clause as a row predicate; it reads the filter's status and user id only. */
  function MatchesRow(status: string, userId: int): Listed -> bool {
    (x: Listed) => Matches(DownloadFilter(status, userId, 0, 0), x.val)
  }

  function CreatedAt(x: Listed): int {
    x.val.createdAt
  }

  /** The rows matching a status and user filter, newest `created_at` first (ties: later row first). */
  function Ordered(l: Ledger, status: string, userId: int): (r: seq<Listed>)
    ensures |r| == Ordering.Count(l.rows, MatchesRow(status, userId))
    ensures forall x :: x in r ==> x in l.rows && Matches(DownloadFilter(status, userId, 0, 0), x.val)
    ensures forall x :: x in l.rows && Matches(DownloadFilter(status, userId, 0, 0), x.val) ==> x in r
    ensures Ordering.SortedDesc(r, CreatedAt)
  {
    var matching := Ordering.Filter(l.rows, MatchesRow(status, userId));
    Ordering.FilterCount(l.rows, MatchesRow(status, userId));
    assert forall x :: x in matching ==> x in l.rows && Matches(DownloadFilter(status, userId, 0, 0), x.val) by {
      forall x | x in matching
        ensures x in l.rows && Matches(DownloadFilter(status, userId, 0, 0), x.val)
      {
        var j :| 0 <= j < |matching| && matching[j] == x;
      }
    }
    assert forall x :: x in l.rows && Matches(DownloadFilter(status, userId, 0, 0), x.val) ==> x in matching by {
      forall x | x in l.rows && Matches(DownloadFilter(status, userId, 0, 0), x.val)
        ensures x in matching
      {
        var j :| 0 <= j < |l.rows| && l.rows[j] == x;
      }
    }
    Ordering.SortDesc(matching, CreatedAt)
  }

  /** A zero limit means the default page of 50 (lines 44-46). */
  function EffectiveLimit(limit: int): (n: int)
    ensures limit != 0 ==> n == limit
    ensures limit == 0 ==> n == 50
  {
    if limit == 0 then 50 else limit
  }

  /**
   * `ListDownloads` (lines 43-89): the matching rows, newest `created_at`
   * first, after skipping `offset` of them and keeping at most the limit,
   * and the number of matching rows before paging.
   */
  function ListDownloads(l: Ledger, f: DownloadFilter): (r: (seq<Listed>, int))
    ensures r.1 == Ordering.Count(l.rows, MatchesRow(f.status, f.userId))
    ensures forall k :: 0 <= k < |r.0| ==> r.0[k] in l.rows && Matches(f, r.0[k].val)
    ensures Ordering.SortedDesc(r.0, CreatedAt)
    ensures var lim := EffectiveLimit(f.limit);
      var rest := r.1 - Ordering.PageStart(r.1, f.offset);
      |r.0| == if 0 <= lim < rest then lim else rest
    ensures var o := Ordered(l, f.status, f.userId);
      forall k :: 0 <= k < |r.0| ==> r.0[k] == o[Ordering.PageStart(|o|, f.offset) + k]
  {
    var ordered := Ordered(l, f.status, f.userId);
    (Ordering.Page(ordered, f.offset, EffectiveLimit(f.limit)), |ordered|)
  }

  /** With a non-zero limit, a listing is `LIMIT ? OFFSET ?` over the matching rows, newest first. */
  lemma ListIsPage(l: Ledger, status: string, userId: int, limit: int, offset: int)
    requires limit != 0
    ensures ListDownloads(l, DownloadFilter(status, userId, limit, offset)).0
         == Ordering.Page(Ordered(l, status, userId), offset, limit)
  {
  }

  /** Limit 0 and limit 50 list the same page. */
  lemma LimitZeroIsFifty(l: Ledger, f: DownloadFilter)
    ensures ListDownloads(l, f.(limit := 0)) == ListDownloads(l, f.(limit := 50))
  {
  }

  /** The total depends on the status and user filters only, not on limit or offset. */
  lemma TotalIgnoresPaging(l: Ledger, f: DownloadFilter, g: DownloadFilter)
    requires f.status == g.status && f.userId == g.userId
    ensures ListDownloads(l, f).1 == ListDownloads(l, g).1
  {
  }

  /** Asking for every row from the start lists every matching row. */
  lemma EveryMatchIsListed(l: Ledger, f: DownloadFilter, x: Listed)
    requires f.offset <= 0 && f.limit < 0
    requires x in l.rows && Matches(f, x.val)
    ensures x in ListDownloads(l, f).0
  {
    var ordered := Ordered(l, f.status, f.userId);
    assert Ordering.Page(ordered, f.offset, f.limit) == ordered;
  }

  // ---------------------------------------------------------------------
  // Counts
  // ---------------------------------------------------------------------

  datatype DownloadStats = DownloadStats(total: nat, succeeded: nat, failed: nat)

  predicate Succeeded(x: Listed) {
    x.val.status == "success"
  }

  predicate Failed(x: Listed) {
    x.val.status == "failed"
  }

  /** `GetDownloadStats` (lines 97-105): all rows, and the rows whose status is exactly "success" or "failed". */
  function GetDownloadStats(l: Ledger): (s: DownloadStats)
    ensures s.total == |l.rows|
    ensures s.succeeded == Ordering.Count(l.rows, Succeeded)
    ensures s.failed == Ordering.Count(l.rows, Failed)
    ensures s.succeeded + s.failed <= s.total
  {
    var ok := Ordering.Filter(l.rows, Succeeded);
    var bad := Ordering.Filter(l.rows, Failed);
    Ordering.FilterCount(l.rows, Succeeded);
    Ordering.FilterCount(l.rows, Failed);
    Ordering.FilterDisjoint(l.rows, Succeeded, Failed);
    DownloadStats(|l.rows|, |ok|, |bad|)
  }
}

=== FILE: filters.dfy ===
/**
 * The URL filter table (internal/database/filters.go). A filter's host list
 * is stored as one newline-joined column and its query-stripping flag as an
 * integer; listing splits and trims the hosts again and reads any non-zero
 * integer as true. Seeding fills an empty table with the configured filters,
 * or with six default video platforms when none are configured.
 */
module FilterStore {
  import Text
  import Tables

  /** A `url_filters` row as stored. */
  datatype StoredFilter = StoredFilter(
    hosts: string, excludeQueryParams: int, pathRegex: string, cookiesFile: string, createdAt: int)

  type FilterTable = Tables.Table<StoredFilter>

  /** `URLFilter`, as `ListFilters` hands it out. */
  datatype UrlFilter = UrlFilter(
    id: int, hosts: seq<string>, excludeQueryParams: bool, pathRegex: string, cookiesFile: string, createdAt: int)

  /** A filter as configured or submitted, before it is stored. */
  datatype FilterInput = FilterInput(hosts: seq<string>, excludeQueryParams: bool, pathRegex: string, cookiesFile: string)

  /** `boolToInt` (lines 116-121). */
  function BoolToInt(b: bool): (n: int)
    ensures n == 0 || n == 1
    ensures n != 0 <==> b
  {
    if b then 1 else 0
  }

  /** Reading the stored flag back with `!= 0` gives the flag that was stored. */
  lemma BoolRoundTrip(b: bool)
    ensures (BoolToInt(b) != 0) == b
  {
  }

  /** A host as it leaves the codec: non-empty, without surrounding white space, on one line. */
  predicate CleanHost(h: string) {
    h != "" && Text.Trimmed(h) && '\n' !in h
  }

  /** Every host of a list is clean. */
  predicate CleanHosts(hosts: seq<string>) {
    forall i :: 0 <= i < |hosts| ==> CleanHost(hosts[i])
  }

  /** Each piece trimmed, the empty ones dropped, the rest in order. */
  function TrimmedPieces(ps: seq<string>): (r: seq<string>)
    ensures |r| <= |ps|
    ensures forall h :: h in r ==> h != "" && Text.TrimSpace(h) == h
  {
    if ps == [] then [] else Keep(ps[0]) + TrimmedPieces(ps[1..])
  }

  /** One piece trimmed, or nothing when that leaves it empty. */
  function Keep(p: string): (r: seq<string>)
    ensures |r| <= 1
    ensures forall h :: h in r ==> h != "" && Text.TrimSpace(h) == h
    ensures forall h, c :: h in r && c in h ==> c in p
    ensures Text.TrimSpace(p) != "" ==> r == [Text.TrimSpace(p)]
    ensures Text.TrimSpace(p) == "" ==> r == []
  {
    var h := Text.TrimSpace(p);
    Text.TrimSpaceIdempotent(p);
    if h != "" then [h] else []
  }

  /** Trimming adds no character: a character absent from every piece is absent from the result. */
  lemma {:induction false} TrimmedPiecesAvoid(ps: seq<string>, c: char)
    requires forall p :: p in ps ==> c !in p
    ensures forall h :: h in TrimmedPieces(ps) ==> c !in h
    decreases |ps|
  {
    if ps != [] {
      assert ps[0] in ps;
      assert forall p :: p in ps[1..] ==> p in ps;
      TrimmedPiecesAvoid(ps[1..], c);
    }
  }

  /** Trimming works piece by piece, so it distributes over concatenation. */
  lemma {:induction false} TrimmedPiecesAppend(a: seq<string>, b: seq<string>)
    ensures TrimmedPieces(a + b) == TrimmedPieces(a) + TrimmedPieces(b)
    decreases |a|
  {
    if a == [] {
      assert a + b == b;
    } else {
      assert (a + b)[0] == a[0];
      assert (a + b)[1..] == a[1..] + b;
      TrimmedPiecesAppend(a[1..], b);
    }
  }

  /** Blank pieces all vanish. */
  lemma {:induction false} TrimmedPiecesOfBlanks(ps: seq<string>)
    requires forall p :: p in ps ==> forall c :: c in p ==> Text.IsSpace(c)
    ensures TrimmedPieces(ps) == []
    decreases |ps|
  {
    if ps != [] {
      assert ps[0] in ps;
      assert forall p :: p in ps[1..] ==> p in ps;
      TrimmedPiecesOfBlanks(ps[1..]);
    }
  }

  /** Pieces that are already clean pass through unchanged. */
  lemma {:induction false} TrimmedPiecesOfClean(ps: seq<string>)
    requires forall i :: 0 <= i < |ps| ==> ps[i] != "" && Text.Trimmed(ps[i])
    ensures TrimmedPieces(ps) == ps
    decreases |ps|
  {
    if ps != [] {
      var head, tail := ps[0], ps[1..];
      Text.TrimSpaceOfTrimmed(head);
      assert Keep(head) == [head];
      assert forall i :: 0 <= i < |tail| ==> tail[i] == ps[i + 1];
      TrimmedPiecesOfClean(tail);
      assert ps == [head] + tail;
    }
  }

  /**
   * `splitHosts` (lines 123-135): nothing for the empty column; otherwise the
   * lines of the column, trimmed, the blank ones dropped, in order.
   */
  function SplitHosts(s: string): (r: seq<string>)
    ensures s == "" ==> r == []
    ensures forall h :: h in r ==> CleanHost(h)
    ensures (forall c :: c in s ==> Text.IsSpace(c)) ==> r == []
  {
    if s == "" then []
    else
      var ps := Text.Split(s, '\n');
      TrimmedPiecesAvoid(ps, '\n');
      assert (forall c :: c in s ==> Text.IsSpace(c)) ==> TrimmedPieces(ps) == [] by {
        if forall c :: c in s ==> Text.IsSpace(c) {
          TrimmedPiecesOfBlanks(ps);
        }
      }
      TrimmedPieces(ps)
  }

  /** Clean hosts survive being joined with newlines and split again (lines 20, 56, 123-135). */
  lemma HostsRoundTrip(hosts: seq<string>)
    requires CleanHosts(hosts)
    ensures SplitHosts(Text.Join(hosts, '\n')) == hosts
  {
    if hosts != [] {
      assert forall h :: h in hosts ==> CleanHost(h);
      assert forall i :: 0 <= i < |hosts| ==> CleanHost(hosts[i]);
      Text.SplitJoin(hosts, '\n');
      TrimmedPiecesOfClean(hosts);
      assert hosts[0] in hosts;
      JoinStartsWithFirst(hosts, '\n');
    }
  }

  lemma JoinStartsWithFirst(xs: seq<string>, sep: char)
    requires |xs| >= 1
    ensures xs[0] <= Text.Join(xs, sep)
  {
  }

  /** The row `InsertFilter` and `UpdateFilter` write for a filter. */
  function Store(f: FilterInput, createdAt: int): (s: StoredFilter)
    ensures (s.excludeQueryParams != 0) == f.excludeQueryParams
    ensures s.pathRegex == f.pathRegex && s.cookiesFile == f.cookiesFile && s.createdAt == createdAt
    ensures CleanHosts(f.hosts) ==> SplitHosts(s.hosts) == f.hosts
  {
    var joined := Text.Join(f.hosts, '\n');
    assert CleanHosts(f.hosts) ==> SplitHosts(joined) == f.hosts by {
      if CleanHosts(f.hosts) {
        HostsRoundTrip(f.hosts);
      }
    }
    StoredFilter(Text.Join(f.hosts, '\n'), BoolToInt(f.excludeQueryParams), f.pathRegex, f.cookiesFile, createdAt)
  }

  /** A stored row as `ListFilters` reads it (lines 49-58). */
  function Load(x: Tables.Row<StoredFilter>): (f: UrlFilter)
    ensures f.id == x.id && f.pathRegex == x.val.pathRegex && f.cookiesFile == x.val.cookiesFile
    ensures f.excludeQueryParams <==> x.val.excludeQueryParams != 0
  {
    UrlFilter(x.id, SplitHosts(x.val.hosts), x.val.excludeQueryParams != 0, x.val.pathRegex, x.val.cookiesFile, x.val.createdAt)
  }

  /** `InsertFilter` (lines 17-26): one row appended, under an id above every earlier id. */
  function InsertFilter(t: FilterTable, f: FilterInput, now: int): (r: (FilterTable, int))
    requires Tables.Valid(t)
    ensures Tables.Valid(r.0)
    ensures r.0.rows == t.rows + [Tables.Row(r.1, Store(f, now))]
    ensures forall x :: x in t.rows ==> x.id < r.1
    ensures r.1 == t.high + 1
  {
    Tables.Insert(t, Store(f, now))
  }

  function Overwrite(f: FilterInput): StoredFilter -> StoredFilter {
    (s: StoredFilter) => Store(f, s.createdAt)
  }

  /**
   * `UpdateFilter` (lines 28-34): all four columns of row `id` overwritten,
   * its creation time kept; every other row kept, and a missing id changes
   * nothing.
   */
  function UpdateFilter(t: FilterTable, id: int, f: FilterInput): (r: FilterTable)
    ensures Tables.Valid(t) ==> Tables.Valid(r)
    ensures |r.rows| == |t.rows| && r.high == t.high
    ensures forall k :: 0 <= k < |t.rows| && t.rows[k].id == id ==>
      r.rows[k] == Tables.Row(id, Store(f, t.rows[k].val.createdAt))
    ensures forall k :: 0 <= k < |t.rows| && t.rows[k].id != id ==> r.rows[k] == t.rows[k]
  {
    Tables.Update(t, id, Overwrite(f))
  }

  /** `DeleteFilter` (lines 36-39): exactly the row `id` goes; a missing id changes nothing. */
  function DeleteFilter(t: FilterTable, id: int): (r: FilterTable)
    ensures forall x :: x in r.rows <==> x in t.rows && x.id != id
    ensures Tables.Valid(t) ==> Tables.Valid(r)
    ensures r.high == t.high
  {
    Tables.Delete(t, id)
  }

  /** `ListFilters` (lines 41-61): every row, in id order, read back. */
  function ListFilters(t: FilterTable): (r: seq<UrlFilter>)
    ensures |r| == |t.rows|
    ensures forall k :: 0 <= k < |r| ==> r[k] == Load(t.rows[k])
    ensures Tables.Valid(t) ==> forall i, j :: 0 <= i < j < |r| ==> r[i].id < r[j].id
    ensures forall k :: 0 <= k < |r| ==> forall h :: h in r[k].hosts ==> CleanHost(h)
  {
    seq(|t.rows|, k requires 0 <= k < |t.rows| => Load(t.rows[k]))
  }

  /** `FilterCount` (lines 63-67). */
  function FilterCount(t: FilterTable): (n: nat)
    ensures n == 0 <==> t.rows == []
  {
    |t.rows|
  }

  /** A filter inserted with clean hosts is listed last, exactly as it went in. */
  lemma InsertThenList(t: FilterTable, f: FilterInput, now: int)
    requires Tables.Valid(t)
    requires CleanHosts(f.hosts)
    ensures ListFilters(InsertFilter(t, f, now).0)
      == ListFilters(t) + [UrlFilter(t.high + 1, f.hosts, f.excludeQueryParams, f.pathRegex, f.cookiesFile, now)]
  {
    var t1 := InsertFilter(t, f, now).0;
    var l0, l1 := ListFilters(t), ListFilters(t1);
    var u := UrlFilter(t.high + 1, f.hosts, f.excludeQueryParams, f.pathRegex, f.cookiesFile, now);
    forall k | 0 <= k < |l0|
      ensures l1[k] == l0[k]
    {
      assert t1.rows[k] == t.rows[k];
    }
    assert l1[|l0|] == u by {
      assert t1.rows[|t.rows|] == Tables.Row(t.high + 1, Store(f, now));
    }
    assert l1 == l0 + [u];
  }

  /**
   * After an update with clean hosts the listing has the same length; the
   * row with that id reads back with the new fields and its old creation
   * time, and every other row reads back as before.
   */
  lemma UpdateThenList(t: FilterTable, id: int, f: FilterInput)
    requires CleanHosts(f.hosts)
    ensures var (l0, l1) := (ListFilters(t), ListFilters(UpdateFilter(t, id, f)));
      && |l1| == |l0|
      && (forall k :: 0 <= k < |l0| && l0[k].id == id ==>
            l1[k] == UrlFilter(id, f.hosts, f.excludeQueryParams, f.pathRegex, f.cookiesFile, l0[k].createdAt))
      && (forall k :: 0 <= k < |l0| && l0[k].id != id ==> l1[k] == l0[k])
  {
    var t1 := UpdateFilter(t, id, f);
    var (l0, l1) := (ListFilters(t), ListFilters(t1));
    forall k | 0 <= k < |l0| && l0[k].id == id
      ensures l1[k] == UrlFilter(id, f.hosts, f.excludeQueryParams, f.pathRegex, f.cookiesFile, l0[k].createdAt)
    {
      assert t1.rows[k] == Tables.Row(id, Store(f, t.rows[k].val.createdAt));
    }
  }

  // ---------------------------------------------------------------------
  // Seeding
  // ---------------------------------------------------------------------

  /** The host lists of the default filters (lines 100-105). */
  const TikTokHosts: seq<string> := ["tiktok.com", "www.tiktok.com", "vm.tiktok.com"]
  const YouTubeHosts: seq<string> := ["youtube.com", "www.youtube.com", "youtu.be", "m.youtube.com"]
  const InstagramHosts: seq<string> := ["instagram.com", "www.instagram.com"]
  const TwitterHosts: seq<string> := ["twitter.com", "x.com", "www.x.com"]
  const RedditHosts: seq<string> := ["reddit.com", "www.reddit.com", "old.reddit.com"]
  const FacebookHosts: seq<string> := ["facebook.com", "www.facebook.com", "fb.watch"]

  /** The filters seeded when none are configured (lines 96-106): query strings stripped, no regex, no cookies. */
  const DefaultFilters: seq<FilterInput> := [
    FilterInput(TikTokHosts, true, "", ""),
    FilterInput(YouTubeHosts, true, "", ""),
    FilterInput(InstagramHosts, true, "", ""),
    FilterInput(TwitterHosts, true, "", ""),
    FilterInput(RedditHosts, true, "", ""),
    FilterInput(FacebookHosts, true, "", "")
  ]

  /** The filters inserted one after another, in order, each under the next id. */
  function InsertAll(t: FilterTable, fs: seq<FilterInput>, now: int): (r: FilterTable)
    requires Tables.Valid(t)
    ensures Tables.Valid(r)
    ensures |r.rows| == |t.rows| + |fs|
    ensures r.rows[..|t.rows|] == t.rows
    ensures forall k :: |t.rows| <= k < |r.rows| ==> r.rows[k].val == Store(fs[k - |t.rows|], now)
    ensures forall k :: |t.rows| <= k < |r.rows| ==> r.rows[k].id > t.high
    decreases |fs|
  {
    if fs == [] then t
    else
      var (t1, id) := InsertFilter(t, fs[0], now);
      var r := InsertAll(t1, fs[1..], now);
      InsertAllStep(t, t1, fs, now, r);
      r
  }

  /** The first insert, followed by the rest, places every filter after the old rows. */
  lemma InsertAllStep(t: FilterTable, t1: FilterTable, fs: seq<FilterInput>, now: int, r: FilterTable)
    requires fs != [] && Tables.Valid(t)
    requires t1.rows == t.rows + [Tables.Row(t.high + 1, Store(fs[0], now))] && t1.high == t.high + 1
    requires |r.rows| == |t1.rows| + |fs| - 1 && r.rows[..|t1.rows|] == t1.rows
    requires forall k :: |t1.rows| <= k < |r.rows| ==> r.rows[k].val == Store(fs[1..][k - |t1.rows|], now)
    requires forall k :: |t1.rows| <= k < |r.rows| ==> r.rows[k].id > t1.high
    ensures |r.rows| == |t.rows| + |fs|
    ensures r.rows[..|t.rows|] == t.rows
    ensures forall k :: |t.rows| <= k < |r.rows| ==> r.rows[k].val == Store(fs[k - |t.rows|], now)
    ensures forall k :: |t.rows| <= k < |r.rows| ==> r.rows[k].id > t.high
  {
    assert r.rows[|t.rows|] == t1.rows[|t.rows|];
    assert r.rows[..|t.rows|] == t1.rows[..|t.rows|];
    forall k | |t1.rows| <= k < |r.rows|
      ensures r.rows[k].val == Store(fs[k - |t.rows|], now)
    {
      assert fs[1..][k - |t1.rows|] == fs[k - |t.rows|];
    }
  }

  /** What an empty table is seeded with: the configured filters, or the defaults when there are none. */
  function SeedSource(configured: seq<FilterInput>): (fs: seq<FilterInput>)
    ensures |fs| > 0
  {
    if |configured| > 0 then configured else DefaultFilters
  }

  /**
   * `SeedFilters` (lines 69-114): a table with rows is left alone; an empty
   * one receives the configured filters in order, or the defaults when none
   * are configured.
   */
  function SeedFilters(t: FilterTable, configured: seq<FilterInput>, now: int): (r: FilterTable)
    requires Tables.Valid(t)
    ensures Tables.Valid(r)
    ensures t.rows != [] ==> r == t
    ensures t.rows == [] ==>
      |r.rows| == |SeedSource(configured)| && forall k :: 0 <= k < |r.rows| ==> r.rows[k].val == Store(SeedSource(configured)[k], now)
  {
    if FilterCount(t) > 0 then t
    else if |configured| > 0 then InsertAll(t, configured, now)
    else InsertAll(t, DefaultFilters, now)
  }

  /** Seeding is idempotent: a second seed finds rows and does nothing. */
  lemma SeedTwiceIsSeedOnce(t: FilterTable, configured: seq<FilterInput>, now: int, later: int)
    requires Tables.Valid(t)
    ensures var once := SeedFilters(t, configured, now);
      SeedFilters(once, configured, later) == once
  {
    var once := SeedFilters(t, configured, now);
    assert t.rows == [] ==> |once.rows| == |SeedSource(configured)| > 0;
  }

  /** A host with no white space at either end and no line break is clean. */
  lemma LiteralHost(h: string)
    requires h != "" && !Text.IsSpace(h[0]) && !Text.IsSpace(h[|h| - 1]) && '\n' !in h
    ensures CleanHost(h)
  {
    Text.TrimSpaceOfTrimmed(h);
  }

  /** Every default host is clean, so the defaults list back exactly as written. */
  lemma DefaultsAreClean()
    ensures forall k :: 0 <= k < |DefaultFilters| ==> CleanHosts(DefaultFilters[k].hosts)
  {
    TikTokHostsClean();
    YouTubeHostsClean();
    InstagramHostsClean();
    TwitterHostsClean();
    RedditHostsClean();
    FacebookHostsClean();
  }

  lemma TikTokHostsClean()
    ensures CleanHosts(TikTokHosts)
  {
    LiteralHost("tiktok.com");
    LiteralHost("www.tiktok.com");
    LiteralHost("vm.tiktok.com");
  }

  lemma YouTubeHostsClean()
    ensures CleanHosts(YouTubeHosts)
  {
    LiteralHost("youtube.com");
    LiteralHost("www.youtube.com");
    LiteralHost("youtu.be");
    LiteralHost("m.youtube.com");
  }

  lemma InstagramHostsClean()
    ensures CleanHosts(InstagramHosts)
  {
    LiteralHost("instagram.com");
    LiteralHost("www.instagram.com");
  }

  lemma TwitterHostsClean()
    ensures CleanHosts(TwitterHosts)
  {
    LiteralHost("twitter.com");
    LiteralHost("x.com");
    LiteralHost("www.x.com");
  }

  lemma RedditHostsClean()
    ensures CleanHosts(RedditHosts)
  {
    LiteralHost("reddit.com");
    LiteralHost("www.reddit.com");
    LiteralHost("old.reddit.com");
  }

  lemma FacebookHostsClean()
    ensures CleanHosts(FacebookHosts)
  {
    LiteralHost("facebook.com");
    LiteralHost("www.facebook.com");
    LiteralHost("fb.watch");
  }

  /**
   * Seeding an empty table lists the seeded filters back in order, with
   * their hosts unchanged when those are clean.
   */
  lemma SeedThenList(t: FilterTable, configured: seq<FilterInput>, now: int)
    requires Tables.Valid(t) && t.rows == []
    ensures var l := ListFilters(SeedFilters(t, configured, now));
      var fs := SeedSource(configured);
      && |l| == |fs|
      && (forall k :: 0 <= k < |l| ==>
            l[k].excludeQueryParams == fs[k].excludeQueryParams && l[k].pathRegex == fs[k].pathRegex && l[k].cookiesFile == fs[k].cookiesFile)
      && (forall k :: 0 <= k < |l| && CleanHosts(fs[k].hosts) ==> l[k].hosts == fs[k].hosts)
  {
    var r := SeedFilters(t, configured, now);
    var l := ListFilters(r);
    forall k | 0 <= k < |l|
      ensures l[k] == Load(Tables.Row(r.rows[k].id, Store(SeedSource(configured)[k], now)))
    {
      assert r.rows[k].val == Store(SeedSource(configured)[k], now);
    }
  }

  /** Seeding an empty table without configuration lists the six defaults, stripping query strings, with no regex and no cookies. */
  lemma SeededDefaults(t: FilterTable, now: int)
    requires Tables.Valid(t) && t.rows == []
    ensures var l := ListFilters(SeedFilters(t, [], now));
      |l| == 6
      && (forall k :: 0 <= k < 6 ==> l[k].hosts == DefaultFilters[k].hosts)
      && (forall k :: 0 <= k < 6 ==> l[k].excludeQueryParams && l[k].pathRegex == "" && l[k].cookiesFile == "")
  {
    DefaultsAreClean();
    DefaultsShape();
    SeedThenList(t, [], now);
  }

  lemma DefaultsShape()
    ensures |DefaultFilters| == 6
    ensures forall k :: 0 <= k < 6 ==> DefaultFilters[k].excludeQueryParams && DefaultFilters[k].pathRegex == "" && DefaultFilters[k].cookiesFile == ""
  {
  }
}

=== FILE: logs.dfy ===
/**
 * The log table (internal/database/logs.go): auto-increment inserts, the
 * filtered and paged listing by descending id with its total, and the
 * "everything after id" query that the live log view polls with.
 *
 * The search filter is SQLite's `LIKE '%' || search || '%'`; its case
 * folding and its treatment of `%` and `_` inside the search text are left
 * to the parameter `like`, where `like(text, search)` holds when that
 * pattern matches `text`.
 */
module Logs {
  import Tables
  import Ordering

  datatype LogEntry = LogEntry(level: string, message: string, fields: string, createdAt: int)

  type LogTable = Tables.Table<LogEntry>

  type Listed = Tables.Row<LogEntry>

  /** `InsertLog` (lines 20-29): one entry appended, under an id above every earlier id. */
  function InsertLog(t: LogTable, level: string, message: string, fields: string, now: int): (r: (LogTable, int))
    requires Tables.Valid(t)
    ensures Tables.Valid(r.0)
    ensures r.0.rows == t.rows + [Tables.Row(r.1, LogEntry(level, message, fields, now))]
    ensures forall x :: x in t.rows ==> x.id < r.1
  {
    Tables.Insert(t, LogEntry(level, message, fields, now))
  }

  /** `LogFilter`: an empty level and an empty search mean "any". */
  datatype LogFilter = LogFilter(level: string, search: string, limit: int, offset: int)

  /** The `WHERE` clause built at lines 40-50. */
  predicate MatchesLog(level: string, search: string, like: (string, string) -> bool, e: LogEntry) {
    && (level == "" || e.level == level)
    && (search == "" || like(e.message, search) || like(e.fields, search))
  }

  function MatchesRow(level: string, search: string, like: (string, string) -> bool): Listed -> bool {
    (x: Listed) => MatchesLog(level, search, like, x.val)
  }

  /** The matching entries, highest id first. */
  function Newest(t: LogTable, level: string, search: string, like: (string, string) -> bool): (r: seq<Listed>)
    requires Tables.Valid(t)
    ensures |r| == Ordering.Count(t.rows, MatchesRow(level, search, like))
    ensures forall x :: x in r ==> x in t.rows && MatchesLog(level, search, like, x.val)
    ensures forall x :: x in t.rows && MatchesLog(level, search, like, x.val) ==> x in r
    ensures forall i, j :: 0 <= i < j < |r| ==> r[i].id > r[j].id
  {
    var matching := Ordering.Filter(t.rows, MatchesRow(level, search, like));
    Ordering.FilterCount(t.rows, MatchesRow(level, search, like));
    Tables.FilterAscending(t.rows, MatchesRow(level, search, like));
    Tables.ReverseDescending(matching);
    Ordering.FilterMembers(t.rows, MatchesRow(level, search, like));
    Ordering.ReverseMembers(matching);
    Ordering.Reverse(matching)
  }

  /** A zero limit means the default page of 100 (lines 32-34). */
  function EffectiveLimit(limit: int): (n: int)
    ensures limit != 0 ==> n == limit
    ensures limit == 0 ==> n == 100
  {
    if limit == 0 then 100 else limit
  }

  /**
   * `ListLogs` (lines 31-78): the matching entries, highest id first, after
   * skipping `offset` of them and keeping at most the limit, and the number
   * of matching entries before paging.
   */
  function ListLogs(t: LogTable, f: LogFilter, like: (string, string) -> bool): (r: (seq<Listed>, int))
    requires Tables.Valid(t)
    ensures r.1 == Ordering.Count(t.rows, MatchesRow(f.level, f.search, like))
    ensures forall k :: 0 <= k < |r.0| ==> r.0[k] in t.rows && MatchesLog(f.level, f.search, like, r.0[k].val)
    ensures forall i, j :: 0 <= i < j < |r.0| ==> r.0[i].id > r.0[j].id
    ensures var lim := EffectiveLimit(f.limit);
      var rest := r.1 - Ordering.PageStart(r.1, f.offset);
      |r.0| == if 0 <= lim < rest then lim else rest
    ensures var o := Newest(t, f.level, f.search, like);
      forall k :: 0 <= k < |r.0| ==> r.0[k] == o[Ordering.PageStart(|o|, f.offset) + k]
  {
    var ordered := Newest(t, f.level, f.search, like);
    (Ordering.Page(ordered, f.offset, EffectiveLimit(f.limit)), |ordered|)
  }

  /** Limit 0 and limit 100 list the same page. */
  lemma LimitZeroIsHundred(t: LogTable, f: LogFilter, like: (string, string) -> bool)
    requires Tables.Valid(t)
    ensures ListLogs(t, f.(limit := 0), like) == ListLogs(t, f.(limit := 100), like)
  {
  }

  /** Paging through the log loses and repeats nothing: the page after `n` entries continues where the first stopped. */
  lemma {:induction false} ConsecutivePages(t: LogTable, level: string, search: string, like: (string, string) -> bool, offset: nat, n: nat, m: nat)
    requires Tables.Valid(t)
    requires n > 0 && m > 0
    ensures ListLogs(t, LogFilter(level, search, n, offset), like).0
          + ListLogs(t, LogFilter(level, search, m, offset + n), like).0
         == ListLogs(t, LogFilter(level, search, n + m, offset), like).0
  {
    ListIsPage(t, level, search, like, n, offset);
    ListIsPage(t, level, search, like, m, offset + n);
    ListIsPage(t, level, search, like, n + m, offset);
    Ordering.PagesTile(Newest(t, level, search, like), offset, n, m,
      ListLogs(t, LogFilter(level, search, n, offset), like).0,
      ListLogs(t, LogFilter(level, search, m, offset + n), like).0,
      ListLogs(t, LogFilter(level, search, n + m, offset), like).0);
  }

  /** With a non-zero limit, a listing is `LIMIT ? OFFSET ?` over the matching entries, highest id first. */
  lemma ListIsPage(t: LogTable, level: string, search: string, like: (string, string) -> bool, limit: int, offset: int)
    requires Tables.Valid(t) && limit != 0
    ensures ListLogs(t, LogFilter(level, search, limit, offset), like).0
         == Ordering.Page(Newest(t, level, search, like), offset, limit)
  {
  }

  /** The total depends on the level and search filters only, not on limit or offset. */
  lemma TotalIgnoresPaging(t: LogTable, f: LogFilter, g: LogFilter, like: (string, string) -> bool)
    requires Tables.Valid(t)
    requires f.level == g.level && f.search == g.search
    ensures ListLogs(t, f, like).1 == ListLogs(t, g, like).1
  {
  }

  /** An empty search does not consult `like`: the level alone decides. */
  lemma EmptySearchIgnoresLike(e: LogEntry, level: string, like1: (string, string) -> bool, like2: (string, string) -> bool)
    ensures MatchesLog(level, "", like1, e) <==> MatchesLog(level, "", like2, e)
    ensures MatchesLog(level, "", like1, e) <==> (level == "" || e.level == level)
  {
  }

  function After(id: int): Listed -> bool {
    (x: Listed) => x.id > id
  }

  /** `ListLogsSince` (lines 80-100): exactly the entries with a larger id, lowest id first. */
  function ListLogsSince(t: LogTable, id: int): (r: seq<Listed>)
    requires Tables.Valid(t)
    ensures forall x :: x in r ==> x in t.rows && x.id > id
    ensures forall x :: x in t.rows && x.id > id ==> x in r
    ensures Tables.Ascending(r)
  {
    Tables.FilterAscending(t.rows, After(id));
    Ordering.FilterMembers(t.rows, After(id));
    Ordering.Filter(t.rows, After(id))
  }

  /**
   * A follower that remembers the last id it saw picks up a new entry, and
   * only it, after whatever it had not yet seen.
   */
  lemma SinceSeesNewEntry(t: LogTable, since: int, level: string, message: string, fields: string, now: int)
    requires Tables.Valid(t)
    ensures var (t1, id) := InsertLog(t, level, message, fields, now);
      ListLogsSince(t1, since) == ListLogsSince(t, since) + (if id > since then [Tables.Row(id, LogEntry(level, message, fields, now))] else [])
  {
    var (t1, id) := InsertLog(t, level, message, fields, now);
    Ordering.FilterAppend(t.rows, [Tables.Row(id, LogEntry(level, message, fields, now))], After(since));
  }

  /** Polling from the highest id handed out finds nothing until the next insert. */
  lemma SinceHighIsEmpty(t: LogTable)
    requires Tables.Valid(t)
    ensures ListLogsSince(t, t.high) == []
  {
    Ordering.FilterNone(t.rows, After(t.high));
  }
}

=== FILE: migrations.dfy ===
/**
 * The schema migrator (internal/database/migrations.go): an append-only
 * list of schema steps, a `schema_migrations` table holding the version of
 * every applied step, and `runMigrations`, which applies the missing steps
 * in order, each in its own transaction.
 *
 * The schema itself is abstracted to what the steps do to it: the tables
 * that exist, and whether `allowed_users` has its status column, with the
 * status each existing user row receives.
 */
module Migrations {
  import opened Wrappers

  /** A user's status as the `allowed_users.status` column holds it; absent before migration 3. */
  datatype UserRow = UserRow(username: string, status: Option<string>)

  datatype Schema = Schema(tables: set<string>, users: map<int, UserRow>)

  /** The database: its schema, whether `schema_migrations` exists, and its rows in insertion order. */
  datatype Db = Db(schema: Schema, migrationsTable: bool, versions: seq<nat>)

  /** The three released steps (lines 7-70), as what they do to the schema. */
  datatype Migration = InitialSchema | UrlFilters | UserStatus

  const Steps: seq<Migration> := [InitialSchema, UrlFilters, UserStatus]

  /** Where a step's transaction can fail. */
  datatype FailPoint = BeginTx | ExecStep | RecordVersion | CommitTx

  datatype MigrationError =
    | CreateTableFailed                       // line 77
    | ReadVersionFailed                       // line 83
    | StepFailed(at: FailPoint, number: nat)  // lines 90, 95, 100, 104: "migration i+1"

  /**
   * Which engine calls fail: the table creation, the version read, and,
   * per step index, the first failing call of that step's transaction.
   */
  datatype Faults = Faults(createTable: bool, readVersion: bool, step: map<nat, FailPoint>)

  const NoFaults: Faults := Faults(false, false, map[])

  /** What one step's SQL does. `CREATE TABLE IF NOT EXISTS` keeps existing tables. */
  function Apply(m: Migration, s: Schema): (r: Schema)
    ensures s.tables <= r.tables
    ensures m == UserStatus ==>
      && r.users.Keys == s.users.Keys
      && forall id :: id in r.users ==> r.users[id] == UserRow(s.users[id].username, Some("approved"))
    ensures m != UserStatus ==> r.users == s.users
  {
    match m
    case InitialSchema =>
      s.(tables := s.tables + {"downloads", "logs", "allowed_groups", "allowed_users", "sessions"})
    case UrlFilters =>
      s.(tables := s.tables + {"url_filters"})
    case UserStatus =>
      // ALTER TABLE ... ADD COLUMN status ... DEFAULT 'approved': existing rows take the default.
      s.(users := map id | id in s.users :: UserRow(s.users[id].username, Some("approved")))
  }

  /** The largest recorded version, or 0 when none is recorded: `COALESCE(MAX(version), 0)`. */
  function MaxVersion(vs: seq<nat>): (m: nat)
    ensures vs == [] ==> m == 0
    ensures vs != [] ==> m in vs
    ensures forall v :: v in vs ==> v <= m
  {
    if vs == [] then 0
    else
      var rest := MaxVersion(vs[1..]);
      assert vs == [vs[0]] + vs[1..];
      if vs[0] >= rest then vs[0] else rest
  }

  /**
   * Lines 86-105: apply steps `i`, `i + 1`, ... in order. Each step's SQL
   * and the insert of version `i + 1` commit together or not at all, and the
   * first failure ends the run with an error naming migration `i + 1`. The
   * insert fails on its own when that version is already recorded.
   * A step's fault is tested before that conflict. Go reaches the insert
   * before its commit, so a `CommitTx` fault on an already recorded version
   * would report `RecordVersion` there. The order matters only below the
   * recorded maximum, where `runMigrations` never starts.
   * RunFromCompletes and RunFromStops state what a run records.
   */
  function RunFrom(db: Db, i: nat, faults: Faults): (r: (Db, Option<MigrationError>))
    ensures i >= |Steps| ==> r == (db, None)
    ensures r.0.migrationsTable == db.migrationsTable
    ensures r.1.Some? ==> r.1.value.StepFailed? && i < r.1.value.number <= |Steps|
    decreases |Steps| - i
  {
    if i >= |Steps| then (db, None)
    else if i in faults.step then (db, Some(StepFailed(faults.step[i], i + 1)))
    else if i + 1 in db.versions then (db, Some(StepFailed(RecordVersion, i + 1)))
    else RunFrom(Commit(db, i), i + 1, faults)
  }

  /** Step `i`'s transaction committed: its SQL applied and version `i + 1` recorded. */
  function Commit(db: Db, i: nat): (r: Db)
    requires i < |Steps|
    ensures forall v :: v in r.versions <==> v in db.versions || v == i + 1
    ensures r.migrationsTable == db.migrationsTable
    ensures r.schema == Apply(Steps[i], db.schema)
  {
    db.(schema := Apply(Steps[i], db.schema), versions := db.versions + [i + 1])
  }

  /** The schema after steps `i`, ..., `j - 1` have run in order (none past the last step). */
  function ApplyFrom(s: Schema, i: nat, j: nat): Schema
    decreases j - i
  {
    if i >= j || i >= |Steps| then s else ApplyFrom(Apply(Steps[i], s), i + 1, j)
  }

  /** A run that completes recorded every version above `i`, and no step from `i` on had a fault. */
  lemma {:induction false} RunFromCompletes(db: Db, i: nat, faults: Faults)
    ensures var r := RunFrom(db, i, faults);
      r.1.None? ==>
        && (forall v :: v in r.0.versions <==> v in db.versions || i < v <= |Steps|)
        && (forall k :: i <= k < |Steps| ==> k !in faults.step)
        && r.0.schema == ApplyFrom(db.schema, i, |Steps|)
    decreases |Steps| - i
  {
    if i < |Steps| && i !in faults.step && i + 1 !in db.versions {
      var next := Commit(db, i);
      var rest := RunFrom(next, i + 1, faults);
      assert RunFrom(db, i, faults) == rest;
      RunFromCompletes(next, i + 1, faults);
      RunFromSchema(db, i, faults);
      if rest.1.None? {
        forall v
          ensures v in rest.0.versions <==> v in db.versions || i < v <= |Steps|
        {
          assert v in next.versions <==> v in db.versions || v == i + 1;
        }
      }
    }
  }

  /**
   * A run that stops at migration n recorded exactly the versions above `i`
   * and below n. It failed where the step's fault says, or, with no fault,
   * on recording a version that was already there.
   */
  lemma {:induction false} RunFromStops(db: Db, i: nat, faults: Faults)
    ensures var r := RunFrom(db, i, faults);
      r.1.Some? ==>
        && (forall v :: v in r.0.versions <==> v in db.versions || i < v < r.1.value.number)
        && (forall k :: i <= k < r.1.value.number - 1 ==> k !in faults.step)
        && (if r.1.value.number - 1 in faults.step then r.1.value.at == faults.step[r.1.value.number - 1]
            else r.1.value.at == RecordVersion && r.1.value.number in db.versions)
        && r.0.schema == ApplyFrom(db.schema, i, r.1.value.number - 1)
    decreases |Steps| - i
  {
    var r := RunFrom(db, i, faults);
    if i >= |Steps| {
    } else if i in faults.step {
      assert r == (db, Some(StepFailed(faults.step[i], i + 1)));
    } else if i + 1 in db.versions {
      assert r == (db, Some(StepFailed(RecordVersion, i + 1)));
    } else {
      var next := Commit(db, i);
      RunFromStops(next, i + 1, faults);
      var rest := RunFrom(next, i + 1, faults);
      assert r == rest;
      RunFromSchema(db, i, faults);
      if rest.1.Some? {
        StopsAfterCommit(db, i, faults, next, rest);
      }
    }
  }

  /** A stop after step `i` committed is a stop of the run from `i`: version `i + 1` joins the recorded ones. */
  lemma StopsAfterCommit(db: Db, i: nat, faults: Faults, next: Db, r: (Db, Option<MigrationError>))
    requires i !in faults.step && i + 1 !in db.versions
    requires forall v :: v in next.versions <==> v in db.versions || v == i + 1
    requires r.1.Some? && r.1.value.StepFailed? && i + 1 < r.1.value.number
    requires forall v :: v in r.0.versions <==> v in next.versions || i + 1 < v < r.1.value.number
    requires forall k :: i + 1 <= k < r.1.value.number - 1 ==> k !in faults.step
    requires if r.1.value.number - 1 in faults.step then r.1.value.at == faults.step[r.1.value.number - 1]
      else r.1.value.at == RecordVersion && r.1.value.number in next.versions
    ensures forall v :: v in r.0.versions <==> v in db.versions || i < v < r.1.value.number
    ensures forall k :: i <= k < r.1.value.number - 1 ==> k !in faults.step
    ensures if r.1.value.number - 1 in faults.step then r.1.value.at == faults.step[r.1.value.number - 1]
      else r.1.value.at == RecordVersion && r.1.value.number in db.versions
  {
  }

  /** The schema a run leaves is every step from `i` up to the one that stopped it, or to the last. */
  lemma {:induction false} RunFromSchema(db: Db, i: nat, faults: Faults)
    ensures var r := RunFrom(db, i, faults);
      r.0.schema == ApplyFrom(db.schema, i, if r.1.Some? then r.1.value.number - 1 else |Steps|)
    decreases |Steps| - i
  {
    if i < |Steps| && i !in faults.step && i + 1 !in db.versions {
      var next := Commit(db, i);
      RunFromSchema(next, i + 1, faults);
      var rest := RunFrom(next, i + 1, faults);
      assert RunFrom(db, i, faults) == rest;
      var j := if rest.1.Some? then rest.1.value.number - 1 else |Steps|;
      assert ApplyFrom(db.schema, i, j) == ApplyFrom(next.schema, i + 1, j);
    }
  }

  /** `runMigrations` (lines 72-108). */
  function RunMigrations(db: Db, faults: Faults): (r: (Db, Option<MigrationError>))
    ensures faults.createTable ==> r == (db, Some(CreateTableFailed))
    ensures !faults.createTable ==> r.0.migrationsTable
    ensures !faults.createTable && faults.readVersion ==> r.1 == Some(ReadVersionFailed)
    ensures r.1.None? ==> forall v :: v in r.0.versions <==> v in db.versions || MaxVersion(db.versions) < v <= |Steps|
    ensures r.1.None? ==> r.0.schema == ApplyFrom(db.schema, MaxVersion(db.versions), |Steps|)
    ensures r.1.Some? && r.1.value.StepFailed? ==> MaxVersion(db.versions) < r.1.value.number <= |Steps|
    ensures r.1.Some? && r.1.value.StepFailed? ==>
      r.0.schema == ApplyFrom(db.schema, MaxVersion(db.versions), r.1.value.number - 1)
    ensures MaxVersion(db.versions) >= |Steps| && !faults.createTable && !faults.readVersion ==>
      r == (db.(migrationsTable := true), None)
  {
    if faults.createTable then (db, Some(CreateTableFailed))
    else
      var db1 := db.(migrationsTable := true);
      if faults.readVersion then (db1, Some(ReadVersionFailed))
      else
        RunFromCompletes(db1, MaxVersion(db1.versions), faults);
        RunFromStops(db1, MaxVersion(db1.versions), faults);
        RunFrom(db1, MaxVersion(db1.versions), faults)
  }

  // ---------------------------------------------------------------------
  // Properties of whole runs
  // ---------------------------------------------------------------------

  /** The recorded versions are exactly 1..max, with no gap. */
  ghost predicate Gapless(db: Db) {
    forall v :: v in db.versions <==> 1 <= v <= MaxVersion(db.versions)
  }

  /** With every recorded version at most `i` and no fault from step `i` on, the run succeeds. */
  lemma {:induction false} RunFromSucceeds(db: Db, i: nat, faults: Faults)
    requires forall v :: v in db.versions ==> v <= i
    requires forall k :: i <= k < |Steps| ==> k !in faults.step
    ensures RunFrom(db, i, faults).1.None?
    decreases |Steps| - i
  {
    if i < |Steps| {
      RunFromSucceeds(Commit(db, i), i + 1, faults);
    }
  }

  /** A run that starts from the recorded maximum never trips over an already recorded version. */
  lemma NoSpuriousConflict(db: Db, faults: Faults)
    requires RunMigrations(db, faults).1.Some? && RunMigrations(db, faults).1.value.StepFailed?
    ensures RunMigrations(db, faults).1.value.number - 1 in faults.step
  {
    var m := MaxVersion(db.versions);
    RunFromStops(db.(migrationsTable := true), m, faults);
    var n := RunMigrations(db, faults).1.value.number;
    assert n > m;
    assert n !in db.versions;
  }

  /** A successful run from a gapless prefix leaves exactly versions 1..3 recorded. */
  lemma SuccessLeavesAllVersions(db: Db, faults: Faults)
    requires Gapless(db) && MaxVersion(db.versions) <= |Steps|
    requires RunMigrations(db, faults).1.None?
    ensures forall v :: v in RunMigrations(db, faults).0.versions <==> 1 <= v <= |Steps|
  {
  }

  /** Running again after a success executes no step and reports no error. */
  lemma SecondRunIsNoOp(db: Db, faults: Faults, again: Faults)
    requires Gapless(db) && MaxVersion(db.versions) <= |Steps|
    requires RunMigrations(db, faults).1.None?
    requires !again.createTable && !again.readVersion
    ensures var db1 := RunMigrations(db, faults).0;
      RunMigrations(db1, again) == (db1, None)
  {
    SuccessLeavesAllVersions(db, faults);
    var db1 := RunMigrations(db, faults).0;
    assert 3 in db1.versions;
    assert MaxVersion(db1.versions) >= |Steps|;
  }

  /**
   * A failure at step index `i` (migration `i + 1`) leaves versions 1..i
   * recorded, a gapless prefix; a later run without faults resumes at step
   * `i` and completes.
   */
  lemma FailureThenResume(db: Db, faults: Faults)
    requires Gapless(db) && MaxVersion(db.versions) <= |Steps|
    requires RunMigrations(db, faults).1.Some? && RunMigrations(db, faults).1.value.StepFailed?
    ensures var r := RunMigrations(db, faults);
      && (forall v :: v in r.0.versions <==> 1 <= v < r.1.value.number)
      && MaxVersion(r.0.versions) == r.1.value.number - 1
      && RunMigrations(r.0, NoFaults).1.None?
      && (forall v :: v in RunMigrations(r.0, NoFaults).0.versions <==> 1 <= v <= |Steps|)
  {
    var r := RunMigrations(db, faults);
    var db1 := r.0;
    var n := r.1.value.number - 1;
    RunFromStops(db.(migrationsTable := true), MaxVersion(db.versions), faults);
    assert forall v :: v in db1.versions <==> 1 <= v <= n;
    if n > 0 {
      assert n in db1.versions;
    }
    assert MaxVersion(db1.versions) == n;
    RunFromSucceeds(db1.(migrationsTable := true), n, NoFaults);
    SuccessLeavesAllVersions(db1, NoFaults);
  }

  /** When the recorded maximum is already the last step, a gap below it is never filled. */
  lemma GapsBelowMaxStay()
    ensures var db := Db(Schema({}, map[]), true, [3]);
      RunMigrations(db, NoFaults) == (db, None)
  {
  }

  /** Users that exist when step 3 runs end up approved. */
  lemma ExistingUsersBecomeApproved(db: Db)
    requires MaxVersion(db.versions) == 2
    ensures var r := RunMigrations(db, NoFaults).0;
      && r.schema.users.Keys == db.schema.users.Keys
      && forall id :: id in r.schema.users ==> r.schema.users[id] == UserRow(db.schema.users[id].username, Some("approved"))
  {
  }

  /** A fresh install runs all three steps: every table exists and versions 1..3 are recorded. */
  lemma FreshInstallCreatesTables(db: Db)
    requires db.versions == []
    ensures var r := RunMigrations(db, NoFaults);
      && r.1.None?
      && {"downloads", "logs", "allowed_groups", "allowed_users", "sessions", "url_filters"} <= r.0.schema.tables
      && r.0.versions == [1, 2, 3]
  {
  }
}

=== FILE: ordering.dfy ===
/**
 * Selection, ordering and paging of query results: a `WHERE` clause as a
 * filter, SQL `ORDER BY key DESC` as a stable insertion sort, and SQLite's
 * `LIMIT ? OFFSET ?`.
 */
module Ordering {

  /** The elements of `xs` that satisfy `p`, in their order: a `WHERE` clause. */
  function Filter<T>(xs: seq<T>, p: T -> bool): (r: seq<T>)
    ensures |r| <= |xs|
    ensures forall k :: 0 <= k < |r| ==> p(r[k]) && r[k] in xs
    ensures forall k :: 0 <= k < |xs| && p(xs[k]) ==> xs[k] in r
  {
    if xs == [] then []
    else (if p(xs[0]) then [xs[0]] else []) + Filter(xs[1..], p)
  }

  /** An element is selected exactly when it is in `xs` and satisfies `p`. */
  lemma FilterMembers<T>(xs: seq<T>, p: T -> bool)
    ensures forall x :: x in Filter(xs, p) <==> x in xs && p(x)
  {
    var r := Filter(xs, p);
    forall x
      ensures x in r <==> x in xs && p(x)
    {
      if x in r {
        var k :| 0 <= k < |r| && r[k] == x;
      }
      if x in xs && p(x) {
        var k :| 0 <= k < |xs| && xs[k] == x;
      }
    }
  }

  /** How many elements of `xs` satisfy `p`: `COUNT(*) ... WHERE`. */
  function Count<T>(xs: seq<T>, p: T -> bool): (n: nat)
    ensures n <= |xs|
  {
    if xs == [] then 0 else (if p(xs[0]) then 1 else 0) + Count(xs[1..], p)
  }

  /** The filtered rows are as many as the rows counted. */
  lemma {:induction false} FilterCount<T>(xs: seq<T>, p: T -> bool)
    ensures |Filter(xs, p)| == Count(xs, p)
    decreases |xs|
  {
    if xs != [] {
      FilterCount(xs[1..], p);
    }
  }

  /** When no element satisfies `p`, nothing is selected. */
  lemma {:induction false} FilterNone<T>(xs: seq<T>, p: T -> bool)
    requires forall k :: 0 <= k < |xs| ==> !p(xs[k])
    ensures Filter(xs, p) == []
    decreases |xs|
  {
    if xs != [] {
      FilterNone(xs[1..], p);
    }
  }

  /** Filtering a concatenation filters each part. */
  lemma {:induction false} FilterAppend<T>(xs: seq<T>, ys: seq<T>, p: T -> bool)
    ensures Filter(xs + ys, p) == Filter(xs, p) + Filter(ys, p)
    decreases |xs|
  {
    if xs != [] {
      var head := if p(xs[0]) then [xs[0]] else [];
      assert (xs + ys)[0] == xs[0] && (xs + ys)[1..] == xs[1..] + ys;
      FilterAppend(xs[1..], ys, p);
      assert Filter(xs + ys, p) == head + (Filter(xs[1..], p) + Filter(ys, p));
    } else {
      assert xs + ys == ys;
    }
  }

  /** Two conditions no element meets together select at most all elements between them. */
  lemma {:induction false} FilterDisjoint<T>(xs: seq<T>, p: T -> bool, q: T -> bool)
    requires forall k :: 0 <= k < |xs| ==> !(p(xs[k]) && q(xs[k]))
    ensures |Filter(xs, p)| + |Filter(xs, q)| <= |xs|
    decreases |xs|
  {
    if xs != [] {
      FilterDisjoint(xs[1..], p, q);
    }
  }

  /** `xs` back to front. */
  function Reverse<T>(xs: seq<T>): (r: seq<T>)
    ensures |r| == |xs|
    ensures forall k :: 0 <= k < |xs| ==> r[k] == xs[|xs| - 1 - k]
  {
    if xs == [] then [] else Reverse(xs[1..]) + [xs[0]]
  }

  lemma ReverseMembers<T>(xs: seq<T>)
    ensures forall x :: x in Reverse(xs) <==> x in xs
  {
    var r := Reverse(xs);
    forall x
      ensures x in r <==> x in xs
    {
      if x in r {
        var k :| 0 <= k < |r| && r[k] == x;
        assert xs[|xs| - 1 - k] == x;
      }
      if x in xs {
        var k :| 0 <= k < |xs| && xs[k] == x;
        assert r[|xs| - 1 - k] == x;
      }
    }
  }

  /** Keys never increase along `xs`. */
  predicate SortedDesc<T>(xs: seq<T>, key: T -> int) {
    forall i, j :: 0 <= i < j < |xs| ==> key(xs[i]) >= key(xs[j])
  }

  /** Puts `x` in front of the first element whose key is not above its own. */
  function InsertDesc<T(!new)>(xs: seq<T>, x: T, key: T -> int): (r: seq<T>)
    requires SortedDesc(xs, key)
    ensures SortedDesc(r, key)
    ensures |r| == |xs| + 1
    ensures multiset(r) == multiset(xs) + multiset{x}
    ensures forall y :: y in r <==> y in xs || y == x
  {
    if xs == [] || key(x) >= key(xs[0]) then
      SortedCons(x, xs, key);
      [x] + xs
    else
      var tail := InsertDesc(xs[1..], x, key);
      assert xs == [xs[0]] + xs[1..];
      assert forall y :: y in tail ==> key(y) <= key(xs[0]);
      SortedCons(xs[0], tail, key);
      [xs[0]] + tail
  }

  /** An element keyed at least as high as every element of a sorted sequence can go in front. */
  lemma SortedCons<T>(h: T, tail: seq<T>, key: T -> int)
    requires SortedDesc(tail, key)
    requires tail != [] ==> key(h) >= key(tail[0])
    ensures SortedDesc([h] + tail, key)
  {
    var r := [h] + tail;
    forall i, j | 0 <= i < j < |r|
      ensures key(r[i]) >= key(r[j])
    {
      if i == 0 {
        assert r[j] == tail[j - 1];
        if j > 1 {
          assert key(tail[0]) >= key(tail[j - 1]);
        }
      } else {
        assert r[i] == tail[i - 1] && r[j] == tail[j - 1];
      }
    }
  }

  /**
   * Sorts by descending key. Elements are inserted in their input order, so
   * among equal keys the element that came later is listed first.
   */
  function SortDesc<T(!new)>(xs: seq<T>, key: T -> int): (r: seq<T>)
    ensures SortedDesc(r, key)
    ensures |r| == |xs|
    ensures multiset(r) == multiset(xs)
    ensures forall y :: y in r <==> y in xs
  {
    if xs == [] then []
    else
      var init := xs[..|xs| - 1];
      assert xs == init + [xs[|xs| - 1]];
      InsertDesc(SortDesc(init, key), xs[|xs| - 1], key)
  }

  /** A non-empty set has a member to pick. */
  lemma SomeMember(s: set<int>)
    requires s != {}
    ensures exists x :: x in s
  {
    if forall x :: x !in s {
      assert false;
    }
  }

  /** The first row SQLite returns for `OFFSET offset`: a negative offset counts as zero. */
  function PageStart(n: nat, offset: int): (lo: nat)
    ensures lo <= n
    ensures offset <= 0 ==> lo == 0
    ensures 0 <= offset <= n ==> lo == offset
  {
    if offset < 0 then 0 else if offset > n then n else offset
  }

  /**
   * SQLite's `LIMIT limit OFFSET offset` over an ordered result: skip
   * `offset` rows, then return at most `limit` rows, with no bound at all
   * when `limit` is negative.
   */
  function Page<T>(xs: seq<T>, offset: int, limit: int): (r: seq<T>)
    ensures var lo := PageStart(|xs|, offset);
      && |r| <= |xs| - lo
      && (forall k :: 0 <= k < |r| ==> r[k] == xs[lo + k])
      && (limit >= 0 ==> |r| == if limit < |xs| - lo then limit else |xs| - lo)
      && (limit < 0 ==> |r| == |xs| - lo)
  {
    var lo := PageStart(|xs|, offset);
    var hi := if limit < 0 || lo + limit > |xs| then |xs| else lo + limit;
    xs[lo..hi]
  }

  /** Three pages known by value tile as the pages do. */
  lemma PagesTile<T>(xs: seq<T>, offset: nat, n: nat, m: nat, first: seq<T>, next: seq<T>, both: seq<T>)
    requires first == Page(xs, offset, n) && next == Page(xs, offset + n, m) && both == Page(xs, offset, n + m)
    ensures first + next == both
  {
    PageSplit(xs, offset, n, m);
  }

  /** Consecutive pages tile the result: the page after `n` rows continues where the first stopped. */
  lemma PageSplit<T>(xs: seq<T>, offset: nat, n: nat, m: nat)
    ensures Page(xs, offset, n) + Page(xs, offset + n, m) == Page(xs, offset, n + m)
  {
    var a := PageStart(|xs|, offset);
    var b := PageStart(|xs|, offset + n);
    var c := if a + n + m > |xs| then |xs| else a + n + m;
    assert Page(xs, offset, n) == xs[a..b];
    assert Page(xs, offset + n, m) == xs[b..c];
    assert Page(xs, offset, n + m) == xs[a..c];
    assert xs[a..b] + xs[b..c] == xs[a..c];
  }
}

=== FILE: stats.dfy ===
/**
 * Dashboard statistics (internal/database/stats.go): the status counts, the
 * number of distinct users, the per-day counts of the last 30 days, and the
 * ten most frequent domains, where a URL's domain comes from the SQL
 * expression built from `replace`, `instr` and `substr`.
 *
 * `GROUP BY` is modelled as buckets in order of first appearance, each with
 * its key and its row count; `ORDER BY ... DESC` as the stable sort of
 * Ordering, so buckets with equal counts keep an order the engine is free
 * to choose. Times are seconds on the model's clock and a day is the
 * 86400-second period `date(created_at)` names.
 */
module Stats {
  import Ordering
  import Text
  import Tables
  import Downloads

  datatype Bucket<K> = Bucket(key: K, count: nat)

  function Keys<K>(g: seq<Bucket<K>>): (ks: seq<K>)
    ensures |ks| == |g| && forall i :: 0 <= i < |g| ==> ks[i] == g[i].key
  {
    seq(|g|, i requires 0 <= i < |g| => g[i].key)
  }

  /** The rows the buckets account for. */
  function Total<K>(g: seq<Bucket<K>>): nat {
    if g == [] then 0 else g[0].count + Total(g[1..])
  }

  /** `GROUP BY` leaves one bucket per key. */
  predicate DistinctKeys<K(==)>(g: seq<Bucket<K>>) {
    forall i, j :: 0 <= i < j < |g| ==> g[i].key != g[j].key
  }

  /** Counts one more row with key `k`. */
  function Bump<K(==)>(g: seq<Bucket<K>>, k: K): (r: seq<Bucket<K>>)
    requires DistinctKeys(g)
    ensures Total(r) == Total(g) + 1
    ensures k in Keys(g) ==> |r| == |g|
    ensures k !in Keys(g) ==> |r| == |g| + 1 && r[|g|] == Bucket(k, 1)
    ensures forall i :: 0 <= i < |g| ==>
      r[i].key == g[i].key && r[i].count == g[i].count + (if g[i].key == k then 1 else 0)
  {
    if g == [] then [Bucket(k, 1)]
    else if g[0].key == k then
      var r := [g[0].(count := g[0].count + 1)] + g[1..];
      assert r[1..] == g[1..];
      r
    else
      assert Keys(g) == [g[0].key] + Keys(g[1..]);
      [g[0]] + Bump(g[1..], k)
  }

  /**
   * `g` is `GROUP BY` over the keys `xs` with `COUNT(*)`: one bucket per key,
   * for exactly the keys that occur, each holding how often its key occurs.
   */
  ghost predicate Groups<K(!new)>(g: seq<Bucket<K>>, xs: seq<K>) {
    && DistinctKeys(g)
    && Total(g) == |xs|
    && (forall i :: 0 <= i < |g| ==> g[i].count == multiset(xs)[g[i].key] && g[i].count > 0)
    && (forall x :: x in xs <==> x in Keys(g))
  }

  lemma BumpKeys<K>(g: seq<Bucket<K>>, k: K)
    requires DistinctKeys(g)
    ensures forall x :: x in Keys(Bump(g, k)) <==> x in Keys(g) || x == k
  {
    forall x
      ensures x in Keys(Bump(g, k)) <==> x in Keys(g) || x == k
    {
      BumpKeysAt(g, k, x);
    }
  }

  lemma BumpKeysAt<K>(g: seq<Bucket<K>>, k: K, x: K)
    requires DistinctKeys(g)
    ensures x in Keys(Bump(g, k)) <==> x in Keys(g) || x == k
  {
    var r := Bump(g, k);
    BumpKeysFrom(g, k, x, r);
    BumpKeysTo(g, k, x, r);
  }

  /** Every key of the bumped buckets was a key before, or is the bumped one. */
  lemma BumpKeysFrom<K>(g: seq<Bucket<K>>, k: K, x: K, r: seq<Bucket<K>>)
    requires |r| == |g| || (|r| == |g| + 1 && r[|g|].key == k)
    requires forall i :: 0 <= i < |g| ==> r[i].key == g[i].key
    ensures x in Keys(r) ==> x in Keys(g) || x == k
  {
    if x in Keys(r) {
      var i :| 0 <= i < |r| && Keys(r)[i] == x;
      if i < |g| {
        assert Keys(g)[i] == x;
      }
    }
  }

  /** The old keys and the bumped one are all keys of the bumped buckets. */
  lemma BumpKeysTo<K>(g: seq<Bucket<K>>, k: K, x: K, r: seq<Bucket<K>>)
    requires DistinctKeys(g) && r == Bump(g, k)
    ensures x in Keys(g) || x == k ==> x in Keys(r)
  {
    if x in Keys(g) {
      var i :| 0 <= i < |g| && Keys(g)[i] == x;
      assert Keys(r)[i] == x;
    } else if x == k {
      assert Keys(r)[|g|] == x;
    }
  }

  lemma BumpDistinct<K>(g: seq<Bucket<K>>, k: K)
    requires DistinctKeys(g)
    ensures DistinctKeys(Bump(g, k))
  {
    var r := Bump(g, k);
    forall i, j | 0 <= i < j < |r|
      ensures r[i].key != r[j].key
    {
      if j == |g| {
        assert Keys(g)[i] == g[i].key;
      }
    }
  }

  lemma BumpCounts<K(!new)>(g: seq<Bucket<K>>, xs: seq<K>, k: K)
    requires Groups(g, xs)
    ensures var r := Bump(g, k);
      forall i :: 0 <= i < |r| ==> r[i].count == multiset(xs + [k])[r[i].key] && r[i].count > 0
  {
    var r := Bump(g, k);
    assert multiset(xs + [k]) == multiset(xs) + multiset{k};
    forall i | 0 <= i < |r|
      ensures r[i].count == multiset(xs + [k])[r[i].key] && r[i].count > 0
    {
      if i == |g| {
        assert k !in xs;
      }
    }
  }

  lemma BumpGroups<K(!new)>(g: seq<Bucket<K>>, xs: seq<K>, k: K)
    requires Groups(g, xs)
    ensures Groups(Bump(g, k), xs + [k])
  {
    BumpKeys(g, k);
    BumpDistinct(g, k);
    BumpCounts(g, xs, k);
    assert forall x :: x in xs + [k] <==> x in xs || x == k;
  }

  /** `GROUP BY key` with `COUNT(*)`, buckets in order of each key's first row. */
  function GroupCount<K(==,!new)>(xs: seq<K>): (g: seq<Bucket<K>>)
    ensures Groups(g, xs)
  {
    if xs == [] then []
    else
      var init, last := xs[..|xs| - 1], xs[|xs| - 1];
      assert xs == init + [last];
      var g0 := GroupCount(init);
      BumpGroups(g0, init, last);
      Bump(g0, last)
  }

  // ---------------------------------------------------------------------
  // Sorting buckets
  // ---------------------------------------------------------------------

  function CountKey<K>(b: Bucket<K>): int {
    b.count
  }

  function DayKey(b: Bucket<int>): int {
    b.key
  }

  /** Sorting by either key keeps the rows accounted for. */
  lemma {:induction false} TotalInsert<K(!new)>(xs: seq<Bucket<K>>, x: Bucket<K>, key: Bucket<K> -> int)
    requires Ordering.SortedDesc(xs, key)
    ensures Total(Ordering.InsertDesc(xs, x, key)) == Total(xs) + x.count
    decreases |xs|
  {
    if !(xs == [] || key(x) >= key(xs[0])) {
      TotalInsert(xs[1..], x, key);
      assert Ordering.InsertDesc(xs, x, key)[1..] == Ordering.InsertDesc(xs[1..], x, key);
    }
  }

  lemma {:induction false} TotalAppend<K>(xs: seq<Bucket<K>>, ys: seq<Bucket<K>>)
    ensures Total(xs + ys) == Total(xs) + Total(ys)
    decreases |xs|
  {
    if xs != [] {
      assert (xs + ys)[1..] == xs[1..] + ys;
      TotalAppend(xs[1..], ys);
    } else {
      assert xs + ys == ys;
    }
  }

  lemma {:induction false} TotalSort<K(!new)>(xs: seq<Bucket<K>>, key: Bucket<K> -> int)
    ensures Total(Ordering.SortDesc(xs, key)) == Total(xs)
    decreases |xs|
  {
    if xs != [] {
      var init, last := xs[..|xs| - 1], xs[|xs| - 1];
      var s := Ordering.SortDesc(init, key);
      assert Ordering.SortDesc(xs, key) == Ordering.InsertDesc(s, last, key);
      TotalSort(init, key);
      TotalInsert(s, last, key);
      TotalSnoc(xs);
    }
  }

  lemma TotalSnoc<K>(xs: seq<Bucket<K>>)
    requires xs != []
    ensures Total(xs) == Total(xs[..|xs| - 1]) + xs[|xs| - 1].count
  {
    var init, last := xs[..|xs| - 1], xs[|xs| - 1];
    assert xs == init + [last];
    TotalAppend(init, [last]);
    assert Total([last]) == last.count;
  }

  /** Dropping buckets at the end never adds rows. */
  lemma TotalPrefix<K>(xs: seq<Bucket<K>>, n: nat)
    requires n <= |xs|
    ensures Total(xs[..n]) <= Total(xs)
  {
    assert xs == xs[..n] + xs[n..];
    TotalAppend(xs[..n], xs[n..]);
  }

  /** Inserting a bucket whose key is new keeps one bucket per key. */
  lemma {:induction false} DistinctInsert<K(!new)>(xs: seq<Bucket<K>>, x: Bucket<K>, key: Bucket<K> -> int)
    requires Ordering.SortedDesc(xs, key) && DistinctKeys(xs)
    requires forall i :: 0 <= i < |xs| ==> xs[i].key != x.key
    ensures DistinctKeys(Ordering.InsertDesc(xs, x, key))
    decreases |xs|
  {
    var r := Ordering.InsertDesc(xs, x, key);
    if !(xs == [] || key(x) >= key(xs[0])) {
      var tail := Ordering.InsertDesc(xs[1..], x, key);
      DistinctInsert(xs[1..], x, key);
      assert r == [xs[0]] + tail;
      forall j | 0 <= j < |tail|
        ensures tail[j].key != xs[0].key
      {
        assert tail[j] in tail;
      }
    }
  }

  lemma {:induction false} DistinctSort<K(!new)>(xs: seq<Bucket<K>>, key: Bucket<K> -> int)
    requires DistinctKeys(xs)
    ensures DistinctKeys(Ordering.SortDesc(xs, key))
    decreases |xs|
  {
    if xs != [] {
      var init, last := xs[..|xs| - 1], xs[|xs| - 1];
      var s := Ordering.SortDesc(init, key);
      DistinctSort(init, key);
      forall i | 0 <= i < |s|
        ensures s[i].key != last.key
      {
        assert s[i] in init;
      }
      DistinctInsert(s, last, key);
    }
  }

  /** Reordering the buckets keeps them a grouping of the same keys. */
  lemma SortGroups<K(!new)>(g: seq<Bucket<K>>, xs: seq<K>, key: Bucket<K> -> int)
    requires Groups(g, xs)
    ensures Groups(Ordering.SortDesc(g, key), xs)
  {
    var r := Ordering.SortDesc(g, key);
    DistinctSort(g, key);
    TotalSort(g, key);
    assert forall i :: 0 <= i < |r| ==> r[i].count == multiset(xs)[r[i].key] && r[i].count > 0 by {
      forall i | 0 <= i < |r|
        ensures r[i].count == multiset(xs)[r[i].key] && r[i].count > 0
      {
        assert r[i] in g;
      }
    }
    SameKeys(g, r);
  }

  lemma SameKeys<K(!new)>(g: seq<Bucket<K>>, r: seq<Bucket<K>>)
    requires forall b :: b in g <==> b in r
    ensures forall x :: x in Keys(g) <==> x in Keys(r)
  {
    forall x
      ensures x in Keys(g) ==> x in Keys(r)
    {
      if x in Keys(g) {
        var j :| 0 <= j < |g| && Keys(g)[j] == x;
        assert g[j] in r;
        var i :| 0 <= i < |r| && r[i] == g[j];
        assert Keys(r)[i] == x;
      }
    }
    forall x
      ensures x in Keys(r) ==> x in Keys(g)
    {
      if x in Keys(r) {
        var i :| 0 <= i < |r| && Keys(r)[i] == x;
        assert r[i] in g;
        var j :| 0 <= j < |g| && g[j] == r[i];
        assert Keys(g)[j] == x;
      }
    }
  }

  /**
   * `GROUP BY key ... ORDER BY ... DESC`: the buckets of `xs`, sorted by
   * `key` with the highest first.
   */
  function GroupSorted<K(==,!new)>(xs: seq<K>, key: Bucket<K> -> int): (r: seq<Bucket<K>>)
    ensures Ordering.SortedDesc(r, key)
    ensures Groups(r, xs)
  {
    var g := GroupCount(xs);
    SortGroups(g, xs, key);
    Ordering.SortDesc(g, key)
  }

  // ---------------------------------------------------------------------
  // The domain expression (lines 60-64)
  // ---------------------------------------------------------------------

  /** `replace(replace(url, 'https://', ''), 'http://', '')`. */
  function Strip(url: string): string {
    Text.ReplaceAll(Text.ReplaceAll(url, "https://", ""), "http://", "")
  }

  /**
   * The `CASE` expression: the stripped URL up to its first '/', or all of
   * it when it has none.
   */
  function Domain(url: string): (d: string)
    ensures '/' !in d
    ensures d <= Strip(url)
    ensures |d| < |Strip(url)| ==> Strip(url)[|d|] == '/'
  {
    var s := Strip(url);
    var k := Text.Instr(s, '/');
    if k > 0 then s[..k - 1] else s
  }

  /** `pat` is `q` followed by "//", and `h` cannot hold the start of a `pat` that runs on into "/...". */
  lemma NoStraddle(h: string, rest: string, q: string)
    requires |q| > 0 && '/' !in q && '/' !in h
    requires |rest| > 0 && rest[0] == '/'
    requires !(|h| >= |q| && h[|h| - |q|..] == q)
    ensures Text.NoMatchStartsIn(h, rest, q + "//")
  {
    var pat := q + "//";
    var s := h + rest;
    var m := |q|;
    assert pat[m] == '/' && pat[..m] == q;
    forall k | 0 <= k < |h|
      ensures !(pat <= s[k..])
    {
      var t := s[k..];
      if k + m < |h| {
        assert t[m] == h[k + m] != '/';
      } else if k + m == |h| {
        assert t[..m] == h[|h| - m..];
        assert t[..m] != pat[..m];
      } else if |pat| <= |t| {
        assert t[|h| - k] == rest[0] == '/';
        assert pat[|h| - k] == q[|h| - k] != '/';
      }
    }
  }

  /** A pattern that does not start with '/' passes a leading '/' through. */
  lemma ReplaceAfterSlash(p: string, pat: string)
    requires |pat| > 0 && pat[0] != '/'
    ensures Text.ReplaceAll("/" + p, pat, "") == "/" + Text.ReplaceAll(p, pat, "")
  {
    assert !(pat <= "/" + p);
    assert ("/" + p)[1..] == p;
  }

  predicate EndsWith(h: string, q: string) {
    |h| >= |q| && h[|h| - |q|..] == q
  }

  /**
   * For `https://h/p`, the domain is `h`, provided `h` holds no '/' and does
   * not end in "https:" or "http:" (which would combine with the '/' after
   * it into a scheme that `replace` removes).
   */
  lemma DomainOfHttpsUrl(h: string, p: string)
    requires '/' !in h
    requires !EndsWith(h, "https:") && !EndsWith(h, "http:")
    ensures Domain("https://" + h + "/" + p) == h
  {
    var url := "https://" + h + "/" + p;
    StripHttpsUrl(h, p);
    DomainBeforeSlash(url, h, Strip(p));
  }

  /** Stripping `https://h/p` leaves `h/`, then `p` stripped: no scheme straddles the host's end. */
  lemma StripHttpsUrl(h: string, p: string)
    requires '/' !in h
    requires !EndsWith(h, "https:") && !EndsWith(h, "http:")
    ensures Strip("https://" + h + "/" + p) == h + ("/" + Strip(p))
  {
    var url := "https://" + h + "/" + p;
    assert "https://" <= url;
    assert url[|"https://"|..] == h + ("/" + p);
    assert Text.ReplaceAll(url, "https://", "") == Text.ReplaceAll(h + ("/" + p), "https://", "");
    assert "https:" + "//" == "https://" && "http:" + "//" == "http://";
    var p1 := Text.ReplaceAll(p, "https://", "");
    SchemeAfterHost(h, p, "https:");
    assert Text.ReplaceAll(url, "https://", "") == h + ("/" + p1);
    SchemeAfterHost(h, p1, "http:");
  }

  /** Removing `q` + "//" from `h/p` leaves `h/` alone when `h` does not end in `q`. */
  lemma SchemeAfterHost(h: string, p: string, q: string)
    requires |q| > 0 && '/' !in q && '/' !in h && !EndsWith(h, q)
    ensures Text.ReplaceAll(h + ("/" + p), q + "//", "") == h + ("/" + Text.ReplaceAll(p, q + "//", ""))
  {
    NoStraddle(h, "/" + p, q);
    Text.ReplaceAllSkipsPrefix(h, "/" + p, q + "//", "");
    ReplaceAfterSlash(p, q + "//");
  }

  /** When the stripped URL is `h/...` with no '/' in `h`, the domain is `h`. */
  lemma DomainBeforeSlash(url: string, h: string, tail: string)
    requires '/' !in h
    requires Strip(url) == h + ("/" + tail)
    ensures Domain(url) == h
  {
    var s := Strip(url);
    var d := Domain(url);
    assert s[|h|] == '/';
    assert s[..|h|] == h;
  }

  /** Without the suffix condition the property fails: "https://https://x" has domain "x", not "https:". */
  lemma DomainStraddles()
    ensures Domain("https://" + "https:" + "/" + "/x") == "x"
  {
    var url := "https://" + "https:" + "/" + "/x";
    assert url == "https://https://x";
    assert "https://" <= url;
    assert url[8..] == "https://x";
    assert "https://" <= url[8..];
    assert url[8..][8..] == "x";
    assert Text.ReplaceAll("x", "https://", "") == "x";
    assert Text.ReplaceAll(url, "https://", "") == "x";
    assert Text.ReplaceAll("x", "http://", "") == "x";
  }

  // ---------------------------------------------------------------------
  // GetStats
  // ---------------------------------------------------------------------

  datatype Stats = Stats(
    totalDownloads: nat, succeeded: nat, failed: nat, activeUsers: nat,
    dailyCounts: seq<Bucket<int>>, topDomains: seq<Bucket<string>>)

  const Day: int := 86400

  /** `date(created_at)`: the day a time falls in. */
  function DayOf(t: int): int {
    t / Day
  }

  /** `created_at >= datetime('now', '-30 days')`. */
  function InWindow(now: int): Downloads.Listed -> bool {
    (x: Downloads.Listed) => x.val.createdAt >= now - 30 * Day
  }

  /** The distinct user ids: `COUNT(DISTINCT telegram_user_id)` (line 34). */
  function UserIds(rows: seq<Downloads.Listed>): (us: set<int>)
    ensures |us| <= |rows|
    ensures forall k :: 0 <= k < |rows| ==> rows[k].val.userId in us
    ensures forall u :: u in us ==> exists k :: 0 <= k < |rows| && rows[k].val.userId == u
  {
    if rows == [] then {}
    else
      var rest := UserIds(rows[1..]);
      UserIdsCons(rows, rest);
      {rows[0].val.userId} + rest
  }

  /** The first row's user joined to the ids of the remaining rows. */
  lemma UserIdsCons(rows: seq<Downloads.Listed>, rest: set<int>)
    requires rows != [] && |rest| <= |rows| - 1
    requires forall k :: 0 <= k < |rows| - 1 ==> rows[1..][k].val.userId in rest
    requires forall u :: u in rest ==> exists k :: 0 <= k < |rows| - 1 && rows[1..][k].val.userId == u
    ensures var us := {rows[0].val.userId} + rest;
      && |us| <= |rows|
      && (forall k :: 0 <= k < |rows| ==> rows[k].val.userId in us)
      && (forall u :: u in us ==> exists k :: 0 <= k < |rows| && rows[k].val.userId == u)
  {
    forall k | 1 <= k < |rows|
      ensures rows[k].val.userId in rest
    {
      assert rows[1..][k - 1] == rows[k];
    }
    forall u | u in rest
      ensures exists k :: 0 <= k < |rows| && rows[k].val.userId == u
    {
      var k :| 0 <= k < |rows| - 1 && rows[1..][k].val.userId == u;
      assert rows[k + 1].val.userId == u;
    }
  }

  /** The day of each row, in row order. */
  function Days(rows: seq<Downloads.Listed>): (ds: seq<int>)
    ensures |ds| == |rows| && forall k :: 0 <= k < |rows| ==> ds[k] == DayOf(rows[k].val.createdAt)
  {
    seq(|rows|, k requires 0 <= k < |rows| => DayOf(rows[k].val.createdAt))
  }

  /** The domain of each row, in row order. */
  function Domains(rows: seq<Downloads.Listed>): (ds: seq<string>)
    ensures |ds| == |rows| && forall k :: 0 <= k < |rows| ==> ds[k] == Domain(rows[k].val.url)
  {
    seq(|rows|, k requires 0 <= k < |rows| => Domain(rows[k].val.url))
  }

  /** Sorted by day and one bucket per day: the days strictly descend. */
  lemma StrictlyDescendingDays(r: seq<Bucket<int>>)
    requires Ordering.SortedDesc(r, DayKey) && DistinctKeys(r)
    ensures forall i, j :: 0 <= i < j < |r| ==> r[i].key > r[j].key
  {
    forall i, j | 0 <= i < j < |r|
      ensures r[i].key > r[j].key
    {
      assert DayKey(r[i]) >= DayKey(r[j]);
    }
  }

  /** The distinct user ids are the set of every row's user. */
  lemma DistinctUsers(rows: seq<Downloads.Listed>, us: set<int>)
    requires us == UserIds(rows)
    ensures us == set k | 0 <= k < |rows| :: rows[k].val.userId
  {
  }

  /** Every row inside the window falls on a day no earlier than the window's first. */
  lemma RecentDays(rows: seq<Downloads.Listed>, now: int)
    ensures forall d :: d in Days(Ordering.Filter(rows, InWindow(now))) ==> d >= DayOf(now - 30 * Day)
  {
    var recent := Ordering.Filter(rows, InWindow(now));
    forall d | d in Days(recent)
      ensures d >= DayOf(now - 30 * Day)
    {
      var k :| 0 <= k < |recent| && Days(recent)[k] == d;
      assert InWindow(now)(recent[k]);
    }
  }

  /**
   * Lines 39-57: one bucket per day with downloads in the last 30 days,
   * latest day first, each holding that day's number of downloads.
   */
  function DailyCounts(rows: seq<Downloads.Listed>, now: int): (r: seq<Bucket<int>>)
    ensures Groups(r, Days(Ordering.Filter(rows, InWindow(now))))
    ensures forall i, j :: 0 <= i < j < |r| ==> r[i].key > r[j].key
    ensures forall i :: 0 <= i < |r| ==> r[i].key >= DayOf(now - 30 * Day)
    ensures Total(r) <= |rows|
  {
    var ds := Days(Ordering.Filter(rows, InWindow(now)));
    var r := GroupSorted(ds, DayKey);
    DailyBuckets(rows, now, r);
    assert Total(r) == |ds| <= |rows|;
    r
  }

  lemma DailyBuckets(rows: seq<Downloads.Listed>, now: int, r: seq<Bucket<int>>)
    requires r == GroupSorted(Days(Ordering.Filter(rows, InWindow(now))), DayKey)
    ensures forall i, j :: 0 <= i < j < |r| ==> r[i].key > r[j].key
    ensures forall i :: 0 <= i < |r| ==> r[i].key >= DayOf(now - 30 * Day)
  {
    var xs := Days(Ordering.Filter(rows, InWindow(now)));
    assert Ordering.SortedDesc(r, DayKey) && Groups(r, xs);
    StrictlyDescendingDays(r);
    RecentDays(rows, now);
    forall i | 0 <= i < |r|
      ensures r[i].key >= DayOf(now - 30 * Day)
    {
      assert r[i].key in Keys(r) by {
        assert Keys(r)[i] == r[i].key;
      }
      assert r[i].key in xs;
    }
  }

  /**
   * Keeping the first `n` buckets of a grouping sorted by count, most first,
   * leaves out no key with more rows than a kept one.
   */
  lemma TopPrefix<K(!new)>(sorted: seq<Bucket<K>>, xs: seq<K>, n: nat)
    requires Ordering.SortedDesc(sorted, CountKey) && Groups(sorted, xs) && n <= |sorted|
    ensures forall x :: x in xs && x !in Keys(sorted[..n]) ==>
      forall i :: 0 <= i < n ==> multiset(xs)[x] <= sorted[i].count
  {
    forall x | x in xs && x !in Keys(sorted[..n])
      ensures forall i :: 0 <= i < n ==> multiset(xs)[x] <= sorted[i].count
    {
      assert forall k :: 0 <= k < n ==> Keys(sorted[..n])[k] == Keys(sorted)[k];
      var j :| 0 <= j < |sorted| && Keys(sorted)[j] == x;
      assert forall i :: 0 <= i < n ==> CountKey(sorted[i]) >= CountKey(sorted[j]);
    }
  }

  /** A prefix of a grouping sorted by count is still sorted, one bucket per key, with true counts. */
  lemma PrefixGroups<K(!new)>(sorted: seq<Bucket<K>>, xs: seq<K>, n: nat)
    requires Ordering.SortedDesc(sorted, CountKey) && Groups(sorted, xs) && n <= |sorted|
    ensures Ordering.SortedDesc(sorted[..n], CountKey)
    ensures DistinctKeys(sorted[..n])
    ensures forall i :: 0 <= i < n ==> sorted[..n][i].count == multiset(xs)[sorted[..n][i].key] && sorted[..n][i].count > 0
    ensures Total(sorted[..n]) <= |xs|
  {
    assert forall i :: 0 <= i < n ==> sorted[..n][i] == sorted[i];
    TotalPrefix(sorted, n);
  }

  /** Only a full page can leave a key out. */
  lemma ShortPrefixHasAll<K(!new)>(sorted: seq<Bucket<K>>, xs: seq<K>, n: nat, limit: nat)
    requires Groups(sorted, xs) && n == (if |sorted| < limit then |sorted| else limit)
    ensures forall x :: x in xs && x !in Keys(sorted[..n]) ==> n == limit
  {
    if n < limit {
      assert sorted[..n] == sorted;
    }
  }

  /** The `limit` keys with the most rows, most first: `ORDER BY count DESC LIMIT limit`. */
  function Top<K(==,!new)>(xs: seq<K>, limit: nat): (r: seq<Bucket<K>>)
    ensures |r| <= limit
    ensures Ordering.SortedDesc(r, CountKey)
    ensures DistinctKeys(r)
    ensures forall i :: 0 <= i < |r| ==> r[i].count == multiset(xs)[r[i].key] && r[i].count > 0
    ensures forall x :: x in xs && x !in Keys(r) ==> |r| == limit && forall i :: 0 <= i < |r| ==> multiset(xs)[x] <= r[i].count
    ensures Total(r) <= |xs|
  {
    var sorted := GroupSorted(xs, CountKey);
    var n := if |sorted| < limit then |sorted| else limit;
    PrefixGroups(sorted, xs, n);
    TopPrefix(sorted, xs, n);
    ShortPrefixHasAll(sorted, xs, n, limit);
    sorted[..n]
  }

  /**
   * Lines 59-79: the domains with the most downloads, most first, at most
   * ten of them, each with its number of downloads; a domain left out has
   * no more downloads than any listed one, and one is left out only when
   * ten are listed.
   */
  function TopDomains(rows: seq<Downloads.Listed>): (r: seq<Bucket<string>>)
    ensures |r| <= 10
    ensures Ordering.SortedDesc(r, CountKey)
    ensures DistinctKeys(r)
    ensures forall i :: 0 <= i < |r| ==> r[i].count == multiset(Domains(rows))[r[i].key] && r[i].count > 0
    ensures forall d :: d in Domains(rows) && d !in Keys(r) ==> |r| == 10 && forall i :: 0 <= i < |r| ==> multiset(Domains(rows))[d] <= r[i].count
    ensures Total(r) <= |rows|
  {
    Top(Domains(rows), 10)
  }

  /**
   * `GetStats` (lines 22-82): the headline counts, the number of distinct
   * users, one bucket per recent day, and the top ten domains.
   */
  function GetStats(l: Downloads.Ledger, now: int): (s: Stats)
    ensures s.totalDownloads == |l.rows|
    ensures s.succeeded == Ordering.Count(l.rows, Downloads.Succeeded)
    ensures s.failed == Ordering.Count(l.rows, Downloads.Failed)
    ensures s.succeeded + s.failed <= s.totalDownloads
    ensures s.activeUsers == |set k | 0 <= k < |l.rows| :: l.rows[k].val.userId|
    ensures s.activeUsers <= s.totalDownloads
    ensures s.dailyCounts == DailyCounts(l.rows, now)
    ensures Groups(s.dailyCounts, Days(Ordering.Filter(l.rows, InWindow(now))))
    ensures forall i, j :: 0 <= i < j < |s.dailyCounts| ==> s.dailyCounts[i].key > s.dailyCounts[j].key
    ensures Total(s.dailyCounts) <= s.totalDownloads
    ensures s.topDomains == TopDomains(l.rows)
    ensures |s.topDomains| <= 10
    ensures forall i :: 0 <= i < |s.topDomains| ==>
      s.topDomains[i].count == multiset(Domains(l.rows))[s.topDomains[i].key]
  {
    var d := Downloads.GetDownloadStats(l);
    var us := UserIds(l.rows);
    DistinctUsers(l.rows, us);
    Stats(d.total, d.succeeded, d.failed, |us|, DailyCounts(l.rows, now), TopDomains(l.rows))
  }

  /** The headline counts agree with the ledger's own counts. */
  lemma StatsAgreeWithLedger(l: Downloads.Ledger, now: int)
    ensures var s := GetStats(l, now);
      var d := Downloads.GetDownloadStats(l);
      s.totalDownloads == d.total && s.succeeded == d.succeeded && s.failed == d.failed
  {
  }
}

=== FILE: strconv.dfy ===
/**
 * Go's `strconv.ParseInt(s, 10, 64)`, which the dashboard handlers use to
 * read ids from form fields and then call with the error ignored. The value
 * it returns alongside an error is what those handlers act on: zero for a
 * syntax error, and the nearest 64-bit bound when the digits overflow.
 *
 * The digits are read left to right; an overflow ends the scan at once, so
 * a too-long run of digits followed by junk is a range error, not a syntax
 * error.
 */
module GoStrconv {
  const MaxUint64: int := 0xFFFF_FFFF_FFFF_FFFF
  const MaxInt64: int := 0x7FFF_FFFF_FFFF_FFFF
  const MinInt64: int := -0x8000_0000_0000_0000

  /** Go's `cutoff` for base 10: the smallest accumulator whose tenfold overflows. */
  const Cutoff: int := MaxUint64 / 10 + 1

  datatype NumError = NoError | SyntaxError | RangeError

  datatype Parsed = Parsed(value: int, err: NumError)

  predicate IsDigit(c: char) {
    '0' <= c <= '9'
  }

  function DigitValue(c: char): (d: int)
    requires IsDigit(c)
    ensures 0 <= d < 10
  {
    c as int - '0' as int
  }

  /** The scan loop of `ParseUint` in base 10, continuing from accumulator `n`. */
  function ScanDigits(s: string, n: int): (r: Parsed)
    requires 0 <= n <= MaxUint64
    ensures 0 <= r.value <= MaxUint64
    ensures r.err == SyntaxError ==> r.value == 0
    ensures r.err == RangeError ==> r.value == MaxUint64
    decreases |s|
  {
    if s == [] then Parsed(n, NoError)
    else if !IsDigit(s[0]) then Parsed(0, SyntaxError)
    else if n >= Cutoff then Parsed(MaxUint64, RangeError)
    else
      var n1 := n * 10 + DigitValue(s[0]);
      if n1 > MaxUint64 then Parsed(MaxUint64, RangeError)
      else ScanDigits(s[1..], n1)
  }

  /** `strconv.ParseUint(s, 10, 64)`: the empty string is a syntax error. */
  function ParseUint(s: string): (r: Parsed)
    ensures 0 <= r.value <= MaxUint64
    ensures r.err == SyntaxError ==> r.value == 0
    ensures r.err == RangeError ==> r.value == MaxUint64
    ensures s == [] ==> r == Parsed(0, SyntaxError)
  {
    if s == [] then Parsed(0, SyntaxError) else ScanDigits(s, 0)
  }

  /**
   * `strconv.ParseInt(s, 10, 64)`: an optional sign, then `ParseUint` of the
   * rest; a syntax error gives 0, a magnitude past the signed range gives
   * the bound on that side with a range error.
   */
  function ParseInt(s: string): (r: Parsed)
    ensures MinInt64 <= r.value <= MaxInt64
    ensures r.err == SyntaxError ==> r.value == 0
    ensures r.err == RangeError ==> r.value == MaxInt64 || r.value == MinInt64
    ensures s == [] ==> r == Parsed(0, SyntaxError)
  {
    if s == [] then Parsed(0, SyntaxError)
    else
      var neg := s[0] == '-';
      var digits := if s[0] == '+' || s[0] == '-' then s[1..] else s;
      var un := ParseUint(digits);
      if un.err == SyntaxError then Parsed(0, SyntaxError)
      else if !neg && un.value >= MaxInt64 + 1 then Parsed(MaxInt64, RangeError)
      else if neg && un.value > MaxInt64 + 1 then Parsed(MinInt64, RangeError)
      else Parsed(if neg then -un.value else un.value, NoError)
  }

  // ---------------------------------------------------------------------
  // The partner: decimal formatting and the round trip
  // ---------------------------------------------------------------------

  function DigitChar(d: int): (c: char)
    requires 0 <= d < 10
    ensures IsDigit(c) && DigitValue(c) == d
  {
    ('0' as int + d) as char
  }

  /** The decimal digits of `n`, most significant first, without leading zeros. */
  function Digits(n: nat): (ds: string)
    ensures |ds| >= 1
    ensures forall k :: 0 <= k < |ds| ==> IsDigit(ds[k])
    decreases n
  {
    if n < 10 then [DigitChar(n)] else Digits(n / 10) + [DigitChar(n % 10)]
  }

  /** `strconv.FormatInt(n, 10)`. */
  function FormatInt(n: int): (s: string)
    ensures |s| >= 1
  {
    if n < 0 then "-" + Digits(-n) else Digits(n)
  }

  /** The value of a digit string read left to right from accumulator `n`, without bounds. */
  function Value(ds: string, n: int): int
    requires forall k :: 0 <= k < |ds| ==> IsDigit(ds[k])
    decreases |ds|
  {
    if ds == [] then n else Value(ds[1..], n * 10 + DigitValue(ds[0]))
  }

  lemma {:induction false} ValueGrows(ds: string, n: int)
    requires forall k :: 0 <= k < |ds| ==> IsDigit(ds[k])
    requires n >= 0
    ensures Value(ds, n) >= n
    decreases |ds|
  {
    if ds != [] {
      ValueGrows(ds[1..], n * 10 + DigitValue(ds[0]));
    }
  }

  lemma {:induction false} ValueSnoc(ds: string, c: char, n: int)
    requires forall k :: 0 <= k < |ds| ==> IsDigit(ds[k])
    requires IsDigit(c)
    ensures Value(ds + [c], n) == Value(ds, n) * 10 + DigitValue(c)
    decreases |ds|
  {
    if ds == [] {
      assert ds + [c] == [c];
    } else {
      assert (ds + [c])[1..] == ds[1..] + [c];
      ValueSnoc(ds[1..], c, n * 10 + DigitValue(ds[0]));
    }
  }

  lemma {:induction false} ValueOfDigits(n: nat)
    ensures Value(Digits(n), 0) == n
    decreases n
  {
    if n >= 10 {
      ValueOfDigits(n / 10);
      ValueSnoc(Digits(n / 10), DigitChar(n % 10), 0);
    }
  }

  /** A digit string whose value fits is scanned to that value without error. */
  lemma {:induction false} ScanFits(ds: string, n: int)
    requires forall k :: 0 <= k < |ds| ==> IsDigit(ds[k])
    requires 0 <= n <= MaxUint64 && Value(ds, n) <= MaxUint64
    ensures ScanDigits(ds, n) == Parsed(Value(ds, n), NoError)
    decreases |ds|
  {
    if ds != [] {
      var n1 := n * 10 + DigitValue(ds[0]);
      ValueGrows(ds[1..], n1);
      ScanFits(ds[1..], n1);
    }
  }

  /** Every 64-bit integer formats to a string that parses back to it without error. */
  lemma ParseFormat(n: int)
    requires MinInt64 <= n <= MaxInt64
    ensures ParseInt(FormatInt(n)) == Parsed(n, NoError)
  {
    var m: nat := if n < 0 then -n else n;
    ValueOfDigits(m);
    ScanFits(Digits(m), 0);
    var s := FormatInt(n);
    if n < 0 {
      assert s[1..] == Digits(m);
    } else {
      assert Digits(m)[0] != '+' && Digits(m)[0] != '-';
    }
  }

  /** A digit run too long for 64 bits parses to the upper bound, whatever follows it. */
  lemma OverflowClamps(ds: string, rest: string)
    requires forall k :: 0 <= k < |ds| ==> IsDigit(ds[k])
    requires |ds| >= 1 && Value(ds, 0) > MaxUint64
    ensures ParseInt(ds + rest) == Parsed(MaxInt64, RangeError)
  {
    OverflowScan(ds, rest, 0);
  }

  lemma {:induction false} OverflowScan(ds: string, rest: string, n: int)
    requires forall k :: 0 <= k < |ds| ==> IsDigit(ds[k])
    requires 0 <= n <= MaxUint64 && Value(ds, n) > MaxUint64
    ensures ScanDigits(ds + rest, n) == Parsed(MaxUint64, RangeError)
    decreases |ds|
  {
    var s := ds + rest;
    assert s[0] == ds[0];
    var n1 := n * 10 + DigitValue(ds[0]);
    if n < Cutoff && n1 <= MaxUint64 {
      assert s[1..] == ds[1..] + rest;
      OverflowScan(ds[1..], rest, n1);
    }
  }
}

=== FILE: tables.dfy ===
/**
 * A SQLite table whose key is `INTEGER PRIMARY KEY AUTOINCREMENT`: rows in
 * ascending id order and the table's `sqlite_sequence` entry, the largest id
 * ever handed out. A new row takes the id one above it, so ids are never
 * reused, even after a delete.
 */
module Tables {
  import opened Wrappers
  import Ordering

  datatype Row<T> = Row(id: int, val: T)

  datatype Table<T> = Table(rows: seq<Row<T>>, high: int)

  /** Ids strictly ascend along `rows`. */
  predicate Ascending<T>(rows: seq<Row<T>>) {
    forall i, j :: 0 <= i < j < |rows| ==> rows[i].id < rows[j].id
  }

  /** Ids ascend along the rows, are positive, and none exceeds the sequence. */
  predicate Valid<T>(t: Table<T>) {
    && Ascending(t.rows)
    && (forall i :: 0 <= i < |t.rows| ==> 0 < t.rows[i].id <= t.high)
    && t.high >= 0
  }

  function Empty<T>(): (t: Table<T>)
    ensures Valid(t) && t.rows == []
  {
    Table([], 0)
  }

  /** The value stored under `id`, if any: `SELECT ... WHERE id = ?`. */
  function Get<T>(rows: seq<Row<T>>, id: int): (r: Option<T>)
    ensures r.Some? <==> exists k :: 0 <= k < |rows| && rows[k].id == id
    ensures r.Some? ==> Row(id, r.value) in rows
  {
    if rows == [] then None
    else if rows[0].id == id then Some(rows[0].val)
    else
      var r := Get(rows[1..], id);
      assert forall k :: 1 <= k < |rows| ==> rows[k] == rows[1..][k - 1];
      r
  }

  /** `INSERT`: the new row goes last, under an id above every id used so far. */
  function Insert<T>(t: Table<T>, v: T): (r: (Table<T>, int))
    requires Valid(t)
    ensures Valid(r.0)
    ensures r.0.rows == t.rows + [Row(r.1, v)]
    ensures forall x :: x in t.rows ==> x.id < r.1
    ensures r.1 == t.high + 1 && r.0.high == r.1
  {
    var id := t.high + 1;
    (Table(t.rows + [Row(id, v)], id), id)
  }

  /** `UPDATE ... WHERE id = ?`: the row with that id, if any, takes `f` of its value. */
  function Update<T>(t: Table<T>, id: int, f: T -> T): (r: Table<T>)
    ensures r.high == t.high && |r.rows| == |t.rows|
    ensures forall k :: 0 <= k < |t.rows| ==> r.rows[k].id == t.rows[k].id
    ensures forall k :: 0 <= k < |t.rows| && t.rows[k].id == id ==> r.rows[k].val == f(t.rows[k].val)
    ensures forall k :: 0 <= k < |t.rows| && t.rows[k].id != id ==> r.rows[k] == t.rows[k]
    ensures Valid(t) ==> Valid(r)
  {
    Table(UpdateRows(t.rows, id, f), t.high)
  }

  function UpdateRows<T>(rows: seq<Row<T>>, id: int, f: T -> T): (r: seq<Row<T>>)
    ensures |r| == |rows|
    ensures forall k :: 0 <= k < |rows| ==> r[k] == if rows[k].id == id then Row(id, f(rows[k].val)) else rows[k]
  {
    if rows == [] then []
    else [if rows[0].id == id then Row(id, f(rows[0].val)) else rows[0]] + UpdateRows(rows[1..], id, f)
  }

  /** `DELETE ... WHERE id = ?`: every other row stays, in order; the sequence is kept. */
  function Delete<T(!new)>(t: Table<T>, id: int): (r: Table<T>)
    ensures r.high == t.high
    ensures forall x :: x in r.rows <==> x in t.rows && x.id != id
    ensures |r.rows| <= |t.rows|
    ensures Valid(t) ==> Valid(r)
  {
    Table(DeleteRows(t.rows, id), t.high)
  }

  function DeleteRows<T(!new)>(rows: seq<Row<T>>, id: int): (r: seq<Row<T>>)
    ensures forall x :: x in r <==> x in rows && x.id != id
    ensures |r| <= |rows|
    ensures Ascending(rows) ==> Ascending(r)
  {
    if rows == [] then []
    else
      var rest := DeleteRows(rows[1..], id);
      if rows[0].id == id then rest
      else
        KeepHead(rows, rest);
        [rows[0]] + rest
  }

  /** Putting back a first row that ascends into the rest keeps the ids ascending. */
  lemma KeepHead<T>(rows: seq<Row<T>>, rest: seq<Row<T>>)
    requires rows != []
    requires forall x :: x in rest ==> x in rows[1..]
    requires Ascending(rows[1..]) ==> Ascending(rest)
    ensures Ascending(rows) ==> Ascending([rows[0]] + rest)
  {
    if Ascending(rows) {
      var r := [rows[0]] + rest;
      forall i, j | 0 <= i < j < |r|
        ensures r[i].id < r[j].id
      {
        assert r[j] == rest[j - 1];
        assert rest[j - 1] in rows[1..];
        if i == 0 {
          var k :| 0 <= k < |rows[1..]| && rows[1..][k] == rest[j - 1];
          assert rows[k + 1] == rest[j - 1];
        } else {
          assert Ascending(rows[1..]) by {
            forall a, b | 0 <= a < b < |rows[1..]|
              ensures rows[1..][a].id < rows[1..][b].id
            {
              assert rows[1..][a] == rows[a + 1] && rows[1..][b] == rows[b + 1];
            }
          }
          assert r[i] == rest[i - 1];
        }
      }
    }
  }

  /** A `WHERE` clause keeps the id order. */
  lemma {:induction false} FilterAscending<T>(rows: seq<Row<T>>, p: Row<T> -> bool)
    requires Ascending(rows)
    ensures Ascending(Ordering.Filter(rows, p))
    decreases |rows|
  {
    if rows != [] {
      var tail := rows[1..];
      var rest := Ordering.Filter(tail, p);
      assert Ascending(tail);
      FilterAscending(tail, p);
      assert forall x :: x in tail ==> rows[0].id < x.id by {
        forall x | x in tail
          ensures rows[0].id < x.id
        {
          var j :| 0 <= j < |tail| && tail[j] == x;
          assert tail[j] == rows[j + 1];
        }
      }
      if p(rows[0]) {
        assert Ordering.Filter(rows, p) == [rows[0]] + rest;
      } else {
        assert Ordering.Filter(rows, p) == rest;
      }
    }
  }

  /** Reversing ascending ids gives strictly descending ids: `ORDER BY id DESC`. */
  lemma ReverseDescending<T>(rows: seq<Row<T>>)
    requires Ascending(rows)
    ensures var r := Ordering.Reverse(rows);
      forall i, j :: 0 <= i < j < |r| ==> r[i].id > r[j].id
  {
  }
}

=== FILE: text.dfy ===
/**
 * The string functions the core relies on: Go's `strings.TrimSpace`,
 * `strings.Split` and `strings.Join` with a one-character separator, and
 * SQLite's `replace` and `instr`. Strings are sequences of Unicode scalar
 * values; UTF-8 decoding is not modelled.
 */
module Text {

  /** Go's `unicode.IsSpace`: the white-space characters `TrimSpace` removes. */
  predicate IsSpace(c: char) {
    || c == ' ' || c == '\t' || c == '\n' || c == '\r'
    || c == '\U{000B}' || c == '\U{000C}' || c == '\U{0085}' || c == '\U{00A0}'
    || c == '\U{1680}' || ('\U{2000}' <= c <= '\U{200A}')
    || c == '\U{2028}' || c == '\U{2029}' || c == '\U{202F}' || c == '\U{205F}'
    || c == '\U{3000}'
  }

  /** Neither end of `s` is white space. */
  predicate Trimmed(s: string) {
    s == [] || (!IsSpace(s[0]) && !IsSpace(s[|s| - 1]))
  }

  /** Drops leading white space. */
  function TrimStart(s: string): (r: string)
    ensures |r| <= |s| && r == s[|s| - |r|..]
    ensures forall k :: 0 <= k < |s| - |r| ==> IsSpace(s[k])
    ensures r == [] || !IsSpace(r[0])
  {
    if s == [] || !IsSpace(s[0]) then s else TrimStart(s[1..])
  }

  /** Drops trailing white space. */
  function TrimEnd(s: string): (r: string)
    ensures |r| <= |s| && r == s[..|r|]
    ensures forall k :: |r| <= k < |s| ==> IsSpace(s[k])
    ensures r == [] || !IsSpace(r[|r| - 1])
  {
    if s == [] || !IsSpace(s[|s| - 1]) then s else TrimEnd(s[..|s| - 1])
  }

  /** Go's `strings.TrimSpace`: the longest infix of `s` with no white space at either end. */
  function TrimSpace(s: string): (r: string)
    ensures Trimmed(r)
    ensures |r| <= |s|
    ensures forall c :: c in r ==> c in s
    ensures (forall c :: c in s ==> IsSpace(c)) ==> r == []
    ensures exists i :: SpaceAround(s, r, i)
  {
    var t := TrimStart(s);
    var r := TrimEnd(t);
    assert forall c :: c in r ==> c in t;
    assert forall c :: c in t ==> c in s;
    TrimmedInfix(s, t, r);
    r
  }

  /** `r` sits at position `i` of `s` with only white space before and after it. */
  predicate SpaceAround(s: string, r: string, i: int) {
    && 0 <= i <= |s| - |r| && r == s[i..i + |r|]
    && (forall k :: 0 <= k < i ==> IsSpace(s[k]))
    && (forall k :: i + |r| <= k < |s| ==> IsSpace(s[k]))
  }

  /** Trimming the start and then the end leaves an infix with only white space around it. */
  lemma TrimmedInfix(s: string, t: string, r: string)
    requires |t| <= |s| && t == s[|s| - |t|..]
    requires forall k :: 0 <= k < |s| - |t| ==> IsSpace(s[k])
    requires |r| <= |t| && r == t[..|r|]
    requires forall k :: |r| <= k < |t| ==> IsSpace(t[k])
    ensures SpaceAround(s, r, |s| - |t|)
  {
    var i := |s| - |t|;
    forall k | 0 <= k < |r|
      ensures r[k] == s[i + k]
    {
      assert r[k] == t[k];
    }
    assert r == s[i..i + |r|];
    forall k | i + |r| <= k < |s|
      ensures IsSpace(s[k])
    {
      assert s[k] == t[k - i];
    }
  }

  /** A string already trimmed is left as it is, so `TrimSpace` is idempotent. */
  lemma TrimSpaceOfTrimmed(s: string)
    requires Trimmed(s)
    ensures TrimSpace(s) == s
  {
  }

  lemma TrimSpaceIdempotent(s: string)
    ensures TrimSpace(TrimSpace(s)) == TrimSpace(s)
  {
    TrimSpaceOfTrimmed(TrimSpace(s));
  }

  /** Go's `strings.Split(s, string(sep))`: the pieces between separators, always at least one. */
  function Split(s: string, sep: char): (r: seq<string>)
    ensures |r| >= 1
    ensures forall p :: p in r ==> sep !in p
    ensures forall p, c :: p in r && c in p ==> c in s
    decreases |s|
  {
    if s == [] then [""]
    else
      var rest := Split(s[1..], sep);
      if s[0] == sep then [""] + rest
      else [[s[0]] + rest[0]] + rest[1..]
  }

  /** Go's `strings.Join(xs, string(sep))`. */
  function Join(xs: seq<string>, sep: char): string
  {
    if |xs| == 0 then ""
    else if |xs| == 1 then xs[0]
    else xs[0] + [sep] + Join(xs[1..], sep)
  }

  lemma {:induction false} SplitWithoutSep(a: string, sep: char)
    requires sep !in a
    ensures Split(a, sep) == [a]
    decreases |a|
  {
    if a != [] {
      SplitWithoutSep(a[1..], sep);
      assert [a[0]] + a[1..] == a;
    }
  }

  lemma {:induction false} SplitAtSep(a: string, b: string, sep: char)
    requires sep !in a
    ensures Split(a + [sep] + b, sep) == [a] + Split(b, sep)
    decreases |a|
  {
    var s := a + [sep] + b;
    if a == [] {
      assert s[1..] == b;
    } else {
      assert s[1..] == a[1..] + [sep] + b;
      SplitAtSep(a[1..], b, sep);
      assert [a[0]] + a[1..] == a;
    }
  }

  /** A separator-free prefix glues onto the first piece of what follows it. */
  lemma {:induction false} SplitPrefix(x: string, y: string, sep: char)
    requires sep !in x
    ensures var rest := Split(y, sep);
      Split(x + y, sep) == [x + rest[0]] + rest[1..]
    decreases |x|
  {
    var rest := Split(y, sep);
    if x == [] {
      assert x + y == y;
      assert x + rest[0] == rest[0];
      assert rest == [rest[0]] + rest[1..];
    } else {
      var s := x + y;
      assert s[0] == x[0] && s[0] != sep;
      assert s[1..] == x[1..] + y;
      SplitPrefix(x[1..], y, sep);
      var r := Split(s[1..], sep);
      assert r == [x[1..] + rest[0]] + rest[1..];
      assert r[0] == x[1..] + rest[0] && r[1..] == rest[1..];
      assert [x[0]] + (x[1..] + rest[0]) == x + rest[0];
      assert Split(s, sep) == [[s[0]] + r[0]] + r[1..];
    }
  }

  /** Splitting a join of separator-free pieces gives the pieces back. */
  lemma {:induction false} SplitJoin(xs: seq<string>, sep: char)
    requires |xs| >= 1
    requires forall x :: x in xs ==> sep !in x
    ensures Split(Join(xs, sep), sep) == xs
    decreases |xs|
  {
    if |xs| == 1 {
      SplitWithoutSep(xs[0], sep);
    } else {
      SplitJoin(xs[1..], sep);
      SplitAtSep(xs[0], Join(xs[1..], sep), sep);
      assert [xs[0]] + xs[1..] == xs;
    }
  }

  /** Joining the pieces of a split gives the string back. */
  lemma {:induction false} JoinSplit(s: string, sep: char)
    ensures Join(Split(s, sep), sep) == s
    decreases |s|
  {
    if s != [] {
      var rest := Split(s[1..], sep);
      JoinSplit(s[1..], sep);
      if s[0] == sep {
        assert ([""] + rest)[1..] == rest;
      } else {
        var r := [[s[0]] + rest[0]] + rest[1..];
        if |rest| == 1 {
          assert Join(r, sep) == [s[0]] + rest[0];
        } else {
          assert r[1..] == rest[1..];
          assert Join(rest, sep) == rest[0] + [sep] + Join(rest[1..], sep);
        }
        assert [s[0]] + s[1..] == s;
      }
    }
  }

  /**
   * SQLite's `replace(s, pat, rep)` for a non-empty pattern: every
   * non-overlapping occurrence, scanning left to right, is replaced.
   */
  function ReplaceAll(s: string, pat: string, rep: string): string
    requires |pat| > 0
    decreases |s|
  {
    if s == [] then []
    else if pat <= s then rep + ReplaceAll(s[|pat|..], pat, rep)
    else [s[0]] + ReplaceAll(s[1..], pat, rep)
  }

  /** `pat` begins at no position of `x`, even running on into `y`. */
  predicate NoMatchStartsIn(x: string, y: string, pat: string) {
    forall k :: 0 <= k < |x| ==> !(pat <= (x + y)[k..])
  }

  /** Replacement leaves a prefix alone when no occurrence starts inside it. */
  lemma {:induction false} ReplaceAllSkipsPrefix(x: string, y: string, pat: string, rep: string)
    requires |pat| > 0
    requires NoMatchStartsIn(x, y, pat)
    ensures ReplaceAll(x + y, pat, rep) == x + ReplaceAll(y, pat, rep)
    decreases |x|
  {
    if x != [] {
      assert !(pat <= (x + y)[0..]);
      assert (x + y)[1..] == x[1..] + y;
      forall k | 0 <= k < |x[1..]|
        ensures !(pat <= (x[1..] + y)[k..])
      {
        assert (x[1..] + y)[k..] == (x + y)[k + 1..];
      }
      ReplaceAllSkipsPrefix(x[1..], y, pat, rep);
      assert [x[0]] + x[1..] == x;
    }
  }

  /** A string that does not contain `pat` is its own replacement. */
  lemma ReplaceAllAbsent(x: string, pat: string, rep: string)
    requires |pat| > 0
    requires NoMatchStartsIn(x, [], pat)
    ensures ReplaceAll(x, pat, rep) == x
  {
    ReplaceAllSkipsPrefix(x, [], pat, rep);
    assert x + [] == x;
  }

  /** SQLite's `instr(s, c)`: the 1-based position of the first `c`, or 0 when there is none. */
  function Instr(s: string, c: char): (r: nat)
    ensures r <= |s|
    ensures r == 0 <==> c !in s
    ensures r > 0 ==> s[r - 1] == c && c !in s[..r - 1]
  {
    if s == [] then 0
    else if s[0] == c then 1
    else
      var k := Instr(s[1..], c);
      assert s[1..] == s[..|s|][1..];
      if k == 0 then 0
      else
        assert s[..k] == [s[0]] + s[1..][..k - 1];
        k + 1
  }
}

=== FILE: web.dfy ===
/**
 * The slice of `net/http` the dashboard handlers use: form values and the
 * responses they write.
 */
module Web {
  /** A request's form: one value per field. */
  type Form = map<string, string>

  /** `r.FormValue(key)`: the field's value, or "" when the field is absent. */
  function FormValue(form: Form, key: string): (v: string)
    ensures key in form ==> v == form[key]
    ensures key !in form ==> v == ""
  {
    if key in form then form[key] else ""
  }

  datatype Response =
    | SeeOther(location: string)           // `http.Redirect(..., http.StatusSeeOther)`
    | HttpError(status: int, message: string)  // `http.Error(w, message, status)`
    | LoginForm(error: string)             // the login template, with an error line or ""
    | Handled                              // whatever the wrapped handler writes
}

=== FILE: wrappers.dfy ===
/** Optional values, standing in for Go's nil pointers and "comma ok" lookups. */
module Wrappers {

  datatype Option<+T> = None | Some(value: T)
}
